=== FILE: README.md ===
# agrifinAI core in Dafny

agrifinAI is a farm-finance and marketplace application. An Express/Mongoose
backend keeps farmers, loans and product listings and guards its routes with
bearer tokens. A Next.js front end offers a marketplace, a sell form, loan
applications, admin moderation screens, a news feed, weather advice and
AI-assisted crop and soil diagnosis. This project models the deterministic
rules underneath that application and proves properties of them.

The backend part is a store of three collections:

- The schema rules of `Farmer`, `Loan` and `Product` are validity predicates.
- Saving a document is a validity check followed by a write.
- The unique email index is a check against the other farmers.
- The REST controllers are pure functions or short methods from a store and a request to a reply and a new store.

The front-end part models these rules:

- the pure helpers of the API routes: the news query and classifier, the fallback crop diagnosis and the soil-report normaliser;
- the client-side validators, filters and counters;
- the small state machines of the pages, such as the login registry, translation caches, the auth gate and the speech highlight.

Every outside service is an input or a parameter of the operation that uses it:

- language models;
- weather and news providers;
- token verification;
- local storage;
- the clock;
- the speech engine.

Each source file has its own module:

| module | file |
|---|---|
| `FarmerModel`, `LoanModel`, `ProductModel`, `Store` | the Mongoose schemas and the collections |
| `FarmerController`, `LoanController`, `ProductController`, `Auth` | the backend controllers and the auth middleware |
| `Routes` | the backend's route tables and its 404 handler |
| `FarmerNews`, `CropAnalysis`, `SoilAnalysis` | the Next.js API routes |
| `Landing`, `Marketplace`, `SellForm`, `Admin`, `Login`, `LoanForm`, `NewsPage`, `Weather` | the pages |
| `SoilReport`, `AddFarmerForm`, `AuthWrapper` | the components |
| `Common` | `Option`, JavaScript truthiness, and the string operations the code relies on (`trim`, `includes`, `split`, `toLowerCase`, slicing) |

Where the code and its own messages disagree, the model follows the code. Farmer.js declares only the email unique, although the duplicate-key message reads "Email or phone already exists". So two farmers may share a phone.

## Model

| member | source | states |
|---|---|---|
| FarmerModel.Materialize | backend/src/models/Farmer.js:3-47 | a farmer document exists exactly when name, email, phone and land size are given; the email is lower-cased and the name trimmed; crop type, loan status and credit score fall back to "Other", "None" and 500 |
| FarmerModel.DefaultsApply | backend/src/models/Farmer.js:32-47 | a body with only the required paths gets crop type "Other", loan status "None" and credit score 500 |
| FarmerModel.ApplyPatch | backend/src/controllers/farmerController.js:71-75 | every schema path the update body sets, the AI recommendations included, takes the body's value (the name trimmed, the email lower-cased), and every path it does not set keeps the stored value |
| FarmerModel.PatchPreservesValid | backend/src/controllers/farmerController.js:74 | with validators run on the set paths only, an update passes them exactly when the updated document of a valid farmer is valid |
| LoanModel.Materialize | backend/src/models/Loan.js:3-48 | a loan document exists exactly when farmer, amount, rate, tenure and purpose are given, and then holds them as sent; the status defaults to "Pending" and the applied date to the current time; every date the body carries is stored as sent, and approval and disbursement dates are otherwise unset |
| ProductModel.Materialize | backend/src/models/Product.js:3-99 | a product exists exactly when the ten required paths are given, and then stores them as sent, with name, location, district, state, contact name and phone trimmed; the description is trimmed and the contact email trimmed and lower-cased when given; delivery options and images default to empty, organic to false, unit to "kg", status to "pending" and the counters to 0; the creation time is stamped |
| ProductModel.ApplyPatch | backend/src/controllers/productController.js:112-116 | every path the update body sets takes the body's value, trimmed or lower-cased as the schema says, and every path it does not set keeps the stored value; the creation time is always kept |
| ProductModel.PatchPreservesValid | backend/src/controllers/productController.js:115 | the validators of the set paths pass exactly when the updated document of a valid product is valid |
| Store.PutProduct | backend/src/models/Product.js:3-99 | writing a valid product keeps every stored document valid |
| Store.PutLoan | backend/src/models/Loan.js:3-48 | writing a valid loan keeps every stored document valid |
| Store.SaveFarmer | backend/src/models/Farmer.js:9-15 | a save succeeds exactly when the document is valid and no other farmer has its email; success writes it and keeps emails unique |
| Store.Enumerate | backend/src/controllers/farmerController.js:5 | a `find()` lists every document of the collection once, under its own id |
| Routes.Route | backend/src/app.js:18-52 | the "/api" routers come first, their fixed segments matched without regard to letter case and a HEAD request taking the GET route; then `GET /` reaches the welcome route, which nothing else reaches; a path that does not start with "/api/" once lower-cased reaches only the welcome route, the health route or the 404 handler; the status toggle and status switch are reached only by `PATCH`, the listing update only by `PUT`, each with a non-empty, '/'-free id |
| Routes.ListingAnyCase | backend/src/app.js:19 | `GET` or `HEAD` of "/" + any spelling of "api" + "/products" reaches `getAllProducts` |
| Routes.UpperCaseApi | backend/src/routes/productRoutes.js:14 | `GET /API/products` reaches `getAllProducts` |
| Routes.HealthRoute | backend/src/app.js:32-39 | `GET /health` reaches the health route, not the 404 handler |
| Routes.UserRoutes | backend/src/routes/authRoutes.js:16-18 | `PATCH /api/auth/users/:id/status` reaches `toggleUserStatus` and `PUT /api/auth/users/:id` reaches nothing |
| Routes.ProductRoutes | backend/src/routes/productRoutes.js:14-24 | `PUT /api/products/:id` reaches `updateProduct`, `PATCH /api/products/:id/status` reaches `updateProductStatus`, and the same path without the '/' after "/api" reaches nothing |
| FarmerController.GetAllFarmers | backend/src/controllers/farmerController.js:3-18 | status 200 with every farmer listed once and the count equal to the list's length |
| FarmerController.GetFarmerById | backend/src/controllers/farmerController.js:20-42 | 200 with the stored farmer exactly when the id exists, else 404 "Farmer not found" |
| FarmerController.CreateFarmer | backend/src/controllers/farmerController.js:44-67 | 201 exactly when the body builds a valid farmer whose email is free; a taken email gives "Email or phone already exists"; any refusal is a 400 that leaves the store unchanged |
| FarmerController.CreateThenGet | backend/src/controllers/farmerController.js:44-67 | registration keeps the store consistent, and a registered farmer reads back as it was built |
| FarmerController.SecondRegistrationRefused | backend/src/models/Farmer.js:9-15 | a second registration whose email differs only in letter case is refused by the unique index |
| FarmerController.UpdateFarmer | backend/src/controllers/farmerController.js:69-96 | failing validators give 400 "Update Error" before the lookup; an unknown id gives 404; 200 exactly when validators pass, the id exists and the new email is free; only a 200 writes |
| FarmerController.UpdateKeepsConsistency | backend/src/controllers/farmerController.js:69-96 | every update keeps the store consistent, and an empty update leaves an existing farmer as it was |
| FarmerController.DeleteFarmer | backend/src/controllers/farmerController.js:98-120 | 200 exactly when the id exists; exactly that farmer is removed, and loans and products are untouched |
| FarmerController.DeleteThenGet | backend/src/controllers/farmerController.js:98-120 | deletion keeps the store consistent, and the deleted farmer then reads as 404 |
| ProductController.Insert | backend/src/controllers/productController.js:24 | placing one entry keeps a listing newest first and is a permutation of the listing plus that entry |
| ProductController.SortNewestFirst | backend/src/controllers/productController.js:24 | the result is ordered by creation time, newest first, and is a permutation of its input |
| ProductController.InsertKeepsDistinct | backend/src/controllers/productController.js:22-24 | inserting an entry with a new id keeps the listing's ids distinct |
| ProductController.SortKeepsDistinct | backend/src/controllers/productController.js:22-24 | sorting keeps the listing's ids distinct |
| ProductController.Narrow | backend/src/controllers/productController.js:6-22 | an entry is kept exactly when it is in the listing and the query (category, case-insensitive state and district, status, inclusive price bounds) matches it |
| ProductController.SortedMatchesComplete | backend/src/controllers/productController.js:22-24 | every stored product that matches appears in the sorted answer |
| ProductController.SortedMatchesSound | backend/src/controllers/productController.js:22-24 | every entry of the sorted answer is a stored, matching product under its own id |
| ProductController.GetAllProducts | backend/src/controllers/productController.js:4-38 | 200 with exactly the matching stored products, each once, newest first, and the count equal to the list's length |
| ProductController.GetProductById | backend/src/controllers/productController.js:41-68 | an unknown id is 404; a 200 stores and returns the product with its view counter one higher; anything else writes nothing |
| ProductController.IncrementInquiry | backend/src/controllers/productController.js:207-233 | an unknown id is 404; a 200 stores the product with its inquiry counter one higher |
| ProductController.CountersAlwaysSave | backend/src/controllers/productController.js:53-55 | on a consistent store, reading or inquiring about an existing product always succeeds, keeps the store consistent and raises that counter by one |
| ProductController.CreateProduct | backend/src/controllers/productController.js:71-90 | 201 exactly when the body builds a valid product, stored under the new id; otherwise 400 "Validation Error" and no write |
| ProductController.CreateProductKeepsConsistency | backend/src/controllers/productController.js:71-90 | creation keeps the store consistent |
| ProductController.UpdateProduct | backend/src/controllers/productController.js:93-130 | an unknown id is 404 before validation; failing validators give 400 "Update Error"; 200 exactly when the id exists and validators pass, writing the patched product with its creation time kept |
| ProductController.UpdateProductKeepsConsistency | backend/src/controllers/productController.js:112-116 | updates keep the store consistent |
| ProductController.DeleteProduct | backend/src/controllers/productController.js:133-165 | 200 exactly when the id exists; exactly that product is removed and the store stays consistent |
| ProductController.UpdateProductStatus | backend/src/controllers/productController.js:168-204 | a missing or unknown status is 400 "Invalid status" before the lookup; 200 exactly for an allowed status on an existing id, changing only the status, with the message "Product <status> successfully" |
| ProductController.StatusSwitchIsStatusPatch | backend/src/controllers/productController.js:179-183 | the status switch writes the same store as a general update that sets only the status |
| LoanController.AIScore | backend/src/controllers/loanController.js:125-137 | the score always lies between 50 and 100 |
| LoanController.AIScoreIsBonusSum | backend/src/controllers/loanController.js:125-137 | the score is 50 plus the credit, land and amount bonuses, and that sum never exceeds the cap of 100, so `Math.min` never bites |
| LoanController.AIScoreMonotone | backend/src/controllers/loanController.js:128-134 | a better credit score, more land and a smaller amount never lower the score |
| LoanController.AIScoreExamples | backend/src/controllers/loanController.js:125-137 | four worked inputs score 100, 70, 50 and 95 |
| LoanController.CreateLoan | backend/src/controllers/loanController.js:46-79 | no farmer or an unknown one is 404 with no write; a 201 stores the built loan with the computed AI score and sets that farmer's loan status to "Applied"; every other failure is 400 "Validation Error"; products are never touched |
| LoanController.CreateLoanSucceeds | backend/src/controllers/loanController.js:46-79 | on a consistent store, creation keeps it consistent, succeeds exactly when the farmer exists and the body with its score passes the loan schema, and writes nothing when it fails |
| LoanController.WithStatus | backend/src/controllers/loanController.js:93-99 | the status is set; "Approved" stamps the approval date, "Disbursed" the disbursement date, any other status neither; nothing else of the loan changes |
| LoanController.MirrorFixed | backend/src/controllers/loanController.js:106 | every loan status maps to an allowed farmer loan status, and every status except "Pending" maps as the handler as written does |
| LoanController.MirrorEscapesFarmerEnum | backend/src/controllers/loanController.js:106 | "Pending" is a valid loan status whose mirrored farmer status is outside the farmer enum; every other valid loan status mirrors into the enum |
| LoanController.UpdateWith | backend/src/controllers/loanController.js:81-122 | an unknown loan is 404; a status the loan schema refuses is 400 with no write; products are never touched |
| LoanController.UpdateLoanStatus | backend/src/controllers/loanController.js:81-122 | as written: an unknown loan is 404 and a status the loan schema refuses is 400, both with no write; a 200 has stored the loan with the new status and its date stamp; products are never touched |
| LoanController.PendingUpdateHalfApplied | backend/src/controllers/loanController.js:101-108 | on a consistent store whose loan's farmer exists, setting "Pending" answers 400 although the loan was already saved as "Pending", and the farmer is unchanged |
| LoanController.PendingUpdateExample | backend/src/controllers/loanController.js:81-122 | a concrete approved loan set back to "Pending": 400, loan "Pending", farmer still "Approved" |
| LoanController.UpdateLoanStatusFixed | backend/src/controllers/loanController.js:81-122 | with the corrected mirror: an unknown loan is 404 and a refused status 400, both with no write; a 200 has stored the stamped loan; products are never touched |
| LoanController.UpdateFixedKeepsConsistency | backend/src/controllers/loanController.js:81-122 | with the corrected mirror, an existing loan's update succeeds exactly for a valid loan status; it keeps the store consistent, writes the stamped loan, mirrors the status onto an existing farmer, and writes nothing on failure |
| LoanController.UpdateAgreesExceptPending | backend/src/controllers/loanController.js:106 | for every status other than "Pending" the corrected handler behaves exactly like the handler as written |
| LoanController.EndToEnd | backend/src/controllers/loanController.js:46-122 | apply, approve, disburse: 201 with "Pending" and AI score 95 and the farmer "Applied", then "Approved" with the approval date, then "Active" with both dates kept |
| LoanController.GetLoanById | backend/src/controllers/loanController.js:22-44 | 404 exactly for an unknown id; otherwise the loan with its farmer populated exactly when that farmer still exists |
| LoanController.GetAllLoans | backend/src/controllers/loanController.js:4-20 | 200 with every loan once under its own id, and the count equal to the number of loans |
| Auth.ExtractToken | backend/src/middleware/auth.js:9-11 | a token is found exactly when the header starts with "Bearer" and its split on single spaces has a non-empty second piece, and the token is that second piece |
| Auth.BearerRoundTrip | backend/src/middleware/auth.js:9-11 | the header "Bearer " followed by a non-empty, space-free token yields exactly that token |
| Auth.BareBearerRefused | backend/src/middleware/auth.js:9-18 | a bare "Bearer" header yields no token |
| Auth.DoubleSpaceRefused | backend/src/middleware/auth.js:10 | "Bearer  abc" yields no token, because the second piece of the split is empty |
| Auth.OtherSchemeRefused | backend/src/middleware/auth.js:9 | another scheme, or no header at all, yields no token |
| Auth.Protect | backend/src/middleware/auth.js:4-57 | every refusal is a 401, decided in order: no token gives "Not authorized", a token that fails verification or a lookup that throws gives "Invalid or expired token", an unknown user "User not found", an inactive one "User account is disabled"; the request passes exactly when all checks pass, and then carries that user's id, email and role |
| Auth.NoTokenIgnoresOracles | backend/src/middleware/auth.js:13-18 | without a token the answer depends on neither token verification nor the user lookup |
| Auth.Authorize | backend/src/middleware/auth.js:68-78 | the request passes exactly when its role is listed; otherwise 403 with a message naming the role |
| Auth.GuardPassesOnlyListedActiveUsers | backend/src/middleware/auth.js:4-78 | a request that passes both guards belongs to an active user whose id and role it carries, and that role is listed |
| FarmerNews.Named | frontend/app/api/farmer-news/route.js:14-20 | a category parameter names one of the five categories only by its own name |
| FarmerNews.NamedName | frontend/app/api/farmer-news/route.js:14-20 | every category is found again from its name |
| FarmerNews.QueryFor | frontend/app/api/farmer-news/route.js:6-22 | a missing, empty, "all" or unknown category searches with the broad query; a known one with its own query |
| FarmerNews.QueriesDistinct | frontend/app/api/farmer-news/route.js:12-20 | the five category queries differ from each other and from the broad query |
| FarmerNews.RelevantIffFarmOrAgriculture | frontend/app/api/farmer-news/route.js:32-35 | the relevance filter keeps exactly the articles whose lower-cased title and description mention "farm" or "agriculture" ("farmer" adds nothing) |
| FarmerNews.DetermineCategory | frontend/app/api/farmer-news/route.js:75-96 | no category exactly when the text mentions neither "farm" nor "farmer"; otherwise the first keyword group that matches wins, in the order crops, livestock, technology (the bare "ai" included), agriculture, and farming when none matches, stated as one if-and-only-if per category |
| FarmerNews.KeptButUnclassified | frontend/app/api/farmer-news/route.js:32-35 | an article the filter keeps gets no category exactly when it mentions agriculture but not farms |
| FarmerNews.RainIsTechnology | frontend/app/api/farmer-news/route.js:88 | the bare substring "ai" files a farm story about "rain" under technology |
| FarmerNews.Format | frontend/app/api/farmer-news/route.js:36-44 | title, link, date and image are copied; the description is the article's when truthy, else its content when truthy, else "No description available"; the source is `source_id` when truthy, else "Unknown"; the category is the classifier's |
| FarmerNews.FarmerNewsOf | frontend/app/api/farmer-news/route.js:31-44 | one item per relevant article, so never more items than upstream articles |
| FarmerNews.NewsOfOne | frontend/app/api/farmer-news/route.js:31-44 | a single article gives its formatted item exactly when it mentions "farm" or "agriculture", and nothing otherwise |
| FarmerNews.NewsOfAppend | frontend/app/api/farmer-news/route.js:31-44 | the items of two runs of articles are the items of the first run followed by those of the second: with the single-article case, the items keep the upstream order, one per relevant article |
| FarmerNews.FarmerNewsExact | frontend/app/api/farmer-news/route.js:31-44 | every relevant article is reported, and every report is the formatting of a relevant article |
| FarmerNews.SampleNews | frontend/app/api/farmer-news/route.js:99-192 | ten stories, each categorised and linked to "#", dated the listed number of hours before now |
| FarmerNews.SampleNewsNewestFirst | frontend/app/api/farmer-news/route.js:106-187 | the sample stories are dated strictly newest first |
| FarmerNews.Respond | frontend/app/api/farmer-news/route.js:3-72 | the count is always the length of the list; a successful body with results gives the formatted relevant articles and no note; any other body gives the ten sample stories with "Using sample news data", and a thrown call the same stories with "Using sample news due to API error" |
| CropAnalysis.NumberedLines | frontend/app/api/analyze-crop/route.js:22 | one line per item, line k being the number from+k, a dot, a space and item k |
| CropAnalysis.NumberedSplits | frontend/app/api/analyze-crop/route.js:176 | a numbered list of single-line items, joined with newlines, splits back into exactly its numbered lines |
| CropAnalysis.PredictionText | frontend/app/api/analyze-crop/route.js:18-25 | the prediction block is empty exactly when there are no predictions; otherwise it contains the numbered prediction lines |
| CropAnalysis.PredictionLines | frontend/app/api/analyze-crop/route.js:22 | one line per prediction, line k being the class name in bold, " - Confidence: ", the percentage and "%" |
| CropAnalysis.MatchedGroups | frontend/app/api/analyze-crop/route.js:139-163 | the groups that fire are exactly the keyword groups whose English or Hindi keyword occurs in the lower-cased symptoms, in checking order |
| CropAnalysis.Diagnoses | frontend/app/api/analyze-crop/route.js:141-163 | one diagnosis per group that fires, in order, at most four |
| CropAnalysis.Treatments | frontend/app/api/analyze-crop/route.js:141-163 | one treatment per group that fires, in the same order as the diagnoses, so the k-th treatment answers the k-th diagnosis |
| CropAnalysis.NumberedOpens | frontend/app/api/analyze-crop/route.js:176 | a non-empty numbered list starts with "1. " and its first item |
| CropAnalysis.FallbackAnalysis | frontend/app/api/analyze-crop/route.js:138-234 | the report echoes crop, location, soil type (absent ones as "undefined") and symptoms; with no diagnosis the issues are the single default issue and the treatments block is empty; otherwise the issues are the numbered diagnoses and the treatments are the "Specific Treatments" heading followed by the numbered treatments |
| CropAnalysis.YellowSpotsFires | frontend/app/api/analyze-crop/route.js:145-163 | "Yellow spots" fires the yellowing and spot groups and not the wilting or curling ones |
| CropAnalysis.YellowSpotsExample | frontend/app/api/analyze-crop/route.js:145-153 | the diagnoses for "Yellow spots" are nitrogen deficiency then fungal leaf spot |
| CropAnalysis.AnalyzeCrop | frontend/app/api/analyze-crop/route.js:3-135 | as written: a missing API key is a 500 "API key not configured" |
| CropAnalysis.ThrownCallEscapes | frontend/app/api/analyze-crop/route.js:127-134 | as written, a thrown model call ends in an exception that escapes the handler instead of the fallback |
| CropAnalysis.AnalyzeCropFixed | frontend/app/api/analyze-crop/route.js:3-135 | with the catch block falling back on the parsed request: a missing key is the 500; with a key and symptoms the answer is always the model's text or the fallback; a fallback is the report for that request; model text only comes from an OK reply carrying it |
| CropAnalysis.FixedAgreesUnlessThrown | frontend/app/api/analyze-crop/route.js:108-125 | the corrected route answers exactly as written whenever the model call does not throw |
| SoilAnalysis.IntOr | frontend/app/api/soil-analysis/route.js:166-168 | a present non-zero value is kept; a missing (NaN) or zero value gives the default |
| SoilAnalysis.SoilHealth | frontend/app/api/soil-analysis/route.js:164 | the health score always lies in 0..100: 75 when missing or zero, the value itself inside 1..100, 100 above, and 0 exactly for negative values |
| SoilAnalysis.Recommendations | frontend/app/api/soil-analysis/route.js:169-171 | at most five: a prefix of the model's list of length min(n, 5), or the four defaults when the field is not an array |
| SoilAnalysis.Normalise | frontend/app/api/soil-analysis/route.js:163-181 | the health is the clamped score with 75 for a missing or zero value; nitrogen, phosphorus and potassium are the model's non-zero values or 150, 60 and 200; the pH is the model's non-zero value or 6.8; the recommendations are the first five of the model's list or the four defaults; the analysis is the model's text or "Soil analysis completed"; the request's crop, location and the image verdict are carried |
| SoilAnalysis.NormaliseIdempotent | frontend/app/api/soil-analysis/route.js:163-181 | validating a validated report changes nothing, except that a health clamped to 0 reads as missing and becomes 75 |
| SoilAnalysis.DefaultReport | frontend/app/api/soil-analysis/route.js:144-159 | the no-JSON answer has health 70, pH 6.8, nutrients 150, 60 and 200, the four fixed recommendations, the fixed analysis text, the request's crop and location and no image verdict |
| SoilAnalysis.AnalyzeSoil | frontend/app/api/soil-analysis/route.js:3-192 | an unparsable body is a 500 with the error message; a missing crop, symptoms or location is the 400; the mismatch answer comes exactly when an image was sent and the verdict's flag is a literal `false`, and carries the detected crop, the claimed crop and the confidence; a thrown analysis call is a 500 with its message; otherwise the report is the fixed one when the reply holds no JSON and the normalised reply, with the verdict kept only when an image was sent, when it does |
| SoilAnalysis.MismatchStopsBeforeAnalysis | frontend/app/api/soil-analysis/route.js:63-76 | on a mismatch the answer does not depend on the analysis call at all |
| SoilAnalysis.NoImageIgnoresVerdict | frontend/app/api/soil-analysis/route.js:20-21 | without image data the image verdict plays no part in the answer |
| SoilReport.BannerFor | frontend/components/SoilHealthReport.jsx:167-193 | no banner exactly without a verdict; the verified banner exactly when the verdict's flag is truthy, of whatever type; the mismatch banner exactly when it is falsy |
| SoilReport.BannerOfReport | frontend/app/api/soil-analysis/route.js:63-76 | for a request with an image, the route answers with a report exactly when the flag is not `false`, and then the card shows the verified banner exactly for a truthy flag and the mismatch banner exactly for an absent, `null`, `0` or `""` flag |
| SoilReport.HedgedVerdictVerified | frontend/components/SoilHealthReport.jsx:188-193 | a flag of "uncertain" or "no" passes the route and is shown as "Image verified" |
| SoilReport.MismatchBannerMeansNoVerdict | frontend/components/SoilHealthReport.jsx:167 | on a report the route let through, the mismatch banner only appears for a flag that is absent, `null`, `0` or `""`, since a literal `false` stops the route first |
| SoilReport.CleanLine | frontend/components/SoilHealthReport.jsx:62 | the cleaned line is no longer than the line and has no white space at either end |
| SoilReport.HindiRecs | frontend/components/SoilHealthReport.jsx:59-63 | at most one recommendation per line, each non-empty with no white space at either end |
| SoilReport.CleanLinesKept | frontend/components/SoilHealthReport.jsx:59-63 | lines that are already clean and start without a bullet come back unchanged and in order |
| SoilReport.BulletDropped | frontend/components/SoilHealthReport.jsx:62 | a leading bullet and the spaces after it are removed, but only the first bullet |
| SoilReport.TranslateToHindi | frontend/components/SoilHealthReport.jsx:26-73 | a request goes out exactly when no translation is cached; a cached one is reused; the alert is raised exactly when an uncached request fails, and then nothing else changes; a reply's lines are cleaned and cached |
| SoilReport.ToggleLanguage | frontend/components/SoilHealthReport.jsx:75-86 | from Hindi back to English without a request; from English it translates, asking only when nothing is cached |
| SoilReport.Display | frontend/components/SoilHealthReport.jsx:162 | Hindi shows the cached translation, English the report's recommendations |
| SoilReport.TranslationCached | frontend/components/SoilHealthReport.jsx:26-30 | a non-empty translation is asked for once; toggling twice more returns to it with no new request |
| SoilReport.EmptyTranslationRetried | frontend/components/SoilHealthReport.jsx:27 | an empty translation shows an empty Hindi list and is asked for again on the next switch to Hindi |
| SoilReport.Speak | frontend/components/SoilHealthReport.jsx:88-99 | nothing is spoken when the joined text is empty; otherwise the text is spoken and its space-separated words are on show with none highlighted |
| SoilReport.NothingToSay | frontend/components/SoilHealthReport.jsx:91-92 | no recommendations, an empty list or only empty text keep the card silent |
| SoilReport.OffsetLocatesWord | frontend/components/SoilHealthReport.jsx:91-94 | word i of the space-joined text starts at the summed character lengths before it (each plus one) and is followed by a space unless it is the last |
| SoilReport.OffsetTotal | frontend/components/SoilHealthReport.jsx:125-126 | the count after the last word is one more than the text's JavaScript length, in UTF-16 code units |
| SoilReport.WordIndex | frontend/components/SoilHealthReport.jsx:120-133 | the first word whose end, counting its space, passes the reported UTF-16 position, the word lengths counted in UTF-16 code units as `length` does; 0 when none does |
| SoilReport.SpokenWordHighlighted | frontend/components/SoilHealthReport.jsx:120-133 | for a UTF-16 position of the text, the chosen word's code units hold that position, or it is the word just before the space that stands there |
| SoilReport.OffsetIsJsPosition | frontend/components/SoilHealthReport.jsx:125-126 | the count before word i is the JavaScript length of the text up to that word's first character |
| SoilReport.AstralWordShiftsOffset | frontend/components/SoilHealthReport.jsx:125-126 | after a one-emoji word the next word starts at character 2 but at UTF-16 position 3 |
| SoilReport.SpeechError | frontend/components/SoilHealthReport.jsx:142-148 | on a speech error, speaking stops and the highlight and words are kept; the language-pack alert appears exactly in Hindi |
| SoilReport.SpeechEnd | frontend/components/SoilHealthReport.jsx:136-140 | at the end of speech nothing is highlighted and no words are on show |
| SoilReport.SpeakThenEnd | frontend/components/SoilHealthReport.jsx:136-140 | speaking and then reaching the end leaves the card exactly as stopping does |
| Weather.Close | frontend/app/weather/page.jsx:16 | the lazy closing `.*?\*\*` search finds a pair of asterisks at or after its start |
| Weather.Match | frontend/app/weather/page.jsx:16 | a match of the bold pattern opens at or after the search start with a pair and closes with a pair at least two characters later |
| Weather.BoldSplit | frontend/app/weather/page.jsx:16 | splitting on the captured bold pattern gives an odd number of parts, every odd-numbered part starting and ending with two asterisks |
| Weather.BoldSplitJoin | frontend/app/weather/page.jsx:16 | the split loses nothing: its parts joined back together are the text |
| Weather.Render | frontend/app/weather/page.jsx:19-25 | a part wrapped in two asterisks renders bold with the asterisks sliced off; any other part renders as it is |
| Weather.Spans | frontend/app/weather/page.jsx:16-25 | one span per split part, every captured part bold |
| Weather.NoStarIsPlain | frontend/app/weather/page.jsx:16 | text without an asterisk is a single plain span |
| Weather.EmphasisSplit | frontend/app/weather/page.jsx:16 | one bold phrase between two asterisk-free runs splits into exactly those three parts |
| Weather.Emphasis | frontend/app/weather/page.jsx:16-25 | such a line renders as plain, bold phrase, plain |
| Weather.ClassifyLine | frontend/app/weather/page.jsx:10-53 | a blank line renders nothing; a trimmed line starting with "* " or "- " is a list item of the spans after those two characters, whatever else it holds; otherwise a trimmed line wrapped in "**" is a heading of the text between, and a heading only comes that way; a paragraph renders the untrimmed line's spans |
| Weather.BoldLineIsHeading | frontend/app/weather/page.jsx:32-37 | a line wrapped in two asterisks is a heading of what lies between them |
| Weather.BoldBulletIsListItem | frontend/app/weather/page.jsx:14-29 | a bullet opening with a bold phrase is a list item with that phrase bold, not a heading, because bullets are checked first |
| Weather.Parse | frontend/app/weather/page.jsx:6-55 | at most one element per line of the advisory |
| Weather.CollectAppend | frontend/app/weather/page.jsx:10-54 | lines render independently: the elements of two blocks of lines are the elements of each, in order |
| Weather.BlankLineDropped | frontend/app/weather/page.jsx:40 | a blank line contributes nothing wherever it stands |
| Weather.OneElementPerLine | frontend/app/weather/page.jsx:10-54 | exactly one element per line precisely when no line is blank, and then element k renders line k |
| Weather.DayKeys | frontend/app/weather/page.jsx:278-296 | the day keys are exactly the dates seen, each once |
| Weather.DayKeysInOrder | frontend/app/weather/page.jsx:280-289 | the days are kept in the order their first reading appears |
| Weather.Forecast | frontend/app/weather/page.jsx:299 | a prefix of the days in order of their first reading, so the first seven of them: at most seven distinct days, all from the readings, exactly seven when there are that many, every day when there are fewer |
| Weather.Advice | frontend/app/weather/page.jsx:384-391 | a candidate's text is taken as it is; without a candidate the fixed unavailable message |
| Weather.SearchCity | frontend/app/weather/page.jsx:211-346 | as written: a missing or blank city only sets the error; a missing key clears the data with its message; a failed fetch clears the data with the error's message or the fixed one; data appears exactly when the key is set and the services answered, holding the first seven days and the advice; the language toggle and cached translation are never touched |
| Weather.SearchBox | frontend/app/weather/page.jsx:394-402 | an empty search box gives its own message; otherwise data appears exactly when the key is set and the services answered |
| Weather.Shown | frontend/app/weather/page.jsx:565-569 | the Hindi text when Hindi is on and a translation exists, the advice otherwise |
| Weather.TranslateToHindi | frontend/app/weather/page.jsx:72-111 | without advice nothing happens; otherwise Hindi is switched on with a non-empty text: the translation, the fixed unavailable text, or the fixed error text |
| Weather.ToggleLanguage | frontend/app/weather/page.jsx:113-120 | a request goes out exactly when switching to Hindi with nothing cached and advice on show; back to English, and back to a cached translation, need none |
| Weather.TranslationCached | frontend/app/weather/page.jsx:113-120 | after the first translation, toggling twice more asks nothing and shows the cached text again |
| Weather.StaleTranslationAfterSearch | frontend/app/weather/page.jsx:211-221 | as written, a search made with Hindi on keeps showing the previous advice's translation instead of the new advice |
| Weather.SearchCityFixed | frontend/app/weather/page.jsx:211-221 | the corrected search acts as written and also returns to English and drops the cached translation |
| Weather.FixedSearchShowsNewAdvice | frontend/app/weather/page.jsx:565-569 | after a successful corrected search the new advice is on show, and the Hindi button translates it afresh |
| Landing.StateTable | frontend/app/page.jsx:27-46 | Kerala and Odisha stay in English, Maharashtra maps to Marathi, and every mapped state has a language code |
| Landing.SwitchLanguageForState | frontend/app/page.jsx:49-61 | a missing or unmapped state, or one whose language is already on, changes nothing; otherwise a manual switch changes the language and stores it as the preference, an automatic one changes it and marks the automatic switch only when no preference is stored, and does nothing when one is |
| Landing.SwitchIdempotent | frontend/app/page.jsx:49-61 | switching for the same state twice is switching once |
| Landing.PreferenceSticks | frontend/app/page.jsx:54-55 | a stored preference blocks every automatic switch, and after a manual switch no automatic one changes the language again |
| Landing.FromProduct | frontend/app/page.jsx:106-119 | a backend product keeps its name, its category lower-cased, and an origin that starts with its district and ends with ", " and its state |
| Landing.AllItems | frontend/app/page.jsx:222 | the transformed backend products in order, followed by the static catalogue |
| Landing.FilterItems | frontend/app/page.jsx:220-234 | the switched category and search filters keep, in order, exactly the items whose category matches (or "all") and whose name or origin contains the query ignoring case (or the query is blank) |
| Landing.NoFilterShowsAll | frontend/app/page.jsx:225-228 | with "all" and a blank query every item is shown, in order |
| Landing.FilterByLocation | frontend/app/page.jsx:295-301 | every local item is kept; when some item is local exactly those are shown; when none is, the first eight; something is shown whenever there are items |
| Landing.ProductFoundByState | frontend/app/page.jsx:295-301 | a backend product is always found when filtering by its own state |
| Landing.ManualSearch | frontend/app/page.jsx:303-308 | a blank query does nothing; otherwise the trimmed query is used as the location to filter by and shown as the area |
| Landing.ClearFilters | frontend/app/page.jsx:310-318 | every item, no area, an empty query, "all", "newest" and English, leaving the stored preferences alone |
| Landing.ClearedFilterAgrees | frontend/app/page.jsx:310-318 | after clearing, the filter recomputes exactly the items shown |
| AddFarmerForm.GroupOf | frontend/components/AddFarmerForm.jsx:30 | the group's fields when the key holds a group; nothing when the key is missing or holds text |
| AddFarmerForm.HandleChange | frontend/components/AddFarmerForm.jsx:22-40 | a dotted name replaces its parent with the parent's group plus that child set; any other name sets that top-level field |
| AddFarmerForm.DottedName | frontend/components/AddFarmerForm.jsx:26 | a dot-free parent and child joined by a dot split back into exactly those two |
| AddFarmerForm.DottedEditKeepsSiblings | frontend/components/AddFarmerForm.jsx:25-33 | editing parent.child sets that child and keeps every sibling in the group, every other top-level field and the set of keys |
| AddFarmerForm.PlainEditKeepsOthers | frontend/components/AddFarmerForm.jsx:34-39 | editing a plain name sets that field and keeps every other one |
| AddFarmerForm.AddressStateEdit | frontend/components/AddFarmerForm.jsx:6-33 | setting the address state on the initial form keeps the other three address fields empty |
| AddFarmerForm.Submit | frontend/components/AddFarmerForm.jsx:42-72 | as written, whatever `farmerAPI.create` answers, the form shows the success message and resets to the initial form |
| AddFarmerForm.ApiRequest | frontend/lib/api.js:12-44 | the answer reports success exactly for a 2xx reply; any other reply, and a failed fetch, resolve to a failure carrying the message |
| AddFarmerForm.SubmitFixed | frontend/components/AddFarmerForm.jsx:42-72 | checking the answer: success resets the form with the success message; a failure keeps the form and shows the error or the fixed failure message |
| AddFarmerForm.SubmitAgreesIffSuccess | frontend/components/AddFarmerForm.jsx:47-56 | the written and corrected handlers agree exactly on successful answers |
| AddFarmerForm.DuplicateReportedAsRegistered | frontend/components/AddFarmerForm.jsx:47-56 | a second registration with the same email, which the backend refuses, is shown as registered as written and as "Email or phone already exists" by the corrected form |
| AddFarmerForm.EditsThenSubmit | frontend/components/AddFarmerForm.jsx:51-59 | whatever was typed, a successful submit leaves the initial form with "Rice" as the crop |
| AuthWrapper.CheckAuth | frontend/components/AuthWrapper.jsx:17-34 | loading ends; a user is set exactly when a user and a token are stored and the user parses, and it is that user |
| AuthWrapper.Stored | frontend/components/AuthWrapper.jsx:20 | the stored user is absent exactly when login stored none, and otherwise parses back to the user login stored |
| AuthWrapper.OnEvent | frontend/components/AuthWrapper.jsx:39-58 | logout forgets the user, login takes the event's user, a storage change to either key checks again and one to any other key is ignored |
| AuthWrapper.Render | frontend/components/AuthWrapper.jsx:67-116 | the spinner exactly while loading; the lock screen exactly when done, without a user, on a protected path; the page otherwise |
| AuthWrapper.PublicPagesOpen | frontend/components/AuthWrapper.jsx:15 | the public pages are exactly the login and home pages, and they open for anybody once loading is over |
| AuthWrapper.SpinnerFirst | frontend/components/AuthWrapper.jsx:10 | before the first check only the spinner renders, whatever the path |
| AuthWrapper.LogoutThenLogin | frontend/components/AuthWrapper.jsx:46-56 | a logout locks every protected page and a following login opens it again |
| AuthWrapper.LoginOpensGate | frontend/components/AuthWrapper.jsx:17-34 | after a successful login on the login page, the gate's check admits that farmer on any path |
| Login.AstralPasswordAccepted | frontend/app/login/page.jsx:50 | three characters outside the Basic Multilingual Plane have JavaScript length 6, so such a password passes the length check |
| Login.FormError | frontend/app/login/page.jsx:32-55 | an empty email or password always gives the common message; a login form passes exactly when both are given; a registration then gives "Name is required" for an empty name, next "Passwords do not match", next "Password must be at least 6 characters", and passes exactly when none applies |
| Login.FindAccount | frontend/app/login/page.jsx:63-64 | a found account is in the registry with that email and password; nothing is found exactly when no account has both |
| Login.Submit | frontend/app/login/page.jsx:26-121 | a form error is shown and storage is untouched; only a login ever sets a new token; a login with a matching account stores the mock token and the account as a farmer, and an unmatched one shows "Invalid email or password"; a registration refuses a known email and otherwise appends the account and returns to the login mode with a clean form |
| Login.RegistrationKeepsEmailsUnique | frontend/app/login/page.jsx:94-110 | every submit keeps the registry free of duplicate emails |
| Login.FindUnique | frontend/app/login/page.jsx:64 | in a registry with unique emails, an account's own email and password find exactly that account |
| Login.RegisterThenLogin | frontend/app/login/page.jsx:58-115 | registering and then logging in with the same email and password makes the new account the session user, as a farmer |
| Login.ToggleMode | frontend/app/login/page.jsx:123-128 | the other mode, with an empty form and no banners |
| Login.ToggleTwice | frontend/app/login/page.jsx:123-128 | toggling twice returns to the same mode with a cleared page |
| Marketplace.LoadProducts | frontend/app/marketplace/page.jsx:36-76 | the listing is fetched exactly when a token and a user are stored; without a session nothing is shown; every product shown is approved, and every approved product in the store is shown |
| Marketplace.FilterProducts | frontend/app/marketplace/page.jsx:78-97 | the switched category and search filters keep, in fetched order, exactly the products of the chosen category (or "all") whose name, district or state contains the term ignoring case (or the term is empty) |
| Marketplace.SearchNarrows | frontend/app/marketplace/page.jsx:86-94 | adding a search term to a category choice shows a subsequence of what the category alone shows |
| NewsPage.HoursSince | frontend/app/news/page.jsx:61-66 | 999 without a date, NaN for an unparsable one, otherwise the whole hours h with h hours at most the elapsed time and h+1 hours more than it (floored, negative in the future) |
| NewsPage.BadgeFor | frontend/app/news/page.jsx:68-99 | "JUST NOW" exactly under one hour, "NEW" exactly from one to two hours, "TRENDING" exactly for one of the first three stories that is older or has a NaN age, "HOT" exactly for a later story aged two to six hours |
| NewsPage.TopStoriesBadged | frontend/app/news/page.jsx:84-90 | the first three stories always carry a badge and never "HOT"; a story without a date is "TRENDING" among them and unbadged further down |
| NewsPage.FreshStoryIsJustNow | frontend/app/news/page.jsx:70-76 | a story published less than an hour before the clock is "JUST NOW" |
| NewsPage.Headlines | frontend/app/news/page.jsx:46 | the first eight stories, or all of them when there are fewer |
| NewsPage.Featured | frontend/app/news/page.jsx:47 | the first three stories, or all of them when there are fewer |
| NewsPage.FeaturedLeadHeadlines | frontend/app/news/page.jsx:46-47 | the featured stories are a prefix of the headlines |
| NewsPage.FormattedDate | frontend/app/news/page.jsx:101-113 | "Just now" exactly when there is no date; any date gets the locale rendering |
| NewsPage.Refresh | frontend/app/news/page.jsx:14-44 | a successful fetch replaces the stories and clears the banner; a failed one raises the unavailable banner and empties the stories when the calling closure saw none, keeping them otherwise |
| NewsPage.TimerFailureEmptiesPage | frontend/app/news/page.jsx:14-39 | as written, the mount effect's timer tick that fails after a successful load empties the page |
| NewsPage.RefreshFixed | frontend/app/news/page.jsx:35-40 | with the functional update, a failed fetch keeps the stories on show and raises the banner; a success replaces them |
| NewsPage.FixedAgreesUnlessStale | frontend/app/news/page.jsx:14-39 | the written and corrected refreshes differ exactly on a failed call from a closure that saw no stories while stories are on show |
| NewsPage.FailureThenRecovery | frontend/app/news/page.jsx:35-40 | with the functional update, a failed refresh never loses stories, and the next successful one shows exactly what it fetched |
| SellForm.LabelsDistinct | frontend/app/sell/page.jsx:244-257 | each checked field is reported under its own label: two fields share a label exactly when they are the same field |
| SellForm.Errors | frontend/app/sell/page.jsx:203-231 | at most one label per checked field, and no label exactly when every checked field passes |
| SellForm.ErrorsNameFailures | frontend/app/sell/page.jsx:203-231 | among the checked fields, a field's label is reported exactly when that field fails |
| SellForm.LabelsNotListed | frontend/app/sell/page.jsx:203-231 | a field that is not checked is never reported |
| SellForm.ErrorsAppend | frontend/app/sell/page.jsx:244-257 | the failures of two lists of fields checked one after the other are the failures of each, in order |
| SellForm.ValidateStep | frontend/app/sell/page.jsx:203-231 | the message is empty exactly when every field of the step passes, and otherwise lists the step's failing labels after "Please fill: "; any step other than 1 to 3 always passes |
| SellForm.ValidateAll | frontend/app/sell/page.jsx:244-258 | the failures of the three steps in step order; empty exactly when each step validates; a label appears exactly when its field fails |
| SellForm.AllFieldsNamed | frontend/app/sell/page.jsx:244-258 | over all three steps' fields, a label is reported exactly when its field fails |
| SellForm.NextStep | frontend/app/sell/page.jsx:233-240 | the form advances exactly when the step validates; otherwise it stays and alerts with the step's message |
| SellForm.SubmitGate | frontend/app/sell/page.jsx:260-267 | the submission is blocked exactly when some field fails, with an alert listing every failure |
| SellForm.NonNumericQuantityPasses | frontend/app/sell/page.jsx:209 | a typed quantity that does not read as a number is not reported, since a NaN comparison is false |
| SellForm.ToggleDelivery | frontend/app/sell/page.jsx:163-170 | the option is present afterwards exactly when it was absent before, every other option stays as it was, and an absent one is appended |
| SellForm.ToggleTwice | frontend/app/sell/page.jsx:163-170 | toggling an absent option on and off restores the list |
| SellForm.RemoveImage | frontend/app/sell/page.jsx:196-201 | the image at that position is removed and the others keep their order; a position outside the list changes nothing |
| SellForm.AddImages | frontend/app/sell/page.jsx:172-194 | the new images are appended in order after the current ones, never taking the count past five |
| Admin.FetchStatus | frontend/app/admin/dashboard/page.jsx:58-59 | every listing returned is in the store; for a status filter, every listing returned has that status and every stored listing with it is returned |
| Admin.FetchProducts | frontend/app/admin/dashboard/page.jsx:54-86 | the "all" view holds only pending, approved and rejected listings, grouped in that order, and every stored listing with one of those statuses; a status filter returns exactly the stored listings with that status |
| Admin.TotalAppend | frontend/app/admin/dashboard/page.jsx:105-106 | the sum over two lists one after the other is the sum of the two sums |
| Admin.Reduce | frontend/app/admin/dashboard/page.jsx:105-106 | the loop's sum is the total of the counter over the list |
| Admin.StatusCounts | frontend/app/admin/dashboard/page.jsx:111-113 | three distinct status counts never exceed the list's length, and add up to it when every listing has one of the three statuses |
| Admin.CalculateStats | frontend/app/admin/dashboard/page.jsx:104-117 | the total is the list's length; each status count is the number of listings with that status, together at most the total and equal to it when all are moderated; views and inquiries are summed with absent counters as 0; the user count is kept |
| Admin.MissingCountersAddNothing | frontend/app/admin/dashboard/page.jsx:105 | listings without a views counter add nothing to the total views, wherever they are appended; a list of only such listings totals 0 |
| Admin.PanelCalculateStats | frontend/app/admin/page.jsx:70-77 | the panel's total is the list's length and its three status counts add up to at most that |
| Admin.PanelAgreesWithDashboard | frontend/app/admin/page.jsx:70-77 | the panel and the dashboard count the same list the same way |
| Admin.Actions | frontend/app/admin/dashboard/page.jsx:504-520 | view and delete are always offered; approve and reject exactly for a pending listing |
| Admin.DashboardSetStatus | frontend/app/admin/dashboard/page.jsx:119-139 | the status is changed through the general listing update, and the success alert appears exactly when that update succeeds |
| Admin.DashboardRouted | frontend/app/admin/dashboard/page.jsx:119-125 | the dashboard's `PUT /api/products/:id` reaches `updateProduct` |
| Admin.PanelSetStatus | frontend/app/admin/page.jsx:79-97 | as written, the status proxy route's request reaches no route, so the store is unchanged, the reply is the 404 "Route not found", and the panel alerts that message |
| Admin.PanelSetStatusVia | frontend/app/admin/page.jsx:79-102 | the panel's change runs the backend status switch exactly when the proxied path reaches it, and gets the 404 reply otherwise; success alerts the new status and failure alerts the server's message |
| Admin.UnslashedProxy | backend/src/app.js:18-52 | the URL the status proxy route builds, with no '/' between the base and "products", reaches the 404 handler |
| Admin.PanelSetStatusFixed | frontend/app/admin/page.jsx:79-97 | with the '/' restored in the status proxy route, the panel's request reaches `updateProductStatus`, and the panel alerts as above |
| Admin.PanelApprovalLost | frontend/app/admin/page.jsx:79-97 | as written, approving a stored pending listing from the panel leaves it pending, while the dashboard approves it |
| Admin.ScreensAgree | frontend/app/admin/page.jsx:79-96 | with the status proxy corrected, approving or rejecting leaves the same store from either screen, and for a stored listing the same alert and the new status |
| Admin.ToggleUser | frontend/app/admin/dashboard/page.jsx:209-227 | as written: the flag sent is true exactly when the user is stored as inactive, and since `PUT /api/auth/users/:id` reaches no route, no alert is ever shown |
| Admin.ToggleUserVia | frontend/app/admin/dashboard/page.jsx:209-227 | the flag sent negates the badge on show; the alert appears exactly when the request reaches `toggleUserStatus` and that succeeds, and then names what was sent |
| Admin.ToggleUserFixed | backend/src/routes/authRoutes.js:16-18 | sent as `PATCH /api/auth/users/:id/status`, the toggle alerts exactly when `toggleUserStatus` succeeds |
| Admin.ToggleFlipsBadge | frontend/app/admin/dashboard/page.jsx:209-215 | the flag the toggle sends is the opposite of the badge on show, whichever request carries it |
| Admin.OpenDashboard | frontend/app/admin/dashboard/page.jsx:42-52 | without an admin token it redirects to the admin login and fetches nothing; otherwise the counts describe the fetched list, adding up to its length in the "all" view |
| LoanForm.ValidateFile | frontend/app/loan/LoanApplicationForm.jsx:54-76 | a missing file, then an oversized one, then a type outside PDF/JPEG/PNG is refused with its own message; a file is accepted exactly when it is present, at most 5 MiB and of an allowed type |
| LoanForm.FiveMebibytesAccepted | frontend/app/loan/LoanApplicationForm.jsx:55-68 | a PDF of exactly 5 MiB passes, the size bound being inclusive |
| LoanForm.HandleUpload | frontend/app/loan/LoanApplicationForm.jsx:78-120 | no file changes nothing; a refused file only records its error; an accepted one is stored for that document with a preview exactly for image types, and its error is cleared |
| LoanForm.RemoveFile | frontend/app/loan/LoanApplicationForm.jsx:122-140 | that document is cleared in the stored files, the form and the errors, and every other document is kept |
| LoanForm.UploadThenRemove | frontend/app/loan/LoanApplicationForm.jsx:78-140 | removing a file just uploaded into an empty slot restores the stored files and the form |
| LoanForm.MissingDocs | frontend/app/loan/LoanApplicationForm.jsx:146-147 | a document is listed exactly when it is required and not there |
| LoanForm.EveryDocRequired | frontend/app/loan/LoanApplicationForm.jsx:146 | all four document types are required |
| LoanForm.Submit | frontend/app/loan/LoanApplicationForm.jsx:142-157 | the form moves on to the success page exactly when every document type has a file; otherwise it alerts that documents are missing |
| LoanForm.FourUploadsSubmit | frontend/app/loan/LoanApplicationForm.jsx:78-157 | after four accepted uploads, one per document type, on the initial form, the submit handler goes to the success page (the browser's own form validation, which runs before the handler, is not modelled) |

## Left out

- Persistence: MongoDB I/O, connections and server start-up are not modelled. The store is three maps, and a failed write or database error (the 500 replies of the controllers) is not modelled.
- Concurrency: each request is one sequential step. Lost counter updates and the non-atomic loan-then-farmer write under concurrent requests are not modelled.
- Regular expressions built from user input (`new RegExp(state, 'i')` in the product listing) are modelled as case-insensitive substring search. Metacharacters in the query are treated literally.
- `toLowerCase` is modelled on ASCII letters only. Unicode case mapping beyond ASCII is not modelled.
- A malformed ObjectId (Mongoose CastError) is not modelled. Ids are abstract keys, and a malformed id behaves like an unknown one.
- `populate` of `farmerId` and `sellerId` is modelled only as "the referenced farmer, if it exists". The selected field lists are not modelled.
- Token signing and verification (JWT) and password hashing (bcrypt) are oracles passed in as parameters. The outer 500 catch in auth.js is not modelled, because its only trigger is an exception from those oracles.
- Floating point: amounts, rates, land sizes and pH are exact `real` numbers. Forecast averaging, the km/h conversion, rainfall totals, `parseFloat` price sorting on the landing page and the landing page's sort orders are not modelled.
- `parseInt`/`parseFloat`/`Number` are not modelled as parsers. Their results are inputs: an integer, or `None` for NaN.
- Dates are millisecond timestamps passed as parameters. Locale date rendering (`toLocaleString`, `toLocaleDateString`) is not modelled, and forecast days are opaque date keys.
- Prompt wording sent to the language models is not modelled. Only the parts of the prompt the code computes from its inputs are modelled: the prediction block of the crop route and the soil route's default fields.
- The fixed advice text inside the crop route's fallback report (the prevention and monitoring paragraphs) is not modelled. Only its computed parts are.
- The image verdict of the soil route reaches the model already parsed. The JSON extraction by regex, and the serialised `imageValidation: null` when there is none, are not modelled.
- `AddFarmerForm.ApiRequest`: the `data.error` and HTTP status-text fallbacks of the failure message are not modelled, because every backend reply carries a message; a non-JSON reply counts as a failed fetch.
- The network calls of the pages are not modelled: OpenWeather, WeatherAPI, NewsData and Gemini. Nor are geolocation (`detectMyLocation`, `getLocation`), the landing page's toast, `handleManualLanguage`, or the reading of `autoLangSet`.
- Speech voice selection, rate and pitch are not modelled. Only the spoken text, the word list and the highlighted index are.
- FileReader callback order in the sell form's image upload is not modelled. The images are appended in the order the files were chosen.
- The admin dashboard calls the backend directly at `NEXT_PUBLIC_API_URL`. The older panel goes through Next.js proxy routes. Only the status proxy's URL is modelled, as the path of its default base URL; the other proxies, and a base URL set from the environment, are not modelled.
- `Admin.ToggleUserVia`: the outcome of `toggleUserStatus` in the auth controller is an input (`toggled`); that controller is not part of this model.
- `Admin.ScreensAgree`: relates the dashboard to the corrected panel (`Admin.PanelSetStatusFixed`), because as written the panel's status proxy reaches no route (see Findings).
- `Routes.Route`: query strings and trailing slashes are not modelled. The farmer and loan routers are reached but not spelled out. Case-insensitive matching covers ASCII letters only. OPTIONS requests, which the CORS middleware answers before any route, are not modelled.
- HTML constraint validation in the browser is not modelled. On the loan form the `required` and `pattern` inputs and the terms checkbox must be satisfied before `onSubmit` runs, so `LoanForm.Submit` and `LoanForm.FourUploadsSubmit` describe the submit handler once it runs.
- JavaScript string lengths count UTF-16 code units. The model does the same where a length is compared or summed (`Common.JsLength`, used by `Login.FormError` and by the speech offsets of `SoilReport`). Elsewhere strings are sequences of Unicode characters; the other `length` tests in this core only ask whether a string is empty, where the two measures agree.
- Loan amount and tenure extraction from the offer text in LoanApplicationForm.jsx is not modelled, as it only pre-fills display fields.
- The news page's category icon map is not modelled. It is display only.
- `AddFarmerForm.HandleChange`: spreading a parent that holds a string (which would copy its characters as keys) is modelled as an empty group.
- `AuthWrapper.CheckAuth`: a stored user whose JSON parses to a non-object, such as `"null"`, is not modelled separately. It counts as unparsable.
- `CropAnalysis.AnalyzeCrop`: its own contract states the key guard only. What each outcome of the model call leads to is stated on `CropAnalysis.AnalyzeCropFixed`, together with `CropAnalysis.FixedAgreesUnlessThrown`, which shows that the two routes agree whenever the call does not throw.
- `LoanController.UpdateLoanStatus`: a body without `status` is not modelled, because the model's documents always hold a status. The source then saves the loan and the farmer with the status path unset. After that, `status.toLowerCase()` throws inside the `try`, and the handler answers 400 "Update Error".
- The `categoryQueries` lookup in the news route and the landing page's `stateToLanguage` lookup (`Landing.StateLanguage`) are modelled as plain maps. Names inherited from `Object.prototype` (such as `"constructor"`), which those lookups also find, are not modelled.
- `Marketplace`: `handleInquiry` is not modelled as a page step. It only calls `ProductController.IncrementInquiry`, which is modelled, and shows an alert.

## Findings

| source | as written | input that shows it | evidently intended | confidence | as-written member | corrected member |
|---|---|---|---|---|---|---|
| backend/src/controllers/loanController.js:101-108 | the farmer mirror copies any loan status other than Approved/Disbursed verbatim; "Pending" is not in the farmer's `loanStatus` enum, so the farmer save fails after the loan was already saved, and the client gets 400 | an existing loan whose farmer exists, updated with status "Pending" | every loan status maps into the farmer enum (a pending loan reads as "Applied"), so a valid loan update never half-applies | high, not executed | LoanController.UpdateLoanStatus | LoanController.UpdateLoanStatusFixed |
| frontend/app/api/analyze-crop/route.js:127-134 | the catch block calls `request.json()` a second time; the body was already consumed, so that call throws and the error escapes the handler instead of returning the fallback analysis | any request with an API key whose model call throws (a network failure) | the catch answers with the fallback analysis of the request already parsed | medium, not executed | CropAnalysis.AnalyzeCrop | CropAnalysis.AnalyzeCropFixed |
| frontend/app/weather/page.jsx:211-221 | a new search replaces the weather data but keeps `isHindi` and `translatedText`; the advisory box shows `translatedText` whenever Hindi is on | translate the advice of one city, then search another city | a new search shows the new advice (and drops the stale translation) | high, not executed | Weather.SearchCity | Weather.SearchCityFixed |
| frontend/components/AddFarmerForm.jsx:47-56 | `handleSubmit` never reads the answer of `farmerAPI.create`, and `apiRequest` resolves to `{success: false}` instead of rejecting, so a refused registration shows "Farmer registered successfully! ✅" and clears the form | registering a farmer whose email is already taken (400 "Email or phone already exists") | check `response.success`, as the sell form does, and show the error | high, not executed | AddFarmerForm.Submit | AddFarmerForm.SubmitFixed |
| frontend/app/news/page.jsx:14-39 | the effect hands the `fetchNews` of the render that ran it to a five-minute timer; on a failure that closure tests its own `newsData`, which is `[]` for the mount, and sets the stories to `[]` | a successful first load, then a timer tick whose fetch fails | a failed refresh keeps the stories on show (a functional update) | high, not executed | NewsPage.TimerFailureEmptiesPage | NewsPage.RefreshFixed |
| frontend/app/admin/dashboard/page.jsx:209-227 | the user toggle sends `PUT /api/auth/users/:id`; the backend only has `PATCH /api/auth/users/:id/status`, so the 404 handler answers, no alert appears and nothing changes | toggling any user | the toggle reaches `toggleUserStatus` and alerts when it succeeds | high, not executed | Admin.ToggleUser | Admin.ToggleUserFixed |
| frontend/app/api/admin/products/[productId]/status/route.js:8 | the proxy builds `${API_BASE_URL}products/…` with no '/', while the listing proxy writes `${API_BASE_URL}/products`; with the default base the path becomes "/apiproducts/:id/status", which no route takes | approving a pending listing from the admin panel | the proxy reaches `updateProductStatus` and the listing is approved | high, not executed | Admin.PanelSetStatus | Admin.PanelSetStatusFixed |

=== FILE: add_farmer_form.dfy ===
/**
 * The farmer registration form (frontend/components/AddFarmerForm.jsx):
 * the change handler that writes either a top-level field or, for a
 * dotted input name, one field of a nested group; and the reset to the
 * initial form after a successful submit. The form is the object the
 * handler spreads: a map from keys to text or to a group of texts.
 */
module AddFarmerForm {
  import opened Common
  import FarmerModel
  import Store
  import FC = FarmerController

  /** A form value: text, or a nested group such as the address. */
  datatype Field = Text(text: string) | Group(fields: map<string, string>)

  type Form = map<string, Field>

  const EmptyAddress: map<string, string> := map["village" := "", "district" := "", "state" := "", "pincode" := ""]

  /** The form as first rendered: empty texts and "Rice" as the crop. */
  const Initial: Form := map[
    "name" := Text(""), "email" := Text(""), "phone" := Text(""),
    "address" := Group(EmptyAddress), "landSize" := Text(""), "cropType" := Text("Rice")]

  /** `...prev[parent]`: the group's fields, nothing for a missing key or
      a text. */
  function GroupOf(f: Form, parent: string): (m: map<string, string>)
    ensures parent in f && f[parent].Group? ==> m == f[parent].fields
    ensures !(parent in f && f[parent].Group?) ==> m == map[]
  {
    if parent in f && f[parent].Group? then f[parent].fields else map[]
  }

  /** `handleChange`: a name with a dot names `parent.child` (the first two
      pieces of the split) and replaces the parent by its group with that
      child set; any other name sets that top-level field. */
  function HandleChange(f: Form, name: string, value: string): (r: Form)
    ensures '.' in name ==>
              var parts := Split(name, '.');
              && r == f[parts[0] := Group(GroupOf(f, parts[0])[parts[1] := value])]
    ensures '.' !in name ==> r == f[name := Text(value)]
  {
    if '.' in name then
      var parts := Split(name, '.');
      f[parts[0] := Group(GroupOf(f, parts[0])[parts[1] := value])]
    else f[name := Text(value)]
  }

  /** The pieces of `w + "." + c` for dot-free `w` and `c`. */
  lemma {:induction false} DottedName(w: string, c: string)
    requires '.' !in w && '.' !in c
    ensures Split(w + "." + c, '.') == [w, c]
  {
    SplitAfterWord(w, '.', c);
    SplitNoSeparator(c, '.');
  }

  /** Editing `parent.child` changes that child only: the other fields of
      the group and every other top-level field stay as they were. */
  lemma {:induction false} DottedEditKeepsSiblings(f: Form, parent: string, child: string, value: string)
    requires '.' !in parent && '.' !in child
    requires parent in f && f[parent].Group?
    ensures var r := HandleChange(f, parent + "." + child, value);
            && parent in r && r[parent].Group?
            && child in r[parent].fields && r[parent].fields[child] == value
            && (forall c | c in f[parent].fields && c != child :: c in r[parent].fields && r[parent].fields[c] == f[parent].fields[c])
            && (forall k | k in f && k != parent :: k in r && r[k] == f[k])
            && r.Keys == f.Keys
  {
    DottedName(parent, child);
    assert '.' in parent + "." + child by {
      assert (parent + "." + child)[|parent|] == '.';
    }
  }

  /** Editing a plain name changes that field only. */
  lemma {:induction false} PlainEditKeepsOthers(f: Form, name: string, value: string)
    requires '.' !in name
    ensures var r := HandleChange(f, name, value);
            && name in r && r[name] == Text(value)
            && (forall k | k in f && k != name :: k in r && r[k] == f[k])
  {
  }

  /** Setting the address state on the initial form: the address keeps its
      other three fields empty. */
  lemma {:induction false} AddressStateEdit(v: string)
    ensures var a := HandleChange(Initial, "address.state", v)["address"];
            a == Group(EmptyAddress["state" := v])
  {
    DottedName("address", "state");
    assert "address" + "." + "state" == "address.state";
    DottedEditKeepsSiblings(Initial, "address", "state", v);
  }

  /** What `apiRequest` (frontend/lib/api.js) resolves to. It never
      rejects: a reply outside 2xx and a failed fetch both resolve to
      `{success: false, error}`. */
  datatype ApiAnswer = ApiAnswer(success: bool, error: Option<string>)

  /** `apiRequest` for one exchange: `code` is the reply's status, `None`
      when the fetch itself failed; `message` is the reply's message, or
      the error's when the fetch failed. A 2xx body from the farmer
      handlers carries `success: true`. */
  function ApiRequest(code: Option<nat>, message: string): (a: ApiAnswer)
    ensures a.success <==> code.Some? && 200 <= code.value < 300
    ensures !a.success ==> a.error == Some(message)
  {
    if code.Some? && 200 <= code.value < 300 then ApiAnswer(true, None)
    else ApiAnswer(false, Some(message))
  }

  datatype Message = Message(kind: string, text: string)

  const Registered := "Farmer registered successfully! ✅"
  const RegisterFailed := "Failed to register farmer ❌"

  /** `handleSubmit` as written: the answer of `farmerAPI.create` is never
      looked at, and the `catch` cannot run because `apiRequest` never
      rejects, so every submit shows the success message and resets the
      form. */
  function Submit(f: Form, answer: ApiAnswer): (r: (Form, Message))
    ensures r.0 == Initial && r.1 == Message("success", Registered)
  {
    (Initial, Message("success", Registered))
  }

  /** `handleSubmit` checking `response.success`, as the sell form does:
      success resets the form, a refusal keeps it and shows the error. */
  function SubmitFixed(f: Form, answer: ApiAnswer): (r: (Form, Message))
    ensures answer.success ==> r == (Initial, Message("success", Registered))
    ensures !answer.success ==> r.0 == f && r.1 == Message("error", OrElse(answer.error, RegisterFailed))
  {
    if answer.success then (Initial, Message("success", Registered))
    else (f, Message("error", OrElse(answer.error, RegisterFailed)))
  }

  /** The two handlers agree exactly on the answers that report success. */
  lemma {:induction false} SubmitAgreesIffSuccess(f: Form, answer: ApiAnswer)
    ensures Submit(f, answer) == SubmitFixed(f, answer) <==> answer.success
  {
    if !answer.success {
      assert SubmitFixed(f, answer).1.kind == "error";
      assert "error" != "success";
    }
  }

  /** A second registration with the same email, which the backend
      refuses with a 400, is reported as a success by the form as written
      and with the backend's message by the corrected form. */
  lemma {:induction false} DuplicateReportedAsRegistered(
    db: Store.Db, a: FarmerModel.FarmerInput, b: FarmerModel.FarmerInput, id1: Store.Id, id2: Store.Id, f: Form)
    requires Store.Consistent(db) && id1 !in db.farmers && id2 !in db.farmers && id1 != id2
    requires a.email.Some? && b.email.Some? && ToLower(a.email.value) == ToLower(b.email.value)
    requires FC.CreateFarmer(db, a, id1).reply.code == 201
    requires FarmerModel.Materialize(b).Some? && FarmerModel.Valid(FarmerModel.Materialize(b).value)
    ensures var second := FC.CreateFarmer(FC.CreateFarmer(db, a, id1).db, b, id2).reply;
            var answer := ApiRequest(Some(second.code), second.message);
            && !answer.success
            && Submit(f, answer).1 == Message("success", Registered)
            && SubmitFixed(f, answer) == (f, Message("error", "Email or phone already exists"))
  {
    FC.SecondRegistrationRefused(db, a, b, id1, id2);
  }

  /** Whatever was typed, a successful submit leaves the initial form, and
      the crop is "Rice" again. */
  lemma {:induction false} EditsThenSubmit(f: Form, name: string, value: string, answer: ApiAnswer)
    requires answer.success
    ensures var r := SubmitFixed(HandleChange(f, name, value), answer).0;
            r == Initial && r["cropType"] == Text("Rice")
  {
  }
}

=== FILE: admin.dfy ===
/**
 * The two moderation screens: the admin dashboard
 * (frontend/app/admin/dashboard/page.jsx) and the older admin panel
 * (frontend/app/admin/page.jsx). Both load listings by status, merge the
 * pending, approved and rejected lists for the "all" view, count them,
 * and offer approve/reject only on pending listings. The dashboard also
 * gates on an admin token, sums views and inquiries and toggles user
 * accounts.
 */
module Admin {
  import opened Common
  import P = ProductModel
  import PC = ProductController
  import R = Routes
  import opened Store

  /** A listing as the screens hold it: the JSON counters may be absent. */
  datatype Item = Item(id: Id, status: string, views: Option<int>, inquiries: Option<int>)

  function FromEntry(e: PC.Entry): Item
  {
    Item(e.0, e.1.status, Some(e.1.views), Some(e.1.inquiries))
  }

  function StatusQuery(s: string): PC.ProductQuery
  {
    PC.ProductQuery(None, None, None, Some(s), None, None)
  }

  /** `?status=<s>` on the listing endpoint, as the screen's items. */
  method FetchStatus(db: Db, s: string) returns (items: seq<Item>)
    ensures forall k | 0 <= k < |items| :: items[k].id in db.products
    ensures s != "" ==> forall k | 0 <= k < |items| :: items[k].status == s
    ensures s != "" ==> forall id | id in db.products && db.products[id].status == s ::
                          exists k | 0 <= k < |items| :: items[k].id == id
  {
    var reply := PC.GetAllProducts(db, StatusQuery(s));
    items := seq(|reply.data|, k requires 0 <= k < |reply.data| => FromEntry(reply.data[k]));
    if s != "" {
      forall id | id in db.products && db.products[id].status == s
        ensures exists k | 0 <= k < |items| :: items[k].id == id
      {
        assert PC.Matches(StatusQuery(s), db.products[id]);
        var k :| 0 <= k < |reply.data| && reply.data[k].0 == id;
        assert items[k].id == id;
      }
    }
  }

  /** Where a status sorts in the "all" view. */
  function Rank(s: string): nat
  {
    if s == "pending" then 0 else if s == "approved" then 1 else 2
  }

  predicate Moderated(s: string)
  {
    s == "pending" || s == "approved" || s == "rejected"
  }

  /** `fetchProducts`: one status list, or for "all" the pending, approved
      and rejected lists one after the other, which leaves sold listings
      out. */
  method FetchProducts(db: Db, filter: string) returns (items: seq<Item>)
    ensures forall k | 0 <= k < |items| :: items[k].id in db.products
    ensures filter == "all" ==> forall k | 0 <= k < |items| :: Moderated(items[k].status)
    ensures filter == "all" ==> forall i, j | 0 <= i < j < |items| :: Rank(items[i].status) <= Rank(items[j].status)
    ensures filter == "all" ==> forall id | id in db.products && Moderated(db.products[id].status) ::
                                  exists k | 0 <= k < |items| :: items[k].id == id
    ensures filter != "all" && filter != "" ==> forall k | 0 <= k < |items| :: items[k].status == filter
    ensures filter != "all" && filter != "" ==> forall id | id in db.products && db.products[id].status == filter ::
                                                  exists k | 0 <= k < |items| :: items[k].id == id
  {
    if filter != "all" {
      items := FetchStatus(db, filter);
      return;
    }
    var pending := FetchStatus(db, "pending");
    var approved := FetchStatus(db, "approved");
    var rejected := FetchStatus(db, "rejected");
    items := pending + approved + rejected;
    forall id | id in db.products && Moderated(db.products[id].status)
      ensures exists k | 0 <= k < |items| :: items[k].id == id
    {
      var s := db.products[id].status;
      if s == "pending" {
        var k :| 0 <= k < |pending| && pending[k].id == id;
        assert items[k].id == id;
      } else if s == "approved" {
        var k :| 0 <= k < |approved| && approved[k].id == id;
        assert items[|pending| + k].id == id;
      } else {
        var k :| 0 <= k < |rejected| && rejected[k].id == id;
        assert items[|pending| + |approved| + k].id == id;
      }
    }
  }

  // ---------------------------------------------------------------- stats

  datatype Stats = Stats(
    total: nat, pending: nat, approved: nat, rejected: nat,
    totalUsers: nat, totalViews: int, totalInquiries: int)

  function HasStatus(s: string): Item -> bool
  {
    (x: Item) => x.status == s
  }

  /** `p.views || 0` and `p.inquiries || 0`. */
  function ViewsOf(x: Item): int { if x.views.Some? then x.views.value else 0 }
  function InquiriesOf(x: Item): int { if x.inquiries.Some? then x.inquiries.value else 0 }

  /** The sum of `f` over a list, element by element from the front. */
  function Total(s: seq<Item>, f: Item -> int): int
  {
    if s == [] then 0 else f(s[0]) + Total(s[1..], f)
  }

  lemma {:induction false} TotalAppend(s: seq<Item>, t: seq<Item>, f: Item -> int)
    ensures Total(s + t, f) == Total(s, f) + Total(t, f)
    decreases |s|
  {
    if s == [] {
      assert s + t == t;
    } else {
      assert (s + t)[0] == s[0] && (s + t)[1..] == s[1..] + t;
      TotalAppend(s[1..], t, f);
    }
  }

  /** `data.reduce((sum, p) => sum + f(p), 0)`. */
  method Reduce(data: seq<Item>, f: Item -> int) returns (sum: int)
    ensures sum == Total(data, f)
  {
    sum := 0;
    var i := 0;
    while i < |data|
      invariant 0 <= i <= |data|
      invariant sum == Total(data[..i], f)
    {
      TotalAppend(data[..i], [data[i]], f);
      assert data[..i + 1] == data[..i] + [data[i]];
      sum := sum + f(data[i]);
      i := i + 1;
    }
    assert data[..i] == data;
  }

  /** Three distinct statuses never count one listing twice; when every
      listing carries one of them, the counts add up to the length. */
  lemma {:induction false} StatusCounts(data: seq<Item>, a: string, b: string, c: string)
    requires a != b && b != c && a != c
    ensures Count(data, HasStatus(a)) + Count(data, HasStatus(b)) + Count(data, HasStatus(c)) <= |data|
    ensures (forall k | 0 <= k < |data| :: data[k].status in {a, b, c}) ==>
              Count(data, HasStatus(a)) + Count(data, HasStatus(b)) + Count(data, HasStatus(c)) == |data|
    decreases |data|
  {
    if data != [] {
      StatusCounts(data[1..], a, b, c);
    }
  }

  /** The dashboard's `calculateStats`: the other fields of the previous
      stats (the user count) are kept. */
  method CalculateStats(prev: Stats, data: seq<Item>) returns (st: Stats)
    ensures st.total == |data|
    ensures st.pending == Count(data, HasStatus("pending"))
    ensures st.approved == Count(data, HasStatus("approved"))
    ensures st.rejected == Count(data, HasStatus("rejected"))
    ensures st.pending + st.approved + st.rejected <= st.total
    ensures (forall k | 0 <= k < |data| :: Moderated(data[k].status)) ==> st.pending + st.approved + st.rejected == st.total
    ensures st.totalViews == Total(data, ViewsOf) && st.totalInquiries == Total(data, InquiriesOf)
    ensures st.totalUsers == prev.totalUsers
  {
    var views := Reduce(data, ViewsOf);
    var inquiries := Reduce(data, InquiriesOf);
    StatusCounts(data, "pending", "approved", "rejected");
    st := prev.(total := |data|,
                pending := Count(data, HasStatus("pending")),
                approved := Count(data, HasStatus("approved")),
                rejected := Count(data, HasStatus("rejected")),
                totalViews := views, totalInquiries := inquiries);
  }

  /** A listing whose counters are absent adds nothing to the totals. */
  lemma {:induction false} MissingCountersAddNothing(s: seq<Item>, t: seq<Item>)
    requires forall k | 0 <= k < |t| :: t[k].views.None?
    ensures Total(s + t, ViewsOf) == Total(s, ViewsOf)
    decreases |t|
  {
    if t == [] {
      assert s + t == s;
    } else {
      assert s + t == (s + [t[0]]) + t[1..];
      MissingCountersAddNothing(s + [t[0]], t[1..]);
      TotalAppend(s, [t[0]], ViewsOf);
      assert [t[0]][1..] == [];
    }
  }

  /** The admin panel's `calculateStats`: the same four counts, without the
      user and counter totals. */
  datatype PanelStats = PanelStats(total: nat, pending: nat, approved: nat, rejected: nat)

  function PanelCalculateStats(data: seq<Item>): (st: PanelStats)
    ensures st.pending + st.approved + st.rejected <= st.total == |data|
  {
    StatusCounts(data, "pending", "approved", "rejected");
    PanelStats(|data|, Count(data, HasStatus("pending")), Count(data, HasStatus("approved")),
               Count(data, HasStatus("rejected")))
  }

  /** The two screens count the same list the same way. */
  lemma {:induction false} PanelAgreesWithDashboard(prev: Stats, data: seq<Item>, st: Stats)
    requires st.total == |data| && st.pending == Count(data, HasStatus("pending"))
    requires st.approved == Count(data, HasStatus("approved")) && st.rejected == Count(data, HasStatus("rejected"))
    ensures PanelCalculateStats(data) == PanelStats(st.total, st.pending, st.approved, st.rejected)
  {
  }

  // -------------------------------------------------------------- actions

  datatype Action = View | Approve | Reject | Delete

  /** The row buttons: approve and reject only for a pending listing. */
  function Actions(x: Item): (acts: set<Action>)
    ensures View in acts && Delete in acts
    ensures Approve in acts <==> x.status == "pending"
    ensures Reject in acts <==> x.status == "pending"
  {
    {View, Delete} + (if x.status == "pending" then {Approve, Reject} else {})
  }

  /** The body `{ status }` as a listing update. */
  function StatusPatch(s: string): P.ProductFields
  {
    P.ProductFields(None, None, None, None, None, None, None, None, None, None,
                    None, None, None, None, None, None, Some(s), None, None, None)
  }

  /** The path of the dashboard's status request, `${apiUrl}/api/products/${id}`. */
  function DashboardProductPath(id: Id): string
  {
    "/api/products/" + NatToString(id)
  }

  /** The dashboard changes a status with `PUT /api/products/:id`; a
      success alerts "Product <status> successfully!". */
  function DashboardSetStatus(db: Db, id: Id, s: string): (r: (Outcome<P.Product>, Option<string>))
    ensures r.0 == PC.UpdateProduct(db, id, StatusPatch(s))
    ensures r.1.Some? <==> r.0.reply.code == 200
    ensures r.1.Some? ==> r.1.value == "Product " + s + " successfully!"
  {
    var out := PC.UpdateProduct(db, id, StatusPatch(s));
    (out, if out.reply.code == 200 then Some("Product " + s + " successfully!") else None)
  }

  /** The dashboard's request does reach `updateProduct`. */
  lemma {:induction false} DashboardRouted(id: Id)
    ensures R.Route("PUT", DashboardProductPath(id)) == R.UpdateProduct(NatToString(id))
  {
    R.IdSegment(id);
    R.ProductRoutes(NatToString(id));
  }

  /** The path part of the proxies' default `API_BASE_URL`
      ("https://hack-bios-agri-fintech-backend.vercel.app/api"). */
  const ProxyBase: string := "/api"

  /** The backend request of the panel's status proxy
      (api/admin/products/[productId]/status/route.js): the base, then
      "products/" with no '/' in between. */
  function ProxyStatusPath(id: Id): string
  {
    ProxyBase + "products/" + NatToString(id) + "/status"
  }

  /** The same request with the '/' the listing proxy puts after the base. */
  function ProxyStatusPathFixed(id: Id): string
  {
    ProxyBase + "/products/" + NatToString(id) + "/status"
  }

  /** The panel's `handleStatusUpdate` through a status proxy that sends
      `PATCH path` and passes the backend's reply back: the backend's
      `updateProductStatus` when the path reaches it for this listing, the
      404 handler otherwise. A success alerts "Product <status>
      successfully!", a failure the server's message. */
  function PanelSetStatusVia(db: Db, id: Id, s: string, path: string): (r: (Outcome<P.Product>, string))
    ensures R.Route("PATCH", path) == R.UpdateProductStatus(NatToString(id))
            ==> r.0 == PC.UpdateProductStatus(db, id, Some(s))
    ensures R.Route("PATCH", path) != R.UpdateProductStatus(NatToString(id))
            ==> r.0 == Outcome(Reply(404, R.RouteNotFound, None), db)
    ensures r.0.reply.code == 200 ==> r.1 == "Product " + s + " successfully!"
    ensures r.0.reply.code != 200 ==> r.1 == "Failed to update status: " + OrElse(Some(r.0.reply.message), "Unknown error")
  {
    var out := if R.Route("PATCH", path) == R.UpdateProductStatus(NatToString(id))
               then PC.UpdateProductStatus(db, id, Some(s))
               else Outcome(Reply(404, R.RouteNotFound, None), db);
    (out, if out.reply.code == 200 then "Product " + s + " successfully!"
          else "Failed to update status: " + OrElse(Some(out.reply.message), "Unknown error"))
  }

  /** The panel's status change as written: the proxy's request reaches no
      route, so nothing is stored and the panel alerts the 404 message. */
  function PanelSetStatus(db: Db, id: Id, s: string): (r: (Outcome<P.Product>, string))
    ensures r.0 == Outcome(Reply(404, R.RouteNotFound, None), db)
    ensures r.1 == "Failed to update status: " + R.RouteNotFound
  {
    UnslashedProxy(id);
    assert R.RouteNotFound != "";
    PanelSetStatusVia(db, id, s, ProxyStatusPath(id))
  }

  lemma {:induction false} UnslashedProxy(id: Id)
    ensures R.Route("PATCH", ProxyStatusPath(id)) == R.NotFound
  {
    R.IdSegment(id);
    assert ProxyStatusPath(id) == "/apiproducts/" + NatToString(id) + "/status";
    R.ProductRoutes(NatToString(id));
  }

  /** The panel's status change with the '/' restored: it runs the
      backend's status switch. */
  function PanelSetStatusFixed(db: Db, id: Id, s: string): (r: (Outcome<P.Product>, string))
    ensures r.0 == PC.UpdateProductStatus(db, id, Some(s))
    ensures r.0.reply.code == 200 ==> r.1 == "Product " + s + " successfully!"
    ensures r.0.reply.code != 200 ==> r.1 == "Failed to update status: " + OrElse(Some(r.0.reply.message), "Unknown error")
  {
    R.IdSegment(id);
    assert ProxyStatusPathFixed(id) == "/api/products/" + NatToString(id) + "/status";
    R.ProductRoutes(NatToString(id));
    PanelSetStatusVia(db, id, s, ProxyStatusPathFixed(id))
  }

  /** As written, approving a stored pending listing from the panel leaves
      it pending, while the dashboard approves it. */
  lemma {:induction false} PanelApprovalLost(db: Db, id: Id)
    requires id in db.products && db.products[id].status == "pending"
    ensures PanelSetStatus(db, id, "approved").0.db.products[id].status == "pending"
    ensures DashboardSetStatus(db, id, "approved").0.db.products[id].status == "approved"
  {
    PC.StatusSwitchIsStatusPatch(db, id, "approved");
  }

  /** With the proxy corrected, approving or rejecting a stored listing
      leaves the same store and the same alert whichever screen does it. */
  lemma {:induction false} ScreensAgree(db: Db, id: Id, s: string)
    requires s == "approved" || s == "rejected"
    ensures DashboardSetStatus(db, id, s).0.db == PanelSetStatusFixed(db, id, s).0.db
    ensures id in db.products ==>
              && DashboardSetStatus(db, id, s).1 == Some(PanelSetStatusFixed(db, id, s).1)
              && PanelSetStatusFixed(db, id, s).0.db.products[id].status == s
  {
    PC.StatusSwitchIsStatusPatch(db, id, s);
  }

  // ---------------------------------------------------------------- users

  /** The badge: a user is shown active unless `isActive` is exactly false. */
  predicate ShownActive(isActive: Option<bool>)
  {
    isActive != Some(false)
  }

  const Activated := "User activated successfully!"
  const Deactivated := "User deactivated successfully!"

  /** `handleToggleUserStatus(id, user.isActive !== false)` sending `verb
      path`: the body carries `isActive: !currentStatus`, so an absent flag
      counts as active and the toggle deactivates. The alert (and the
      re-fetch of the users) comes only when the reply reports success:
      `toggled` is the success of `toggleUserStatus` (authController.js is
      not part of this model), and any request that reaches no route gets
      the 404 handler's failure. */
  function ToggleUserVia(isActive: Option<bool>, user: Id, verb: string, path: string, toggled: bool): (r: (bool, Option<string>))
    ensures r.0 <==> isActive == Some(false)
    ensures r.0 == !ShownActive(isActive)
    ensures r.1.Some? <==> R.Route(verb, path) == R.ToggleUserStatus(NatToString(user)) && toggled
    ensures r.1.Some? ==> r.1.value == (if r.0 then Activated else Deactivated)
  {
    var current := isActive != Some(false);
    var success := R.Route(verb, path) == R.ToggleUserStatus(NatToString(user)) && toggled;
    (!current, if success then Some(if !current then Activated else Deactivated) else None)
  }

  /** As written: `PUT /api/auth/users/:id`, which no route takes, so the
      toggle never succeeds and never alerts. */
  function ToggleUser(isActive: Option<bool>, user: Id, toggled: bool): (r: (bool, Option<string>))
    ensures r.0 <==> isActive == Some(false)
    ensures r.1 == None
  {
    R.IdSegment(user);
    R.UserRoutes(NatToString(user));
    ToggleUserVia(isActive, user, "PUT", "/api/auth/users/" + NatToString(user), toggled)
  }

  /** Corrected: `PATCH /api/auth/users/:id/status`, the route of
      `toggleUserStatus`; the alert comes exactly when it succeeds. */
  function ToggleUserFixed(isActive: Option<bool>, user: Id, toggled: bool): (r: (bool, Option<string>))
    ensures r.0 <==> isActive == Some(false)
    ensures r.1.Some? <==> toggled
    ensures r.1.Some? ==> r.1.value == (if r.0 then Activated else Deactivated)
  {
    R.IdSegment(user);
    R.UserRoutes(NatToString(user));
    ToggleUserVia(isActive, user, "PATCH", "/api/auth/users/" + NatToString(user) + "/status", toggled)
  }

  /** The flag the toggle sends is the opposite of the badge on show. */
  lemma {:induction false} ToggleFlipsBadge(isActive: Option<bool>, user: Id, toggled: bool)
    ensures ShownActive(Some(ToggleUserFixed(isActive, user, toggled).0)) == !ShownActive(isActive)
    ensures ToggleUser(isActive, user, toggled).0 == ToggleUserFixed(isActive, user, toggled).0
  {
  }

  // ----------------------------------------------------------------- gate

  /** The dashboard's effect: without an admin token it redirects to
      "/admin/login" and fetches nothing. */
  method OpenDashboard(adminToken: Option<string>, db: Db, filter: string, prev: Stats)
    returns (redirect: Option<string>, items: seq<Item>, st: Stats)
    ensures redirect.Some? <==> !Truthy(adminToken)
    ensures redirect.Some? ==> redirect.value == "/admin/login" && items == [] && st == prev
    ensures redirect.None? ==> st.total == |items| && st.pending + st.approved + st.rejected <= st.total
    ensures redirect.None? && filter == "all" ==> st.pending + st.approved + st.rejected == st.total
  {
    if !Truthy(adminToken) {
      return Some("/admin/login"), [], prev;
    }
    items := FetchProducts(db, filter);
    st := CalculateStats(prev, items);
    redirect := None;
  }
}

=== FILE: auth.dfy ===
/**
 * The request guards of the API (backend/src/middleware/auth.js): bearer
 * token extraction, token verification and user lookup, and role checks.
 * Token verification and the user lookup are parameters: the signature
 * check and the user collection are outside this model.
 */
module Auth {
  import opened Common

  datatype User = User(id: nat, email: string, role: string, isActive: bool)

  /** What the user lookup can answer; `Failed` is a lookup that throws. */
  datatype Lookup = Found(user: User) | Missing | Failed

  /** The identity attached to the request: id, email and role only. */
  datatype Principal = Principal(id: nat, email: string, role: string)

  /** A guard either lets the request through or answers it. */
  datatype Gate = Pass(principal: Principal) | Deny(code: nat, message: string)

  const NotAuthorized: string := "Not authorized. Please login to access this resource."
  const InvalidToken: string := "Invalid or expired token"
  const UserNotFound: string := "User not found"
  const UserDisabled: string := "User account is disabled"

  /** The token of an `Authorization` header: a header starting with
      `Bearer`, split on single spaces, second part; `None` when there is
      no second part or it is empty. */
  function ExtractToken(header: Option<string>): (token: Option<string>)
    ensures token.Some? <==>
              && header.Some? && StartsWith(header.value, "Bearer")
              && |Split(header.value, ' ')| >= 2 && Split(header.value, ' ')[1] != ""
    ensures token.Some? ==> token.value == Split(header.value, ' ')[1]
    ensures token.Some? ==> token.value != "" && ' ' !in token.value
  {
    if header.None? || !StartsWith(header.value, "Bearer") then None
    else
      var parts := Split(header.value, ' ');
      if |parts| < 2 || parts[1] == "" then None else Some(parts[1])
  }

  /** A well-formed `Bearer <token>` header yields exactly the token. */
  lemma {:induction false} BearerRoundTrip(t: string)
    requires t != "" && ' ' !in t
    ensures ExtractToken(Some("Bearer " + t)) == Some(t)
  {
    assert "Bearer " + t == "Bearer" + [' '] + t;
    SplitAfterWord("Bearer", ' ', t);
    SplitNoSeparator(t, ' ');
  }

  /** Headers the guard turns away before verifying anything: a bare
      `Bearer`, a double space, another scheme. */
  lemma {:induction false} BareBearerRefused()
    ensures ExtractToken(Some("Bearer")) == None
  {
    assert ' ' !in "Bearer";
    SplitNoSeparator("Bearer", ' ');
  }

  lemma {:induction false} DoubleSpaceRefused()
    ensures ExtractToken(Some("Bearer  abc")) == None
  {
    assert "Bearer  abc" == "Bearer" + [' '] + " abc";
    SplitAfterWord("Bearer", ' ', " abc");
    assert " abc" == "" + [' '] + "abc";
    SplitAfterWord("", ' ', "abc");
  }

  lemma {:induction false} OtherSchemeRefused()
    ensures ExtractToken(Some("Basic abc")) == None
    ensures ExtractToken(None) == None
  {
    assert "Basic abc"[1] != "Bearer"[1];
  }

  /** `protect`: every refusal is a 401, checked in order: no token, a
      token that fails verification (or a lookup that throws), an unknown
      user, a disabled user. The request passes exactly when all four
      checks pass, and then carries that user's id, email and role. */
  function Protect(header: Option<string>, verify: string -> Option<nat>, lookup: nat -> Lookup): (g: Gate)
    ensures g.Deny? ==> g.code == 401
    ensures ExtractToken(header).None? ==> g == Deny(401, NotAuthorized)
    ensures ExtractToken(header).Some? && verify(ExtractToken(header).value).None?
            ==> g == Deny(401, InvalidToken)
    ensures ExtractToken(header).Some? && verify(ExtractToken(header).value).Some?
            ==> var found := lookup(verify(ExtractToken(header).value).value);
                && (found.Failed? ==> g == Deny(401, InvalidToken))
                && (found.Missing? ==> g == Deny(401, UserNotFound))
                && (found.Found? && !found.user.isActive ==> g == Deny(401, UserDisabled))
    ensures g.Pass? <==>
              && ExtractToken(header).Some?
              && verify(ExtractToken(header).value).Some?
              && lookup(verify(ExtractToken(header).value).value).Found?
              && lookup(verify(ExtractToken(header).value).value).user.isActive
    ensures g.Pass? ==>
              var u := lookup(verify(ExtractToken(header).value).value).user;
              g.principal == Principal(u.id, u.email, u.role)
    ensures g.Deny? && g.message == UserDisabled ==>
              && ExtractToken(header).Some? && verify(ExtractToken(header).value).Some?
              && lookup(verify(ExtractToken(header).value).value).Found?
  {
    var token := ExtractToken(header);
    if token.None? then Deny(401, NotAuthorized)
    else
      var id := verify(token.value);
      if id.None? then Deny(401, InvalidToken)
      else match lookup(id.value)
        case Failed => Deny(401, InvalidToken)
        case Missing => Deny(401, UserNotFound)
        case Found(u) =>
          if !u.isActive then Deny(401, UserDisabled)
          else Pass(Principal(u.id, u.email, u.role))
  }

  /** Without a token the answer does not depend on the verifier or the
      user collection. */
  lemma {:induction false} NoTokenIgnoresOracles(header: Option<string>, v1: string -> Option<nat>, v2: string -> Option<nat>,
                              l1: nat -> Lookup, l2: nat -> Lookup)
    requires ExtractToken(header).None?
    ensures Protect(header, v1, l1) == Protect(header, v2, l2)
  {
  }

  /** `authorize(...roles)`: 403 naming the role unless it is listed. */
  function Authorize(roles: seq<string>, p: Principal): (g: Gate)
    ensures g.Pass? <==> p.role in roles
    ensures g.Pass? ==> g.principal == p
    ensures g.Deny? ==> g.code == 403 && Contains(g.message, p.role)
  {
    if p.role in roles then Pass(p)
    else
      var msg := "User role '" + p.role + "' is not authorized to access this resource";
      assert msg[11..11 + |p.role|] == p.role;
      assert OccursAt(msg, p.role, 11);
      Deny(403, msg)
  }

  /** `protect` followed by `authorize`: a request gets through both
      exactly when its active user holds one of the roles. */
  function Guard(header: Option<string>, verify: string -> Option<nat>, lookup: nat -> Lookup, roles: seq<string>): Gate
  {
    var g := Protect(header, verify, lookup);
    if g.Deny? then g else Authorize(roles, g.principal)
  }

  lemma {:induction false} GuardPassesOnlyListedActiveUsers(header: Option<string>, verify: string -> Option<nat>,
                                         lookup: nat -> Lookup, roles: seq<string>)
    ensures var g := Guard(header, verify, lookup, roles);
            g.Pass? ==> && g.principal.role in roles
                        && var u := lookup(verify(ExtractToken(header).value).value).user;
                           u.isActive && u.role == g.principal.role && u.id == g.principal.id
  {
  }
}

=== FILE: auth_wrapper.dfy ===
/**
 * The client-side gate around every page (frontend/components/AuthWrapper.jsx):
 * it reads the stored session user and token, keeps a loading flag until
 * that check is done, follows the login and logout events, and decides
 * between the spinner, the "Authentication Required" screen and the page.
 * Local storage is the login page's `Storage`; a stored user that fails
 * to parse is a separate case.
 */
module AuthWrapper {
  import opened Common
  import L = Login

  /** Pages anyone may see. */
  const PublicPages: seq<string> := ["/login", "/"]

  /** The stored user as `JSON.parse` sees it. */
  datatype StoredUser = Absent | Unparsable | Parsed(user: L.SessionUser)

  /** The wrapper's state: the user it knows of and whether the first
      check is still running. */
  datatype Gate = Gate(user: Option<L.SessionUser>, loading: bool)

  const Start := Gate(None, true)

  /** `checkAuth`: the stored user when both a user and a token are
      stored and the user parses; nobody otherwise. Loading ends. */
  function CheckAuth(stored: StoredUser, token: Option<string>): (g: Gate)
    ensures !g.loading
    ensures g.user.Some? <==> stored.Parsed? && Truthy(token)
    ensures g.user.Some? ==> g.user.value == stored.user
  {
    if stored != Absent && Truthy(token) then
      (match stored
       case Parsed(u) => Gate(Some(u), false)
       case _ => Gate(None, false))
    else Gate(None, false)
  }

  /** The wrapper's view of the login page's storage: what login stores
      parses back to the same user. */
  function Stored(st: L.Storage): (s: StoredUser)
    ensures st.user.None? <==> s == Absent
    ensures st.user.Some? ==> s == Parsed(st.user.value)
  {
    if st.user.Some? then Parsed(st.user.value) else Absent
  }

  datatype Event =
    | StorageChanged(key: string, stored: StoredUser, token: Option<string>)
    | UserLogout
    | UserLogin(detail: L.SessionUser)

  /** The listeners: a storage change to either key checks again, other
      keys are ignored; logout forgets the user; login takes the event's
      user. */
  function OnEvent(g: Gate, e: Event): (r: Gate)
    ensures e.UserLogout? ==> r == g.(user := None)
    ensures e.UserLogin? ==> r == g.(user := Some(e.detail))
    ensures e.StorageChanged? && e.key != "agrifinai_user" && e.key != "agrifinai_token" ==> r == g
    ensures e.StorageChanged? && (e.key == "agrifinai_user" || e.key == "agrifinai_token") ==>
              r == CheckAuth(e.stored, e.token)
  {
    match e
    case StorageChanged(key, stored, token) =>
      if key == "agrifinai_user" || key == "agrifinai_token" then CheckAuth(stored, token) else g
    case UserLogout => g.(user := None)
    case UserLogin(u) => g.(user := Some(u))
  }

  datatype Screen = Spinner | AuthRequired | Page

  /** What renders: the spinner while loading, then the lock screen for a
      protected path without a user, then the page. */
  function Render(g: Gate, pathname: string): (s: Screen)
    ensures s == Spinner <==> g.loading
    ensures s == AuthRequired <==> !g.loading && g.user.None? && pathname !in PublicPages
    ensures s == Page <==> !g.loading && (g.user.Some? || pathname in PublicPages)
  {
    if g.loading then Spinner
    else if g.user.None? && pathname !in PublicPages then AuthRequired
    else Page
  }

  /** The public pages are exactly the login page and the home page, and
      they open for everybody once loading is over. */
  lemma {:induction false} PublicPagesOpen(g: Gate, pathname: string)
    requires !g.loading
    ensures pathname in PublicPages <==> pathname == "/login" || pathname == "/"
    ensures pathname in PublicPages ==> Render(g, pathname) == Page
  {
  }

  /** Before the first check only the spinner renders, whatever the path. */
  lemma {:induction false} SpinnerFirst(pathname: string)
    ensures Render(Start, pathname) == Spinner
  {
  }

  /** A logout closes every protected page, and a login opens it again. */
  lemma {:induction false} LogoutThenLogin(g: Gate, u: L.SessionUser, pathname: string)
    requires !g.loading && pathname !in PublicPages
    ensures Render(OnEvent(g, UserLogout), pathname) == AuthRequired
    ensures Render(OnEvent(OnEvent(g, UserLogout), UserLogin(u)), pathname) == Page
  {
  }

  /** A successful login on the login page leaves storage from which the
      gate's check admits that user on any path. */
  lemma {:induction false} LoginOpensGate(p: L.Page, st: L.Storage, now: nat, pathname: string)
    requires p.isLogin && L.FormError(true, p.form).None?
    requires L.FindAccount(st.users, p.form.email, p.form.password).Some?
    ensures var st1 := L.Submit(p, st, now).1;
            var g := CheckAuth(Stored(st1), st1.token);
            && g.user.Some? && g.user.value.role == "farmer"
            && g.user.value.email == p.form.email
            && Render(g, pathname) == Page
  {
  }
}

=== FILE: common.dfy ===
/**
 * Shared vocabulary for the model: an Option type and the handful of
 * JavaScript string operations the application's code leans on
 * (`trim`, `includes`, `startsWith`, `split`, `slice`, `toLowerCase`).
 */
module Common {

  datatype Option<+T> = None | Some(value: T)

  /** A JavaScript string that is `undefined`, `null` or empty is falsy. */
  predicate Truthy(o: Option<string>) { o.Some? && o.value != "" }

  /** `o || d` on a string. */
  function OrElse(o: Option<string>, d: string): (r: string)
    ensures Truthy(o) ==> r == o.value
    ensures !Truthy(o) ==> r == d
  {
    if Truthy(o) then o.value else d
  }

  /** The characters JavaScript's `trim` and the regex class `\s` treat as
      white space (WhiteSpace and LineTerminator of ECMA-262). */
  predicate IsSpace(c: char)
  {
    c == ' ' || c == '\t' || c == '\n' || c == '\r' || c == '\U{B}' || c == '\U{C}'
    || c == '\U{A0}' || c == '\U{1680}' || ('\U{2000}' <= c <= '\U{200A}')
    || c == '\U{2028}' || c == '\U{2029}' || c == '\U{202F}' || c == '\U{205F}'
    || c == '\U{3000}' || c == '\U{FEFF}'
  }

  predicate NoSpace(s: string)
  {
    forall i :: 0 <= i < |s| ==> !IsSpace(s[i])
  }

  predicate IsDigit(c: char)
  {
    '0' <= c <= '9'
  }

  /** `/^\d{n}$/` */
  predicate DigitsOfLength(s: string, n: nat)
  {
    |s| == n && forall i :: 0 <= i < |s| ==> IsDigit(s[i])
  }

  function TrimStart(s: string): (r: string)
    ensures |r| <= |s| && r == s[|s| - |r|..]
    ensures |r| > 0 ==> !IsSpace(r[0])
    ensures forall i :: 0 <= i < |s| - |r| ==> IsSpace(s[i])
  {
    if |s| > 0 && IsSpace(s[0]) then TrimStart(s[1..]) else s
  }

  function TrimEnd(s: string): (r: string)
    ensures |r| <= |s| && r == s[..|r|]
    ensures |r| > 0 ==> !IsSpace(r[|r| - 1])
    ensures forall i :: |r| <= i < |s| ==> IsSpace(s[i])
  {
    if |s| > 0 && IsSpace(s[|s| - 1]) then TrimEnd(s[..|s| - 1]) else s
  }

  /** JavaScript `String.prototype.trim`. */
  function Trim(s: string): (r: string)
    ensures |r| <= |s|
    ensures |r| > 0 ==> !IsSpace(r[0]) && !IsSpace(r[|r| - 1])
  {
    TrimEnd(TrimStart(s))
  }

  /** A string is blank exactly when it is made of white space only. */
  lemma {:induction false} TrimEmptyIffBlank(s: string)
    ensures Trim(s) == "" <==> forall i :: 0 <= i < |s| ==> IsSpace(s[i])
  {
    var t := TrimStart(s);
    if Trim(s) == "" {
      assert t == "";
    } else {
      var r := Trim(s);
      assert r[0] == t[0];
      assert t[0] == s[|s| - |t|];
    }
  }

  function LowerChar(c: char): char
  {
    if 'A' <= c <= 'Z' then (c as int + 32) as char else c
  }

  /** The UTF-16 code units JavaScript stores for a character: a surrogate
      pair for one outside the Basic Multilingual Plane. */
  function Utf16Units(c: char): nat
  {
    if c as int >= 0x1_0000 then 2 else 1
  }

  /** JavaScript's `length`: the string's size in UTF-16 code units. */
  function JsLength(s: string): (n: nat)
    ensures |s| <= n <= 2 * |s|
    decreases |s|
  {
    if |s| == 0 then 0 else Utf16Units(s[0]) + JsLength(s[1..])
  }

  /** The length of a concatenation is the sum of the lengths. */
  lemma {:induction false} JsLengthAppend(a: string, b: string)
    ensures JsLength(a + b) == JsLength(a) + JsLength(b)
    decreases |a|
  {
    if |a| > 0 {
      assert (a + b)[0] == a[0] && (a + b)[1..] == a[1..] + b;
      JsLengthAppend(a[1..], b);
    } else {
      assert a + b == b;
    }
  }

  /** Within the Basic Multilingual Plane the two lengths agree. */
  lemma {:induction false} JsLengthBmp(s: string)
    requires forall k | 0 <= k < |s| :: s[k] as int < 0x1_0000
    ensures JsLength(s) == |s|
    decreases |s|
  {
    if |s| > 0 {
      JsLengthBmp(s[1..]);
    }
  }

  /** `toLowerCase`, on the ASCII letters. */
  function ToLower(s: string): (r: string)
    ensures |r| == |s|
    ensures forall i :: 0 <= i < |s| ==> r[i] == LowerChar(s[i])
  {
    seq(|s|, i requires 0 <= i < |s| => LowerChar(s[i]))
  }

  predicate StartsWith(s: string, p: string)
  {
    |p| <= |s| && s[..|p|] == p
  }

  predicate EndsWith(s: string, p: string)
  {
    |p| <= |s| && s[|s| - |p|..] == p
  }

  /** `s.includes(t)` */
  predicate Contains(s: string, t: string)
  {
    exists i | 0 <= i <= |s| - |t| :: OccursAt(s, t, i)
  }

  /** `t` occurs in `s` starting at index `i`. */
  predicate OccursAt(s: string, t: string, i: int)
  {
    0 <= i && i + |t| <= |s| && s[i..i + |t|] == t
  }

  /** The middle piece of a concatenation is contained in it. */
  lemma {:induction false} ContainsMiddle(a: string, b: string, c: string)
    ensures Contains(a + b + c, b)
  {
    assert (a + b + c)[|a|..|a| + |b|] == b;
    assert OccursAt(a + b + c, b, |a|);
  }

  /** If `t` occurs in `s`, every piece of `t` occurs in `s` too. */
  lemma {:induction false} ContainsInfix(s: string, t: string, u: string, k: nat)
    requires Contains(s, t)
    requires k + |u| <= |t| && t[k..k + |u|] == u
    ensures Contains(s, u)
  {
    var i :| 0 <= i <= |s| - |t| && OccursAt(s, t, i);
    assert s[i..i + |t|] == t;
    forall j | 0 <= j < |u| ensures s[i + k + j] == u[j] {
      assert s[i + k + j] == s[i..i + |t|][k + j];
      assert u[j] == t[k..k + |u|][j];
    }
    assert s[i + k..i + k + |u|] == u;
    assert OccursAt(s, u, i + k);
  }

  /** A character of `t` that never occurs in `s` rules `t` out. */
  lemma {:induction false} MissingCharNotContained(s: string, t: string, c: char)
    requires c in t && c !in s
    ensures !Contains(s, t)
  {
    var j :| 0 <= j < |t| && t[j] == c;
    forall i | 0 <= i <= |s| - |t| ensures !OccursAt(s, t, i) {
      assert s[i..i + |t|][j] == s[i + j];
      assert s[i + j] in s;
    }
  }

  /** `s.toLowerCase().includes(t.toLowerCase())` */
  predicate ContainsIgnoreCase(s: string, t: string)
  {
    Contains(ToLower(s), ToLower(t))
  }

  /** `s.split(sep)` for a one-character separator. */
  function Split(s: string, sep: char): (parts: seq<string>)
    ensures |parts| >= 1
    ensures sep in s ==> |parts| >= 2
    ensures forall k :: 0 <= k < |parts| ==> sep !in parts[k]
    decreases |s|
  {
    if |s| == 0 then [""]
    else if s[0] == sep then [""] + Split(s[1..], sep)
    else
      var rest := Split(s[1..], sep);
      [[s[0]] + rest[0]] + rest[1..]
  }

  /** A string without the separator splits into itself. */
  lemma {:induction false} SplitNoSeparator(s: string, sep: char)
    requires sep !in s
    ensures Split(s, sep) == [s]
    decreases |s|
  {
    if |s| > 0 {
      assert sep !in s[1..] by { assert forall c | c in s[1..] :: c in s; }
      SplitNoSeparator(s[1..], sep);
      assert s == [s[0]] + s[1..];
    }
  }

  /** A leading word followed by the separator becomes the first part. */
  lemma {:induction false} SplitAfterWord(w: string, sep: char, t: string)
    requires sep !in w
    ensures Split(w + [sep] + t, sep) == [w] + Split(t, sep)
    decreases |w|
  {
    var s := w + [sep] + t;
    if |w| == 0 {
      assert s == [sep] + t;
      assert s[1..] == t;
    } else {
      assert sep !in w[1..] by { assert forall c | c in w[1..] :: c in w; }
      SplitAfterWord(w[1..], sep, t);
      assert s[1..] == w[1..] + [sep] + t;
      assert s[0] == w[0] && w[0] != sep;
      assert [s[0]] + w[1..] == w;
    }
  }

  /** `parts.join(sep)` */
  function Join(parts: seq<string>, sep: string): string
  {
    if |parts| == 0 then ""
    else if |parts| == 1 then parts[0]
    else parts[0] + sep + Join(parts[1..], sep)
  }

  /** A join starts with its first part. */
  lemma {:induction false} JoinPrefix(parts: seq<string>, sep: string)
    requires |parts| >= 1
    ensures StartsWith(Join(parts, sep), parts[0])
  {
  }

  /** Splitting and re-joining with the same separator gives the string back. */
  lemma {:induction false} JoinSplit(s: string, sep: char)
    ensures Join(Split(s, sep), [sep]) == s
    decreases |s|
  {
    if |s| == 0 {
    } else if s[0] == sep {
      JoinSplit(s[1..], sep);
      assert s == [sep] + s[1..];
    } else {
      var rest := Split(s[1..], sep);
      JoinSplit(s[1..], sep);
      if |rest| == 1 {
        assert s == [s[0]] + s[1..];
      } else {
        assert rest == [rest[0]] + rest[1..];
        assert Join(rest, [sep]) == rest[0] + [sep] + Join(rest[1..], [sep]);
        assert s == [s[0]] + s[1..];
      }
    }
  }

  /** Joining parts that do not contain the separator and splitting again
      gives the parts back. */
  lemma {:induction false} SplitJoin(parts: seq<string>, sep: char)
    requires |parts| >= 1
    requires forall k | 0 <= k < |parts| :: sep !in parts[k]
    ensures Split(Join(parts, [sep]), sep) == parts
    decreases |parts|
  {
    if |parts| == 1 {
      SplitNoSeparator(parts[0], sep);
    } else {
      SplitJoin(parts[1..], sep);
      SplitAfterWord(parts[0], sep, Join(parts[1..], [sep]));
      assert parts == [parts[0]] + parts[1..];
    }
  }

  /** The decimal digits of a natural number, as `String(n)` prints them. */
  function NatToString(n: nat): (r: string)
    ensures r != "" && forall k | 0 <= k < |r| :: IsDigit(r[k])
    decreases n
  {
    var d := ['0' + (n % 10) as char];
    if n < 10 then d else NatToString(n / 10) + d
  }

  /** JavaScript `Array.prototype.slice(0, end)`: a negative end counts from
      the back, and the end is clamped to the length. */
  function SliceEnd(length: nat, end: int): (e: nat)
    ensures e <= length
  {
    if end < 0 then (if length + end < 0 then 0 else length + end)
    else if end > length then length
    else end
  }

  function Take<T>(s: seq<T>, end: int): (r: seq<T>)
    ensures |r| <= |s| && r == s[..|r|]
    ensures 0 <= end ==> |r| == if end < |s| then end else |s|
  {
    s[..SliceEnd(|s|, end)]
  }

  /** String `slice(2, -2)`: drop two characters from each end, empty when
      they overlap. */
  function StripTwo(s: string): (r: string)
    ensures |s| >= 4 ==> |r| == |s| - 4 && r == s[2..|s| - 2]
    ensures |s| < 4 ==> r == ""
  {
    if |s| >= 4 then s[2..|s| - 2] else ""
  }

  /** `f` applied to every element, in order (`Array.prototype.map`). */
  function MapSeq<A, B>(s: seq<A>, f: A -> B): (r: seq<B>)
    ensures |r| == |s|
    ensures forall k | 0 <= k < |s| :: r[k] == f(s[k])
  {
    seq(|s|, k requires 0 <= k < |s| => f(s[k]))
  }

  /** Mapping distributes over concatenation. */
  lemma {:induction false} MapAppend<A, B>(s: seq<A>, t: seq<A>, f: A -> B)
    ensures MapSeq(s + t, f) == MapSeq(s, f) + MapSeq(t, f)
  {
    var l, r := MapSeq(s + t, f), MapSeq(s, f) + MapSeq(t, f);
    forall k | 0 <= k < |l| ensures l[k] == r[k] {
      if k < |s| {
        assert (s + t)[k] == s[k];
      } else {
        assert (s + t)[k] == t[k - |s|];
      }
    }
  }

  /** Keep the elements satisfying `p`, in order (`Array.prototype.filter`). */
  function Filter<T>(s: seq<T>, p: T -> bool): (r: seq<T>)
    ensures |r| <= |s|
    ensures forall x :: x in r ==> x in s && p(x)
    ensures forall x :: x in s && p(x) ==> x in r
  {
    if |s| == 0 then []
    else if p(s[0]) then [s[0]] + Filter(s[1..], p)
    else Filter(s[1..], p)
  }

  /** `s` can be obtained from `t` by deleting elements. */
  predicate IsSubsequence<T(==)>(s: seq<T>, t: seq<T>)
    decreases |t|
  {
    if |s| == 0 then true
    else if |t| == 0 then false
    else if s[0] == t[0] then IsSubsequence(s[1..], t[1..])
    else IsSubsequence(s, t[1..])
  }

  lemma {:induction false} FilterIsSubsequence<T>(s: seq<T>, p: T -> bool)
    ensures IsSubsequence(Filter(s, p), s)
    decreases |s|
  {
    if |s| > 0 {
      FilterIsSubsequence(s[1..], p);
    }
  }

  /** `p` when `use` is on, otherwise the predicate that keeps everything. */
  function When<T>(use: bool, p: T -> bool): T -> bool
  {
    x => !use || p(x)
  }

  function And<T>(p: T -> bool, q: T -> bool): T -> bool
  {
    x => p(x) && q(x)
  }

  /** Filtering twice is filtering once by the conjunction. */
  lemma {:induction false} FilterFilter<T>(s: seq<T>, p: T -> bool, q: T -> bool)
    ensures Filter(Filter(s, p), q) == Filter(s, And(p, q))
    decreases |s|
  {
    if |s| > 0 {
      FilterFilter(s[1..], p, q);
    }
  }

  /** Filtering distributes over concatenation. */
  lemma {:induction false} FilterAppend<T>(s: seq<T>, t: seq<T>, p: T -> bool)
    ensures Filter(s + t, p) == Filter(s, p) + Filter(t, p)
    decreases |s|
  {
    if |s| > 0 {
      assert (s + t)[0] == s[0] && (s + t)[1..] == s[1..] + t;
      FilterAppend(s[1..], t, p);
    } else {
      assert s + t == t;
    }
  }

  /** Filtering keeps a sequence whose every element passes. */
  lemma {:induction false} FilterKeepsAll<T>(s: seq<T>, p: T -> bool)
    requires forall k | 0 <= k < |s| :: p(s[k])
    ensures Filter(s, p) == s
    decreases |s|
  {
    if |s| > 0 {
      FilterKeepsAll(s[1..], p);
    }
  }

  /** Filtering depends only on which elements the predicate keeps. */
  lemma {:induction false} FilterExt<T>(s: seq<T>, p: T -> bool, q: T -> bool)
    requires forall k | 0 <= k < |s| :: p(s[k]) == q(s[k])
    ensures Filter(s, p) == Filter(s, q)
    decreases |s|
  {
    if |s| > 0 {
      FilterExt(s[1..], p, q);
    }
  }

  /** Two filters, each applied only when its switch is on, amount to one
      filter by the switched conjunction. */
  lemma {:induction false} FilterWhen<T>(s: seq<T>, p: T -> bool, q: T -> bool, useP: bool, useQ: bool)
    ensures var a := if useP then Filter(s, p) else s;
            (if useQ then Filter(a, q) else a) == Filter(s, And(When(useP, p), When(useQ, q)))
  {
    var both := And(When(useP, p), When(useQ, q));
    if useP && useQ {
      FilterFilter(s, p, q);
      FilterExt(s, And(p, q), both);
    } else if useP {
      FilterExt(s, p, both);
    } else if useQ {
      FilterExt(s, q, both);
    } else {
      FilterKeepsAll(s, both);
    }
  }

  /** Number of elements satisfying `p`. */
  function Count<T>(s: seq<T>, p: T -> bool): (n: nat)
    ensures n <= |s|
  {
    if |s| == 0 then 0 else (if p(s[0]) then 1 else 0) + Count(s[1..], p)
  }

  lemma {:induction false} CountIsFilterLength<T>(s: seq<T>, p: T -> bool)
    ensures Count(s, p) == |Filter(s, p)|
    decreases |s|
  {
    if |s| > 0 {
      CountIsFilterLength(s[1..], p);
    }
  }
}

=== FILE: crop_analysis.dfy ===
/**
 * The crop diagnosis endpoint (frontend/app/api/analyze-crop/route.js):
 * the API-key guard, the model-prediction block of the prompt, the
 * keyword-driven fallback diagnosis, and which outcome of the language
 * model call leads to which answer. The call itself is a parameter.
 */
module CropAnalysis {
  import opened Common

  // -------------------------------------------------------- numbered lists

  /** `items.map((x, i) => `${i + 1}. ${x}`)`, numbering from `from`. */
  function NumberedLines(items: seq<string>, from: nat): (lines: seq<string>)
    ensures |lines| == |items|
    ensures forall k | 0 <= k < |items| :: lines[k] == NatToString(from + k) + ". " + items[k]
  {
    seq(|items|, k requires 0 <= k < |items| => NatToString(from + k) + ". " + items[k])
  }

  /** A numbered list joined with newlines. */
  function Numbered(items: seq<string>): string
  {
    Join(NumberedLines(items, 1), "\n")
  }

  /** A numbered list of single-line items splits back into its lines:
      line k is item k after its number. */
  lemma {:induction false} NumberedSplits(items: seq<string>)
    requires |items| >= 1
    requires forall k | 0 <= k < |items| :: '\n' !in items[k]
    ensures Split(Numbered(items), '\n') == NumberedLines(items, 1)
  {
    var lines := NumberedLines(items, 1);
    forall k | 0 <= k < |lines| ensures '\n' !in lines[k] {
      var n := NatToString(1 + k);
      assert lines[k] == n + ". " + items[k];
      assert forall j | 0 <= j < |n| :: n[j] != '\n';
    }
    SplitJoin(lines, '\n');
  }

  // ---------------------------------------------------- model predictions

  datatype Prediction = Prediction(className: string, percentage: string)

  /** The prompt block listing the image model's predictions; empty when
      there are none. */
  function PredictionText(predictions: Option<seq<Prediction>>): (t: string)
    ensures t == "" <==> predictions.None? || |predictions.value| == 0
    ensures t != "" ==> Contains(t, Numbered(PredictionLines(predictions.value)))
  {
    if predictions.None? || |predictions.value| == 0 then ""
    else
      var body := Numbered(PredictionLines(predictions.value));
      ContainsMiddle(PredictionHead, body, PredictionTail);
      PredictionHead + body + PredictionTail
  }

  const PredictionHead: string := "\n\n**\U{1F916} AI Model Prediction Results:**\nThe trained model has analyzed the uploaded image and detected:\n"
  const PredictionTail: string := "\n\nPlease verify this prediction against the symptoms and provide comprehensive treatment advice."

  /** Line k names prediction k in bold and gives its confidence. */
  function PredictionLines(ps: seq<Prediction>): (lines: seq<string>)
    ensures |lines| == |ps|
    ensures forall k | 0 <= k < |ps| :: lines[k] == "**" + ps[k].className + "** - Confidence: " + ps[k].percentage + "%"
  {
    seq(|ps|, k requires 0 <= k < |ps| => "**" + ps[k].className + "** - Confidence: " + ps[k].percentage + "%")
  }

  // ------------------------------------------------------------- fallback

  /** A symptom keyword group: English and Hindi keywords, and the one
      diagnosis and one treatment it contributes. */
  datatype Group = Group(english: string, hindi: string, diagnosis: string, treatment: string)

  /** The four groups, in the order the fallback checks them: yellowing,
      spots, wilting, curling. */
  const Groups: seq<Group> := [
    Group("yellow", "\U{92A}\U{940}\U{932}\U{93E}",
          "**Nitrogen Deficiency or Chlorosis** - Common in Indian soils",
          "Apply Urea (20-30 kg/acre) or organic compost (500 kg/acre)"),
    Group("spot", "\U{927}\U{92C}\U{94D}\U{92C}\U{947}",
          "**Fungal Leaf Spot Disease** - Common during monsoon",
          "Spray Mancozeb (2g/liter) or Copper Oxychloride (3g/liter)"),
    Group("wilt", "\U{92E}\U{941}\U{930}\U{91D}\U{93E}",
          "**Wilt Disease (Fusarium/Verticillium)** - Serious condition",
          "Remove affected plants, improve drainage, apply Carbendazim (1g/liter)"),
    Group("curl", "\U{92E}\U{941}\U{921}\U{93C}",
          "**Leaf Curl Virus or Aphid Infestation**",
          "Spray Imidacloprid (0.5ml/liter) for aphids, use yellow sticky traps")]

  const DefaultIssue: string := "1. **Nutrient Imbalance or Environmental Stress**"

  /** A group fires when the lower-cased symptoms contain either keyword. */
  predicate Fires(g: Group, symptoms: string)
  {
    var lower := ToLower(symptoms);
    Contains(lower, g.english) || Contains(lower, g.hindi)
  }

  /** The groups that fire, in checking order. */
  function MatchedGroups(symptoms: string): (gs: seq<Group>)
    ensures |gs| <= |Groups|
    ensures forall g :: g in gs <==> g in Groups && Fires(g, symptoms)
    ensures IsSubsequence(gs, Groups)
  {
    FilterIsSubsequence(Groups, g => Fires(g, symptoms));
    Filter(Groups, g => Fires(g, symptoms))
  }

  /** `Filter` over a four-element list whose first two elements are kept. */
  lemma {:induction false} FilterOfFour<T>(s: seq<T>, p: T -> bool)
    requires |s| == 4 && p(s[0]) && p(s[1]) && !p(s[2]) && !p(s[3])
    ensures Filter(s, p) == s[..2]
  {
    assert s[4..] == [] && s[3..][1..] == s[4..] && s[2..][1..] == s[3..] && s[1..][1..] == s[2..];
    assert Filter(s[3..], p) == [];
    assert Filter(s[2..], p) == [];
    assert Filter(s[1..], p) == [s[1]];
  }

  /** The diagnosis list and the treatment list: one entry each per group
      that fires, so they always have equal length, at most four, and the
      k-th treatment answers the k-th diagnosis. */
  function Diagnoses(symptoms: string): (ds: seq<string>)
    ensures |ds| == |MatchedGroups(symptoms)| <= 4
    ensures forall k | 0 <= k < |ds| :: ds[k] == MatchedGroups(symptoms)[k].diagnosis
  {
    var gs := MatchedGroups(symptoms);
    seq(|gs|, k requires 0 <= k < |gs| => gs[k].diagnosis)
  }

  function Treatments(symptoms: string): (ts: seq<string>)
    ensures |ts| == |Diagnoses(symptoms)|
    ensures forall k | 0 <= k < |ts| :: ts[k] == MatchedGroups(symptoms)[k].treatment
  {
    var gs := MatchedGroups(symptoms);
    seq(|gs|, k requires 0 <= k < |gs| => gs[k].treatment)
  }

  /** The parts of the fallback report that depend on the request; the
      surrounding fixed advice text is not modelled. Absent request fields
      print as "undefined". */
  datatype FallbackReport = FallbackReport(
    crop: string, location: string, soilType: string, symptoms: string,
    issues: string, treatments: string)

  function Show(o: Option<string>): string
  {
    if o.Some? then o.value else "undefined"
  }

  /** A non-empty numbered list opens with its first item, numbered 1. */
  lemma {:induction false} NumberedOpens(items: seq<string>)
    requires |items| > 0
    ensures StartsWith(Numbered(items), "1. " + items[0])
  {
    var lines := NumberedLines(items, 1);
    assert NatToString(1) == "1";
    assert lines[0] == "1. " + items[0];
    JoinPrefix(lines, "\n");
  }

  /** `generateFallbackAnalysis`: the numbered diagnoses, or the single
      default issue when nothing fires; the "Specific Treatments" block only
      when some group fired. */
  function FallbackAnalysis(crop: Option<string>, symptoms: string, soilType: Option<string>, location: Option<string>): (r: FallbackReport)
    ensures r.symptoms == symptoms && r.crop == Show(crop) && r.location == Show(location) && r.soilType == Show(soilType)
    ensures |Diagnoses(symptoms)| == 0 ==> r.issues == DefaultIssue
    ensures |Diagnoses(symptoms)| > 0 ==> r.issues == Numbered(Diagnoses(symptoms))
    ensures |Diagnoses(symptoms)| > 0 ==> StartsWith(r.issues, "1. " + Diagnoses(symptoms)[0])
    ensures |Diagnoses(symptoms)| > 0 ==>
              r.treatments == "\n**Specific Treatments:**\n" + Numbered(Treatments(symptoms))
    ensures r.treatments == "" <==> |Diagnoses(symptoms)| == 0
  {
    var ts := Treatments(symptoms);
    if |ts| > 0 then
      NumberedOpens(Diagnoses(symptoms));
      FallbackReport(Show(crop), Show(location), Show(soilType), symptoms, Numbered(Diagnoses(symptoms)),
        "\n**Specific Treatments:**\n" + Numbered(ts))
    else
      FallbackReport(Show(crop), Show(location), Show(soilType), symptoms, DefaultIssue, "")
  }

  /** "Yellow spots" fires the yellowing and spot groups only. */
  lemma {:induction false} YellowSpotsFires()
    ensures Fires(Groups[0], "Yellow spots") && Fires(Groups[1], "Yellow spots")
    ensures !Fires(Groups[2], "Yellow spots") && !Fires(Groups[3], "Yellow spots")
  {
    assert ToLower("Yellow spots") == "yellow spots";
    YellowSpotsKeywords("yellow spots");
    assert '\U{92E}' in Groups[2].hindi && '\U{92E}' in Groups[3].hindi;
  }

  /** Which keywords "yellow spots" contains. */
  lemma {:induction false} YellowSpotsKeywords(t: string)
    requires t == "yellow spots"
    ensures Contains(t, "yellow") && Contains(t, "spot")
    ensures !Contains(t, "wilt") && !Contains(t, "curl")
    ensures forall h: string | '\U{92E}' in h :: !Contains(t, h)
  {
    assert OccursAt(t, "yellow", 0);
    assert OccursAt(t, "spot", 7);
    MissingCharNotContained(t, "wilt", 'i');
    MissingCharNotContained(t, "curl", 'c');
    forall h: string | '\U{92E}' in h ensures !Contains(t, h) {
      MissingCharNotContained(t, h, '\U{92E}');
    }
  }

  /** ... so its diagnoses are those two, in checking order. */
  lemma {:induction false} YellowSpotsExample()
    ensures Diagnoses("Yellow spots") == [Groups[0].diagnosis, Groups[1].diagnosis]
  {
    YellowSpotsMatched();
    var gs := MatchedGroups("Yellow spots");
    var ds := Diagnoses("Yellow spots");
    assert |ds| == 2 && ds[0] == gs[0].diagnosis && ds[1] == gs[1].diagnosis;
  }

  lemma {:induction false} YellowSpotsMatched()
    ensures MatchedGroups("Yellow spots") == Groups[..2]
  {
    YellowSpotsFires();
    FilterOfFour(Groups, g => Fires(g, "Yellow spots"));
  }

  // ---------------------------------------------------------------- route

  /** How the language model call ended: a non-OK HTTP status, an OK reply
      with or without text, or a thrown error (network failure, bad JSON). */
  datatype ModelCall = HttpError | Replied(text: Option<string>) | Threw

  datatype CropRequest = CropRequest(
    cropName: Option<string>, soilType: Option<string>, symptoms: Option<string>,
    location: Option<string>, modelPrediction: Option<seq<Prediction>>)

  /** The route's answer: the model's text, a fallback report, a handled
      500, or an exception that escapes the handler. */
  datatype Answer = ModelText(text: string) | Fallback(report: FallbackReport)
                  | Failure(code: nat, error: string) | Escaped

  /** The fallback for the parsed request; a missing symptoms field makes
      `symptoms.toLowerCase()` throw. */
  function FallbackFor(req: CropRequest): Option<FallbackReport>
  {
    if req.symptoms.None? then None
    else Some(FallbackAnalysis(req.cropName, req.symptoms.value, req.soilType, req.location))
  }

  /** The route as written: the catch block reads the request body a second
      time, which throws because the body was already consumed, so every
      error that reaches it escapes the handler. */
  function AnalyzeCrop(apiKey: Option<string>, req: CropRequest, call: ModelCall): (a: Answer)
    ensures apiKey.None? || apiKey.value == "" ==> a == Failure(500, "API key not configured")
  {
    if apiKey.None? || apiKey.value == "" then Failure(500, "API key not configured")
    else if call.Replied? && call.text.Some? && call.text.value != "" then ModelText(call.text.value)
    else if call.Threw? then Escaped
    else
      var f := FallbackFor(req);
      // a throwing fallback also lands in the catch block, and escapes
      if f.None? then Escaped else Fallback(f.value)
  }

  /** As written, a thrown model call never gets the promised fallback. */
  lemma {:induction false} ThrownCallEscapes(apiKey: string, req: CropRequest)
    requires apiKey != ""
    ensures AnalyzeCrop(Some(apiKey), req, Threw) == Escaped
  {
  }

  /** The route as evidently intended: the catch block falls back on the
      request it already parsed. */
  function AnalyzeCropFixed(apiKey: Option<string>, req: CropRequest, call: ModelCall): (a: Answer)
    ensures apiKey.None? || apiKey.value == "" ==> a == Failure(500, "API key not configured")
    ensures apiKey.Some? && apiKey.value != "" && req.symptoms.Some? ==> a.ModelText? || a.Fallback?
    ensures a.Fallback? ==> Some(a.report) == FallbackFor(req)
    ensures a.ModelText? ==> call == Replied(Some(a.text))
  {
    if apiKey.None? || apiKey.value == "" then Failure(500, "API key not configured")
    else if call.Replied? && call.text.Some? && call.text.value != "" then ModelText(call.text.value)
    else
      var f := FallbackFor(req);
      if f.None? then Escaped else Fallback(f.value)
  }

  /** The two versions differ only on a thrown call. */
  lemma {:induction false} FixedAgreesUnlessThrown(apiKey: Option<string>, req: CropRequest, call: ModelCall)
    requires !call.Threw?
    ensures AnalyzeCrop(apiKey, req, call) == AnalyzeCropFixed(apiKey, req, call)
  {
  }
}

=== FILE: farmer_controller.dfy ===
/**
 * The farmer REST handlers (backend/src/controllers/farmerController.js):
 * listing, lookup, registration, partial update and deletion, on top of
 * the schema rules and the unique email index.
 */
module FarmerController {
  import opened Common
  import F = FarmerModel
  import opened Store

  /** `getAllFarmers`: every farmer once. */
  method GetAllFarmers(db: Db) returns (r: ListReply<(Id, F.Farmer)>)
    ensures r.code == 200 && r.count == |r.data| == |db.farmers|
    ensures Lists(r.data, db.farmers)
  {
    var s := Enumerate(db.farmers);
    r := ListReply(200, |s|, s);
  }

  /** `getFarmerById`. */
  function GetFarmerById(db: Db, id: Id): (r: Reply<F.Farmer>)
    ensures id in db.farmers <==> r.code == 200
    ensures id in db.farmers ==> r.data == Some(db.farmers[id])
    ensures id !in db.farmers ==> r == Reply(404, "Farmer not found", None)
  {
    if id !in db.farmers then Reply(404, "Farmer not found", None)
    else Reply(200, "", Some(db.farmers[id]))
  }

  /** `createFarmer`: schema validation first ("Validation Error"), then
      the unique email index ("Email or phone already exists"). */
  function CreateFarmer(db: Db, input: F.FarmerInput, freshId: Id): (out: Outcome<F.Farmer>)
    requires freshId !in db.farmers
    ensures out.reply.code == 201 <==>
              && F.Materialize(input).Some? && F.Valid(F.Materialize(input).value)
              && !EmailTaken(db.farmers, F.Materialize(input).value.email, freshId)
    ensures out.reply.code == 201 ==> out.db == db.(farmers := db.farmers[freshId := F.Materialize(input).value])
    ensures out.reply.code != 201 ==> out.reply.code == 400 && out.db == db
    ensures out.reply.message == "Email or phone already exists" <==>
              && F.Materialize(input).Some? && F.Valid(F.Materialize(input).value)
              && EmailTaken(db.farmers, F.Materialize(input).value.email, freshId)
  {
    var f := F.Materialize(input);
    if f.None? || !F.Valid(f.value) then Outcome(Reply(400, "Validation Error", None), db)
    else
      var saved := SaveFarmer(db.farmers, freshId, f.value);
      if saved.None? then Outcome(Reply(400, "Email or phone already exists", None), db)
      else Outcome(Reply(201, "Farmer registered successfully", f), db.(farmers := saved.value))
  }

  /** Registration keeps the store consistent, and the new farmer can be
      read back as it was stored. */
  lemma {:induction false} CreateThenGet(db: Db, input: F.FarmerInput, freshId: Id)
    requires Consistent(db) && freshId !in db.farmers
    ensures var out := CreateFarmer(db, input, freshId);
            && Consistent(out.db)
            && (out.reply.code == 201 ==> GetFarmerById(out.db, freshId).data == F.Materialize(input))
  {
  }

  /** Two registrations with the same email (any letter case): the second
      is refused by the index. */
  lemma {:induction false} SecondRegistrationRefused(db: Db, a: F.FarmerInput, b: F.FarmerInput, id1: Id, id2: Id)
    requires Consistent(db) && id1 !in db.farmers && id2 !in db.farmers && id1 != id2
    requires a.email.Some? && b.email.Some? && ToLower(a.email.value) == ToLower(b.email.value)
    requires CreateFarmer(db, a, id1).reply.code == 201
    requires F.Materialize(b).Some? && F.Valid(F.Materialize(b).value)
    ensures var db1 := CreateFarmer(db, a, id1).db;
            CreateFarmer(db1, b, id2).reply == Reply(400, "Email or phone already exists", None)
  {
    var db1 := CreateFarmer(db, a, id1).db;
    assert db1.farmers[id1].email == F.Materialize(b).value.email;
    assert EmailTaken(db1.farmers, F.Materialize(b).value.email, id2);
  }

  /** `updateFarmer`: update validators on the set paths run before the
      lookup ("Update Error" even for an unknown id); then 404; then the
      email index. */
  function UpdateFarmer(db: Db, id: Id, patch: F.FarmerPatch): (out: Outcome<F.Farmer>)
    ensures !F.PatchValid(patch) ==> out.reply == Reply(400, "Update Error", None) && out.db == db
    ensures F.PatchValid(patch) && id !in db.farmers ==> out.reply == Reply(404, "Farmer not found", None) && out.db == db
    ensures out.reply.code == 200 <==>
              F.PatchValid(patch) && id in db.farmers
              && !EmailTaken(db.farmers, F.ApplyPatch(db.farmers[id], patch).email, id)
    ensures out.reply.code == 200 ==> out.db == db.(farmers := db.farmers[id := F.ApplyPatch(db.farmers[id], patch)])
    ensures out.reply.code != 200 ==> out.db == db
  {
    if !F.PatchValid(patch) then Outcome(Reply(400, "Update Error", None), db)
    else if id !in db.farmers then Outcome(Reply(404, "Farmer not found", None), db)
    else
      var g := F.ApplyPatch(db.farmers[id], patch);
      if EmailTaken(db.farmers, g.email, id) then Outcome(Reply(400, "Update Error", None), db)
      else Outcome(Reply(200, "Farmer updated successfully", Some(g)), db.(farmers := db.farmers[id := g]))
  }

  /** Updates keep the store consistent; an update that sets no path
      leaves an existing farmer as it was. */
  lemma {:induction false} UpdateKeepsConsistency(db: Db, id: Id, patch: F.FarmerPatch)
    requires Consistent(db)
    ensures Consistent(UpdateFarmer(db, id, patch).db)
    ensures id in db.farmers && patch == F.FarmerPatch(None, None, None, None, None, None, None, None, None)
            ==> UpdateFarmer(db, id, patch).db == db
  {
    if F.PatchValid(patch) && id in db.farmers {
      F.PatchPreservesValid(db.farmers[id], patch);
      var g := F.ApplyPatch(db.farmers[id], patch);
      if !EmailTaken(db.farmers, g.email, id) {
        var saved := SaveFarmer(db.farmers, id, g);
        assert saved.Some?;
      }
    }
    if id in db.farmers && patch == F.FarmerPatch(None, None, None, None, None, None, None, None, None) {
      EmptyPatchKeeps(db, id);
    }
  }

  lemma {:induction false} EmptyPatchKeeps(db: Db, id: Id)
    requires Consistent(db) && id in db.farmers
    ensures UpdateFarmer(db, id, F.FarmerPatch(None, None, None, None, None, None, None, None, None)).db == db
  {
    var f := db.farmers[id];
    var patch := F.FarmerPatch(None, None, None, None, None, None, None, None, None);
    assert F.ApplyPatch(f, patch) == f;
    assert db.farmers[id := f] == db.farmers;
  }

  /** `deleteFarmer`: 404, or exactly that farmer removed; loans that
      reference it are left in place. */
  function DeleteFarmer(db: Db, id: Id): (out: Outcome<F.Farmer>)
    ensures out.reply.code == 200 <==> id in db.farmers
    ensures out.db.farmers.Keys == db.farmers.Keys - {id}
    ensures forall k | k in out.db.farmers :: out.db.farmers[k] == db.farmers[k]
    ensures out.db.loans == db.loans && out.db.products == db.products
  {
    if id !in db.farmers then Outcome(Reply(404, "Farmer not found", None), db)
    else Outcome(Reply(200, "Farmer deleted successfully", None), db.(farmers := db.farmers - {id}))
  }

  /** Deleting keeps the store consistent, and afterwards the farmer is not
      found. */
  lemma {:induction false} DeleteThenGet(db: Db, id: Id)
    requires Consistent(db)
    ensures Consistent(DeleteFarmer(db, id).db)
    ensures GetFarmerById(DeleteFarmer(db, id).db, id).code == 404
  {
  }
}

=== FILE: farmer_model.dfy ===
/**
 * The Farmer document and the schema rules the document store enforces
 * on it (backend/src/models/Farmer.js).
 */
module FarmerModel {
  import opened Common

  type Id = nat

  datatype Address = Address(
    village: Option<string>,
    district: Option<string>,
    state: Option<string>,
    pincode: Option<string>)

  datatype Recommendation = Recommendation(recommendation: Option<string>, date: int)

  datatype Farmer = Farmer(
    name: string,
    email: string,
    phone: string,
    address: Address,
    landSize: real,
    cropType: string,
    loanStatus: string,
    creditScore: real,
    aiRecommendations: seq<Recommendation>)

  const CropTypes: seq<string> := ["Rice", "Wheat", "Cotton", "Sugarcane", "Vegetables", "Fruits", "Other"]
  const LoanStatuses: seq<string> := ["None", "Applied", "Approved", "Rejected", "Active", "Closed"]
  const DefaultCropType: string := "Other"
  const DefaultLoanStatus: string := "None"
  const DefaultCreditScore: real := 500.0

  /** `/^\S+@\S+\.\S+$/`: no white space, an `@` with something before it,
      and after it a `.` with something on each side. */
  predicate EmailShaped(s: string)
  {
    NoSpace(s)
    && exists i, j | 1 <= i && i + 2 <= j && j + 2 <= |s| :: s[i] == '@' && s[j] == '.'
  }

  // One predicate per schema path, so that an update can be checked on the
  // paths it touches only.
  predicate NameOk(name: string) { name != "" }
  predicate EmailOk(email: string) { EmailShaped(email) }
  predicate PhoneOk(phone: string) { DigitsOfLength(phone, 10) }
  predicate LandSizeOk(landSize: real) { landSize >= 0.0 }
  predicate CropTypeOk(cropType: string) { cropType in CropTypes }
  predicate LoanStatusOk(status: string) { status in LoanStatuses }
  predicate CreditScoreOk(score: real) { 300.0 <= score <= 900.0 }

  /** The document passes every validator of the schema. */
  predicate Valid(f: Farmer)
  {
    && NameOk(f.name) && EmailOk(f.email) && PhoneOk(f.phone)
    && LandSizeOk(f.landSize) && CropTypeOk(f.cropType)
    && LoanStatusOk(f.loanStatus) && CreditScoreOk(f.creditScore)
  }

  /** The one unique index of the collection: email. */
  predicate EmailsUnique(farmers: map<Id, Farmer>)
  {
    forall a, b | a in farmers && b in farmers && a != b :: farmers[a].email != farmers[b].email
  }

  /** A request body for a new farmer; absent fields are `None`. */
  datatype FarmerInput = FarmerInput(
    name: Option<string>,
    email: Option<string>,
    phone: Option<string>,
    address: Address,
    landSize: Option<real>,
    cropType: Option<string>,
    loanStatus: Option<string>,
    creditScore: Option<real>,
    aiRecommendations: seq<Recommendation>)

  /** The document the store builds from a request body: setters (`trim`,
      `lowercase`) applied and defaults filled in; `None` when a required
      path is missing. */
  function Materialize(input: FarmerInput): (r: Option<Farmer>)
    ensures r.Some? <==> input.name.Some? && input.email.Some? && input.phone.Some? && input.landSize.Some?
    ensures r.Some? ==> r.value.email == ToLower(input.email.value) && r.value.name == Trim(input.name.value)
    ensures r.Some? ==> r.value.cropType == (if input.cropType.Some? then input.cropType.value else DefaultCropType)
    ensures r.Some? ==> r.value.loanStatus == (if input.loanStatus.Some? then input.loanStatus.value else DefaultLoanStatus)
    ensures r.Some? ==> r.value.creditScore == (if input.creditScore.Some? then input.creditScore.value else DefaultCreditScore)
  {
    if input.name.None? || input.email.None? || input.phone.None? || input.landSize.None? then None
    else Some(Farmer(
      Trim(input.name.value),
      ToLower(input.email.value),
      input.phone.value,
      input.address,
      input.landSize.value,
      if input.cropType.Some? then input.cropType.value else DefaultCropType,
      if input.loanStatus.Some? then input.loanStatus.value else DefaultLoanStatus,
      if input.creditScore.Some? then input.creditScore.value else DefaultCreditScore,
      input.aiRecommendations))
  }

  /** A request body with only the required paths gets the documented defaults. */
  lemma {:induction false} DefaultsApply(name: string, email: string, phone: string, landSize: real)
    ensures var f := Materialize(FarmerInput(Some(name), Some(email), Some(phone),
                                  Address(None, None, None, None), Some(landSize), None, None, None, []));
            f.Some? && f.value.cropType == "Other" && f.value.loanStatus == "None" && f.value.creditScore == 500.0
  {
  }

  /** A partial update (`findByIdAndUpdate` body); absent paths are kept. */
  datatype FarmerPatch = FarmerPatch(
    name: Option<string>,
    email: Option<string>,
    phone: Option<string>,
    address: Option<Address>,
    landSize: Option<real>,
    cropType: Option<string>,
    loanStatus: Option<string>,
    creditScore: Option<real>,
    aiRecommendations: Option<seq<Recommendation>>)

  function Pick<T>(o: Option<T>, keep: T): T
  {
    if o.Some? then o.value else keep
  }

  /** The updated document, with the same setters as on creation. */
  function ApplyPatch(f: Farmer, p: FarmerPatch): (g: Farmer)
    ensures p.name.Some? ==> g.name == Trim(p.name.value)
    ensures p.name.None? ==> g.name == f.name
    ensures p.email.Some? ==> g.email == ToLower(p.email.value)
    ensures p.email.None? ==> g.email == f.email
    ensures p.phone.Some? ==> g.phone == p.phone.value
    ensures p.phone.None? ==> g.phone == f.phone
    ensures p.address.Some? ==> g.address == p.address.value
    ensures p.address.None? ==> g.address == f.address
    ensures p.landSize.Some? ==> g.landSize == p.landSize.value
    ensures p.landSize.None? ==> g.landSize == f.landSize
    ensures p.cropType.Some? ==> g.cropType == p.cropType.value
    ensures p.cropType.None? ==> g.cropType == f.cropType
    ensures p.loanStatus.Some? ==> g.loanStatus == p.loanStatus.value
    ensures p.loanStatus.None? ==> g.loanStatus == f.loanStatus
    ensures p.creditScore.Some? ==> g.creditScore == p.creditScore.value
    ensures p.creditScore.None? ==> g.creditScore == f.creditScore
    ensures p.aiRecommendations.Some? ==> g.aiRecommendations == p.aiRecommendations.value
    ensures p.aiRecommendations.None? ==> g.aiRecommendations == f.aiRecommendations
  {
    Farmer(
      if p.name.Some? then Trim(p.name.value) else f.name,
      if p.email.Some? then ToLower(p.email.value) else f.email,
      Pick(p.phone, f.phone),
      Pick(p.address, f.address),
      Pick(p.landSize, f.landSize),
      Pick(p.cropType, f.cropType),
      Pick(p.loanStatus, f.loanStatus),
      Pick(p.creditScore, f.creditScore),
      Pick(p.aiRecommendations, f.aiRecommendations))
  }

  /** `runValidators` on an update checks the paths the update sets, after
      the setters have run. */
  predicate PatchValid(p: FarmerPatch)
  {
    && (p.name.Some? ==> NameOk(Trim(p.name.value)))
    && (p.email.Some? ==> EmailOk(ToLower(p.email.value)))
    && (p.phone.Some? ==> PhoneOk(p.phone.value))
    && (p.landSize.Some? ==> LandSizeOk(p.landSize.value))
    && (p.cropType.Some? ==> CropTypeOk(p.cropType.value))
    && (p.loanStatus.Some? ==> LoanStatusOk(p.loanStatus.value))
    && (p.creditScore.Some? ==> CreditScoreOk(p.creditScore.value))
  }

  /** Checking only the touched paths is enough: a valid document stays
      valid under an update that passes its validators, and an update that
      fails them would produce an invalid document. */
  lemma {:induction false} PatchPreservesValid(f: Farmer, p: FarmerPatch)
    requires Valid(f)
    ensures PatchValid(p) <==> Valid(ApplyPatch(f, p))
  {
  }
}

=== FILE: landing.dfy ===
/**
 * The landing page (frontend/app/page.jsx): the state-to-language table
 * and the automatic language switch, the category and search filter over
 * the backend's approved products followed by the static catalogue, the
 * location filter with its fallback, and clearing the filters. The i18n
 * language and local storage are explicit state; the static catalogue is
 * an input.
 */
module Landing {
  import opened Common
  import P = ProductModel

  // -------------------------------------------------------------- language

  /** `stateToLanguage`. */
  const StateLanguage: map<string, string> := map[
    "Maharashtra" := "mr", "Gujarat" := "gu", "Punjab" := "pa", "West Bengal" := "bn",
    "Tamil Nadu" := "ta", "Karnataka" := "kn", "Uttar Pradesh" := "hi", "Haryana" := "hi",
    "Bihar" := "hi", "Rajasthan" := "hi", "Madhya Pradesh" := "hi", "Kerala" := "en",
    "Telangana" := "hi", "Andhra Pradesh" := "hi", "Odisha" := "en", "Jharkhand" := "hi",
    "Chhattisgarh" := "hi", "Delhi" := "hi"]

  /** The active i18n language and the two local-storage keys involved. */
  datatype LangEnv = LangEnv(language: string, userLangPref: Option<string>, autoLangSet: bool)

  /** Kerala and Odisha stay in English; Maharashtra gets Marathi. */
  lemma {:induction false} StateTable()
    ensures "Kerala" in StateLanguage && StateLanguage["Kerala"] == "en"
    ensures "Odisha" in StateLanguage && StateLanguage["Odisha"] == "en"
    ensures "Maharashtra" in StateLanguage && StateLanguage["Maharashtra"] == "mr"
    ensures forall s | s in StateLanguage :: StateLanguage[s] != ""
  {
  }

  /** `switchLanguageForState`: nothing for a missing or unmapped state or
      when its language is already on; otherwise the language changes when
      the call is manual or no preference is stored, a manual call storing
      the preference and an automatic one marking `autoLangSet`. */
  function SwitchLanguageForState(env: LangEnv, state: Option<string>, manual: bool): (r: LangEnv)
    ensures !Truthy(state) || state.value !in StateLanguage ==> r == env
    ensures Truthy(state) && state.value in StateLanguage ==>
              var code := StateLanguage[state.value];
              && (code == env.language ==> r == env)
              && (code != env.language && !manual && Truthy(env.userLangPref) ==> r == env)
              && (code != env.language && manual ==> r == LangEnv(code, Some(code), env.autoLangSet))
              && (code != env.language && !manual && !Truthy(env.userLangPref) ==>
                    r == LangEnv(code, env.userLangPref, true))
  {
    if !Truthy(state) || state.value !in StateLanguage then env
    else
      var code := StateLanguage[state.value];
      if code == "" || code == env.language then env
      else if manual || !Truthy(env.userLangPref) then
        if manual then env.(language := code, userLangPref := Some(code))
        else env.(language := code, autoLangSet := true)
      else env
  }

  /** Switching for the same state twice is switching once. */
  lemma {:induction false} SwitchIdempotent(env: LangEnv, state: Option<string>, manual: bool)
    ensures var once := SwitchLanguageForState(env, state, manual);
            SwitchLanguageForState(once, state, manual) == once
  {
  }

  /** A stored preference wins over every automatic switch, and after a
      manual switch no automatic one changes the language again. */
  lemma {:induction false} PreferenceSticks(env: LangEnv, s1: Option<string>, s2: Option<string>)
    ensures Truthy(env.userLangPref) ==> SwitchLanguageForState(env, s2, false) == env
    ensures var m := SwitchLanguageForState(env, s1, true);
            m != env ==> SwitchLanguageForState(m, s2, false) == m
  {
  }

  // ----------------------------------------------------- items and filters

  /** A catalogue card: the fields the filters read. */
  datatype Item = Item(name: string, origin: string, category: string, organic: bool)

  /** A backend product as the page transforms it. */
  function FromProduct(p: P.Product): (it: Item)
    ensures it.name == p.productName && it.category == ToLower(p.category)
    ensures EndsWith(it.origin, ", " + p.state) && StartsWith(it.origin, p.district)
  {
    var it := Item(p.productName, p.district + ", " + p.state, ToLower(p.category), p.organicCertified);
    assert it.origin[|it.origin| - |", " + p.state|..] == ", " + p.state;
    it
  }

  /** The backend products first, then the static catalogue. */
  function AllItems(backend: seq<P.Product>, food: seq<Item>): (all: seq<Item>)
    ensures |all| == |backend| + |food|
    ensures forall k | 0 <= k < |backend| :: all[k] == FromProduct(backend[k])
    ensures all[|backend|..] == food
  {
    seq(|backend|, k requires 0 <= k < |backend| => FromProduct(backend[k])) + food
  }

  /** The category select: "all", or the lowercased category equals it. */
  predicate InCategory(it: Item, category: string)
  {
    category == "all" || ToLower(it.category) == category
  }

  /** The search box: a blank query keeps everything; otherwise the name
      or the origin contains the (untrimmed) query, ignoring case. */
  predicate Searched(it: Item, query: string)
  {
    Trim(query) == "" || ContainsIgnoreCase(it.name, query) || ContainsIgnoreCase(it.origin, query)
  }

  predicate Visible(it: Item, category: string, query: string)
  {
    InCategory(it, category) && Searched(it, query)
  }

  function VisibleBy(category: string, query: string): Item -> bool
  {
    it => Visible(it, category, query)
  }

  predicate OfCategory(it: Item, category: string) { ToLower(it.category) == category }

  function OfCategoryBy(category: string): Item -> bool
  {
    it => OfCategory(it, category)
  }

  predicate HasQuery(it: Item, query: string)
  {
    ContainsIgnoreCase(it.name, query) || ContainsIgnoreCase(it.origin, query)
  }

  function HasQueryBy(query: string): Item -> bool
  {
    it => HasQuery(it, query)
  }

  /** The filtering effect before its sort: the category filter when one
      is chosen, then the search filter when the query is not blank. */
  function FilterItems(all: seq<Item>, category: string, query: string): (r: seq<Item>)
    ensures r == Filter(all, VisibleBy(category, query))
    ensures IsSubsequence(r, all)
    ensures forall it :: it in r <==> it in all && Visible(it, category, query)
  {
    var fp := if category != "all" then Filter(all, OfCategoryBy(category)) else all;
    SwitchedFiltersAreVisible(all, category, query);
    FilterIsSubsequence(all, VisibleBy(category, query));
    if Trim(query) != "" then Filter(fp, HasQueryBy(query)) else fp
  }

  /** The two switched filters keep exactly the visible items. */
  lemma {:induction false} SwitchedFiltersAreVisible(all: seq<Item>, category: string, query: string)
    ensures var fp := if category != "all" then Filter(all, OfCategoryBy(category)) else all;
            (if Trim(query) != "" then Filter(fp, HasQueryBy(query)) else fp) == Filter(all, VisibleBy(category, query))
  {
    var both := And(When(category != "all", OfCategoryBy(category)), When(Trim(query) != "", HasQueryBy(query)));
    FilterWhen(all, OfCategoryBy(category), HasQueryBy(query), category != "all", Trim(query) != "");
    forall k | 0 <= k < |all| ensures both(all[k]) == VisibleBy(category, query)(all[k]) {
      SwitchedIsVisible(all[k], category, query);
    }
    FilterExt(all, both, VisibleBy(category, query));
  }

  lemma {:induction false} SwitchedIsVisible(it: Item, category: string, query: string)
    ensures And(When(category != "all", OfCategoryBy(category)), When(Trim(query) != "", HasQueryBy(query)))(it)
            == Visible(it, category, query)
  {
  }

  /** With "all" and a blank query every item is shown, in order. */
  lemma {:induction false} NoFilterShowsAll(all: seq<Item>, query: string)
    requires Trim(query) == ""
    ensures FilterItems(all, "all", query) == all
  {
    FilterKeepsAll(all, VisibleBy("all", query));
  }

  // ------------------------------------------------------- location filter

  /** An item is local to a state: its origin contains the state name (case
      kept), or its lowercased name contains "local". */
  predicate Local(it: Item, state: string)
  {
    Contains(it.origin, state) || Contains(ToLower(it.name), "local")
  }

  function LocalTo(state: string): Item -> bool
  {
    it => Local(it, state)
  }

  /** `filterProductsByLocation`: the local items, or the first eight items
      when none is local. */
  function FilterByLocation(all: seq<Item>, state: string): (r: seq<Item>)
    ensures forall it :: it in all && Local(it, state) ==> it in r
    ensures (exists it :: it in all && Local(it, state)) ==>
              forall it :: it in r <==> it in all && Local(it, state)
    ensures (forall it :: it in all ==> !Local(it, state)) ==> r == Take(all, 8)
    ensures |all| > 0 ==> |r| > 0
  {
    var filtered := Filter(all, LocalTo(state));
    if |filtered| > 0 then
      assert filtered[0] in filtered;
      filtered
    else all[..SliceEnd(|all|, 8)]
  }

  /** A product from the backend is found by its own state. */
  lemma {:induction false} ProductFoundByState(backend: seq<P.Product>, food: seq<Item>, k: nat)
    requires k < |backend|
    ensures FromProduct(backend[k]) in FilterByLocation(AllItems(backend, food), backend[k].state)
  {
    var p := backend[k];
    var it := FromProduct(p);
    var all := AllItems(backend, food);
    assert all[k] == it;
    var i := |it.origin| - |p.state|;
    assert it.origin[i..i + |p.state|] == p.state;
    assert OccursAt(it.origin, p.state, i);
    assert Local(it, p.state);
  }

  // ------------------------------------------------------------ page state

  /** What the filter bar and grid hold. */
  datatype Page = Page(
    shown: seq<Item>, detectedArea: string, query: string,
    category: string, sortBy: string, lang: LangEnv)

  /** `handleManualSearch`: a blank query does nothing; otherwise the
      trimmed query is used as the location. */
  function ManualSearch(p: Page, all: seq<Item>): (r: Page)
    ensures Trim(p.query) == "" ==> r == p
    ensures Trim(p.query) != "" ==>
              r == p.(shown := FilterByLocation(all, Trim(p.query)), detectedArea := Trim(p.query))
  {
    var q := Trim(p.query);
    if q != "" then p.(shown := FilterByLocation(all, q), detectedArea := q) else p
  }

  /** `clearFilters`: every item, no area, an empty query, "all", "newest",
      and English; the stored preference is not touched. */
  function ClearFilters(p: Page, all: seq<Item>): (r: Page)
    ensures r.shown == all && r.detectedArea == "" && r.query == ""
    ensures r.category == "all" && r.sortBy == "newest"
    ensures r.lang == p.lang.(language := "en")
  {
    Page(all, "", "", "all", "newest", p.lang.(language := "en"))
  }

  /** After clearing, the filter recomputes exactly what is shown. */
  lemma {:induction false} ClearedFilterAgrees(p: Page, all: seq<Item>)
    ensures var c := ClearFilters(p, all);
            FilterItems(all, c.category, c.query) == c.shown
  {
    NoFilterShowsAll(all, "");
  }
}

=== FILE: loan_controller.dfy ===
/**
 * The loan workflow (backend/src/controllers/loanController.js): the
 * advisory score, loan creation with its farmer-status side effect, and
 * status transitions with date stamps and the status mirrored onto the
 * farmer.
 */
module LoanController {
  import opened Common
  import F = FarmerModel
  import L = LoanModel
  import opened Store

  // ---------------------------------------------------------------- score

  /** `calculateAIScore`: base 50 plus credit, land and amount bonuses,
      capped at 100. An absent loan amount gets no amount bonus. */
  function AIScore(creditScore: real, landSize: real, loanAmount: Option<real>): (score: int)
    ensures 50 <= score <= 100
  {
    var base := 50;
    var withCredit := if creditScore > 700.0 then base + 20
                      else if creditScore > 600.0 then base + 10 else base;
    var withLand := if landSize > 5.0 then withCredit + 15
                    else if landSize > 2.0 then withCredit + 10 else withCredit;
    var withAmount := if loanAmount.Some? && loanAmount.value < 100000.0 then withLand + 15 else withLand;
    if withAmount < 100 then withAmount else 100
  }

  /** The bonus table, one factor at a time. */
  function CreditBonus(creditScore: real): int
  {
    if creditScore > 700.0 then 20 else if creditScore > 600.0 then 10 else 0
  }

  function LandBonus(landSize: real): int
  {
    if landSize > 5.0 then 15 else if landSize > 2.0 then 10 else 0
  }

  function AmountBonus(loanAmount: Option<real>): int
  {
    if loanAmount.Some? && loanAmount.value < 100000.0 then 15 else 0
  }

  /** The score is 50 plus the three independent bonuses; the largest
      bonuses add up to exactly 50, so the cap at 100 never cuts. */
  lemma {:induction false} AIScoreIsBonusSum(creditScore: real, landSize: real, loanAmount: Option<real>)
    ensures AIScore(creditScore, landSize, loanAmount)
            == 50 + CreditBonus(creditScore) + LandBonus(landSize) + AmountBonus(loanAmount)
    ensures 50 + CreditBonus(creditScore) + LandBonus(landSize) + AmountBonus(loanAmount) <= 100
  {
  }

  /** A better credit score, more land or a smaller amount never lowers
      the score. */
  lemma {:induction false} AIScoreMonotone(c1: real, c2: real, l1: real, l2: real, a1: real, a2: real)
    requires c1 <= c2 && l1 <= l2 && a2 <= a1
    ensures AIScore(c1, l1, Some(a1)) <= AIScore(c2, l2, Some(a2))
  {
  }

  /** Worked examples: 750/6/50000 scores 100, 650/3/200000 scores 70,
      400/1/500000 scores 50, 720/4/80000 scores 95. */
  lemma {:induction false} AIScoreExamples()
    ensures AIScore(750.0, 6.0, Some(50000.0)) == 100
    ensures AIScore(650.0, 3.0, Some(200000.0)) == 70
    ensures AIScore(400.0, 1.0, Some(500000.0)) == 50
    ensures AIScore(720.0, 4.0, Some(80000.0)) == 95
  {
  }

  // --------------------------------------------------------------- create

  /** `createLoan`: look the farmer up, score the application (any score
      the client sent is overwritten), insert the loan, then mark the
      farmer "Applied". `freshId` is the id the store gives the new loan. */
  function CreateLoan(db: Db, req: L.LoanRequest, freshId: Id, now: int): (out: Outcome<L.Loan>)
    requires freshId !in db.loans
    ensures req.farmerId.None? || req.farmerId.value !in db.farmers
            ==> out.reply == Reply(404, "Farmer not found", None) && out.db == db
    ensures out.reply.code == 400 ==> out.reply.message == "Validation Error"
    ensures out.db.products == db.products
    ensures out.reply.code == 201 ==>
              && req.farmerId.Some? && req.farmerId.value in db.farmers
              && var farmer := db.farmers[req.farmerId.value];
              && var loan := L.Materialize(req, AIScore(farmer.creditScore, farmer.landSize, req.loanAmount), now);
              && loan.Some? && L.Valid(loan.value) && out.reply.data == loan
              && out.db.loans == db.loans[freshId := loan.value]
              && out.db.farmers == db.farmers[req.farmerId.value := farmer.(loanStatus := "Applied")]
    ensures out.reply.code != 201 && out.reply.code != 404 ==> out.reply.code == 400
  {
    if req.farmerId.None? || req.farmerId.value !in db.farmers then
      Outcome(Reply(404, "Farmer not found", None), db)
    else
      var fid := req.farmerId.value;
      var farmer := db.farmers[fid];
      var score := AIScore(farmer.creditScore, farmer.landSize, req.loanAmount);
      var loan := L.Materialize(req, score, now);
      if loan.None? || !L.Valid(loan.value) then
        Outcome(Reply(400, "Validation Error", None), db)
      else
        var db1 := db.(loans := db.loans[freshId := loan.value]);
        var saved := SaveFarmer(db.farmers, fid, farmer.(loanStatus := "Applied"));
        if saved.None? then
          // the loan is already stored when the farmer save fails
          Outcome(Reply(400, "Validation Error", None), db1)
        else
          Outcome(Reply(201, "Loan application submitted successfully", loan), db1.(farmers := saved.value))
  }

  /** On a consistent store, creation succeeds exactly when the farmer
      exists and the loan passes its schema, keeps the store consistent,
      and the stored score is the computed one. */
  lemma {:induction false} CreateLoanSucceeds(db: Db, req: L.LoanRequest, freshId: Id, now: int)
    requires Consistent(db) && freshId !in db.loans
    ensures var out := CreateLoan(db, req, freshId, now);
            && Consistent(out.db)
            && (out.reply.code == 201 <==>
                  req.farmerId.Some? && req.farmerId.value in db.farmers
                  && var farmer := db.farmers[req.farmerId.value];
                     L.Creatable(req, AIScore(farmer.creditScore, farmer.landSize, req.loanAmount), now))
            && (out.reply.code != 201 ==> out.db == db)
  {
    var out := CreateLoan(db, req, freshId, now);
    if req.farmerId.Some? && req.farmerId.value in db.farmers {
      var fid := req.farmerId.value;
      var farmer := db.farmers[fid];
      var g := farmer.(loanStatus := "Applied");
      assert F.Valid(g);
      assert !EmailTaken(db.farmers, g.email, fid);
    }
  }

  // --------------------------------------------------------------- status

  /** The loan after `loan.status = status` and the date stamp:
      approvalDate on "Approved", disbursementDate on "Disbursed". */
  function WithStatus(loan: L.Loan, status: string, now: int): (l: L.Loan)
    ensures l.status == status
    ensures status == "Approved" ==> l.approvalDate == Some(now) && l.disbursementDate == loan.disbursementDate
    ensures status == "Disbursed" ==> l.disbursementDate == Some(now) && l.approvalDate == loan.approvalDate
    ensures status != "Approved" && status != "Disbursed"
            ==> l.approvalDate == loan.approvalDate && l.disbursementDate == loan.disbursementDate
    ensures l.(status := loan.status, approvalDate := loan.approvalDate, disbursementDate := loan.disbursementDate) == loan
  {
    if status == "Approved" then loan.(status := status, approvalDate := Some(now))
    else if status == "Disbursed" then loan.(status := status, disbursementDate := Some(now))
    else loan.(status := status)
  }

  /** The farmer status the code mirrors: Approved, Disbursed becomes
      Active, anything else verbatim. */
  function Mirror(status: string): string
  {
    if status == "Approved" then "Approved" else if status == "Disbursed" then "Active" else status
  }

  /** The mirror as evidently intended: every loan status lands inside the
      farmer's enum, a pending loan reading as "Applied". */
  function MirrorFixed(status: string): (s: string)
    ensures L.StatusOk(status) ==> F.LoanStatusOk(s)
    ensures status != "Pending" ==> s == Mirror(status)
  {
    if status == "Pending" then "Applied" else Mirror(status)
  }

  /** "Pending" is a loan status with no farmer counterpart. */
  lemma {:induction false} MirrorEscapesFarmerEnum()
    ensures L.StatusOk("Pending") && !F.LoanStatusOk(Mirror("Pending"))
    ensures forall s | L.StatusOk(s) && s != "Pending" :: F.LoanStatusOk(Mirror(s))
  {
  }

  /** `updateLoanStatus` with a given mirroring rule: save the loan, then
      (if the farmer still exists) save the mirrored farmer status. */
  function UpdateWith(db: Db, loanId: Id, status: string, now: int, mirror: string -> string): (out: Outcome<L.Loan>)
    ensures loanId !in db.loans ==> out.reply == Reply(404, "Loan not found", None) && out.db == db
    ensures loanId in db.loans && !L.Valid(WithStatus(db.loans[loanId], status, now))
            ==> out.reply.code == 400 && out.db == db
    ensures out.reply.code == 200 ==>
              && loanId in db.loans
              && out.db.loans == db.loans[loanId := WithStatus(db.loans[loanId], status, now)]
    ensures out.db.products == db.products
  {
    if loanId !in db.loans then Outcome(Reply(404, "Loan not found", None), db)
    else
      var loan := WithStatus(db.loans[loanId], status, now);
      if !L.Valid(loan) then Outcome(Reply(400, "Update Error", None), db)
      else
        var db1 := db.(loans := db.loans[loanId := loan]);
        var ok := Reply(200, "Loan " + ToLower(status) + " successfully", Some(loan));
        var fid := loan.farmerId;
        if fid !in db.farmers then Outcome(ok, db1)
        else
          var saved := SaveFarmer(db.farmers, fid, db.farmers[fid].(loanStatus := mirror(status)));
          if saved.None? then Outcome(Reply(400, "Update Error", None), db1)
          else Outcome(ok, db1.(farmers := saved.value))
  }

  /** `updateLoanStatus` as written. */
  function UpdateLoanStatus(db: Db, loanId: Id, status: string, now: int): (out: Outcome<L.Loan>)
    ensures loanId !in db.loans ==> out.reply.code == 404 && out.db == db
    ensures loanId in db.loans && !L.Valid(WithStatus(db.loans[loanId], status, now))
            ==> out.reply.code == 400 && out.db == db
    ensures out.reply.code == 200 ==>
              && loanId in db.loans
              && out.db.loans == db.loans[loanId := WithStatus(db.loans[loanId], status, now)]
    ensures out.db.products == db.products
  {
    UpdateWith(db, loanId, status, now, Mirror)
  }

  /** `updateLoanStatus` with the corrected mirror. */
  function UpdateLoanStatusFixed(db: Db, loanId: Id, status: string, now: int): (out: Outcome<L.Loan>)
    ensures loanId !in db.loans ==> out.reply.code == 404 && out.db == db
    ensures loanId in db.loans && !L.Valid(WithStatus(db.loans[loanId], status, now))
            ==> out.reply.code == 400 && out.db == db
    ensures out.reply.code == 200 ==>
              && loanId in db.loans
              && out.db.loans == db.loans[loanId := WithStatus(db.loans[loanId], status, now)]
    ensures out.db.products == db.products
  {
    UpdateWith(db, loanId, status, now, MirrorFixed)
  }

  /** As written, moving an existing loan back to "Pending" answers 400
      although the loan change is already stored, and the farmer is left
      with its old status. */
  lemma {:induction false} PendingUpdateHalfApplied(db: Db, loanId: Id, now: int)
    requires Consistent(db) && loanId in db.loans && db.loans[loanId].farmerId in db.farmers
    ensures var out := UpdateLoanStatus(db, loanId, "Pending", now);
            && out.reply.code == 400
            && out.db.loans[loanId].status == "Pending"
            && out.db.farmers == db.farmers
  {
    var loan := WithStatus(db.loans[loanId], "Pending", now);
    assert L.Valid(loan);
    var fid := loan.farmerId;
    assert !F.Valid(db.farmers[fid].(loanStatus := Mirror("Pending")));
  }

  /** A concrete store on which the as-written update misbehaves. */
  lemma {:induction false} PendingUpdateExample()
    ensures var farmer := F.Farmer("Ravi", "ravi@farm.in", "9876543210", F.Address(None, None, None, None),
                                   4.0, "Rice", "Approved", 720.0, []);
            var loan := L.Loan(0, 80000.0, 8.0, 12.0, "Seeds", "Approved", 0, Some(1), None, Some(95));
            var db := Db(map[0 := farmer], map[7 := loan], map[]);
            var out := UpdateLoanStatus(db, 7, "Pending", 2);
            out.reply.code == 400 && out.db.loans[7].status == "Pending" && out.db.farmers[0].loanStatus == "Approved"
  {
    var farmer := F.Farmer("Ravi", "ravi@farm.in", "9876543210", F.Address(None, None, None, None),
                           4.0, "Rice", "Approved", 720.0, []);
    var loan := L.Loan(0, 80000.0, 8.0, 12.0, "Seeds", "Approved", 0, Some(1), None, Some(95));
    var db := Db(map[0 := farmer], map[7 := loan], map[]);
    ExampleConsistent(farmer, loan);
    PendingUpdateHalfApplied(db, 7, 2);
  }

  lemma {:induction false} ExampleConsistent(farmer: F.Farmer, loan: L.Loan)
    requires farmer == F.Farmer("Ravi", "ravi@farm.in", "9876543210", F.Address(None, None, None, None),
                                4.0, "Rice", "Approved", 720.0, [])
    requires L.Valid(loan)
    ensures Consistent(Db(map[0 := farmer], map[7 := loan], map[]))
  {
    EmailExample();
    assert DigitsOfLength("9876543210", 10);
    assert F.Valid(farmer);
  }

  lemma {:induction false} EmailExample()
    ensures F.EmailShaped("ravi@farm.in")
  {
    var s := "ravi@farm.in";
    assert s[4] == '@' && s[9] == '.';
  }

  /** With the corrected mirror, every enum status on an existing loan
      succeeds, keeps the store consistent, mirrors the status onto the
      farmer (when it still exists) and touches nothing else of the loan
      than its status and the matching date. */
  lemma {:induction false} UpdateFixedKeepsConsistency(db: Db, loanId: Id, status: string, now: int)
    requires Consistent(db) && loanId in db.loans
    ensures var out := UpdateLoanStatusFixed(db, loanId, status, now);
            && Consistent(out.db)
            && (out.reply.code == 200 <==> L.StatusOk(status))
            && (out.reply.code != 200 ==> out.db == db)
            && (L.StatusOk(status) ==>
                  && out.db.loans == db.loans[loanId := WithStatus(db.loans[loanId], status, now)]
                  && (var fid := db.loans[loanId].farmerId;
                      && (fid in db.farmers ==> out.db.farmers == db.farmers[fid := db.farmers[fid].(loanStatus := MirrorFixed(status))])
                      && (fid !in db.farmers ==> out.db.farmers == db.farmers)))
  {
    var loan := WithStatus(db.loans[loanId], status, now);
    var fid := loan.farmerId;
    if L.StatusOk(status) {
      assert L.Valid(loan);
      if fid in db.farmers {
        var g := db.farmers[fid].(loanStatus := MirrorFixed(status));
        assert F.Valid(g);
        assert !EmailTaken(db.farmers, g.email, fid);
      }
    }
  }

  /** Outside "Pending" the as-written and corrected updates agree. */
  lemma {:induction false} UpdateAgreesExceptPending(db: Db, loanId: Id, status: string, now: int)
    requires status != "Pending"
    ensures UpdateLoanStatus(db, loanId, status, now) == UpdateLoanStatusFixed(db, loanId, status, now)
  {
  }

  /** The end-to-end scenario: a farmer with credit 720 and 4 acres applies
      for 80000; the loan is Pending with score 95 and the farmer Applied;
      approval stamps approvalDate and mirrors Approved; disbursement
      stamps disbursementDate and mirrors Active. */
  lemma {:induction false} EndToEnd(farmer: F.Farmer, fid: Id, lid: Id)
    requires F.Valid(farmer) && farmer.creditScore == 720.0 && farmer.landSize == 4.0
    ensures var db0 := Db(map[fid := farmer], map[], map[]);
            var req := L.LoanRequest(Some(fid), Some(80000.0), Some(8.0), Some(12.0), Some("Seeds"), None, None, None, None);
            var c := CreateLoan(db0, req, lid, 10);
            && c.reply.code == 201 && c.db.loans[lid].status == "Pending" && c.db.loans[lid].aiScore == Some(95)
            && c.db.farmers[fid].loanStatus == "Applied"
            && var a := UpdateLoanStatusFixed(c.db, lid, "Approved", 20);
            && a.reply.code == 200 && a.db.loans[lid].approvalDate == Some(20)
            && a.db.farmers[fid].loanStatus == "Approved"
            && var d := UpdateLoanStatusFixed(a.db, lid, "Disbursed", 30);
            && d.reply.code == 200 && d.db.loans[lid].disbursementDate == Some(30)
            && d.db.loans[lid].approvalDate == Some(20)
            && d.db.farmers[fid].loanStatus == "Active"
  {
    var db0 := Db(map[fid := farmer], map[], map[]);
    var req := L.LoanRequest(Some(fid), Some(80000.0), Some(8.0), Some(12.0), Some("Seeds"), None, None, None, None);
    assert Consistent(db0);
    assert AIScore(720.0, 4.0, Some(80000.0)) == 95;
    CreateLoanSucceeds(db0, req, lid, 10);
    var c := CreateLoan(db0, req, lid, 10);
    UpdateFixedKeepsConsistency(c.db, lid, "Approved", 20);
    var a := UpdateLoanStatusFixed(c.db, lid, "Approved", 20);
    UpdateFixedKeepsConsistency(a.db, lid, "Disbursed", 30);
  }

  // ---------------------------------------------------------------- reads

  /** A loan with its farmer populated (`null` when the farmer is gone). */
  datatype PopulatedLoan = PopulatedLoan(id: Id, loan: L.Loan, farmer: Option<F.Farmer>)

  function Populate(db: Db, id: Id, loan: L.Loan): PopulatedLoan
  {
    PopulatedLoan(id, loan, if loan.farmerId in db.farmers then Some(db.farmers[loan.farmerId]) else None)
  }

  /** `getLoanById`: 404 for an unknown id, else the loan and its farmer. */
  function GetLoanById(db: Db, id: Id): (r: Reply<PopulatedLoan>)
    ensures id !in db.loans <==> r.code == 404
    ensures id in db.loans ==> (r.data.Some? && r.data.value.loan == db.loans[id]
                                && (r.data.value.farmer.Some? <==> db.loans[id].farmerId in db.farmers))
  {
    if id !in db.loans then Reply(404, "Loan not found", None)
    else Reply(200, "", Some(Populate(db, id, db.loans[id])))
  }

  /** `getAllLoans`: every loan once, each with its farmer populated. */
  method GetAllLoans(db: Db) returns (r: ListReply<PopulatedLoan>)
    ensures r.code == 200 && r.count == |r.data| == |db.loans|
    ensures forall k | 0 <= k < |r.data| :: r.data[k].id in db.loans && r.data[k].loan == db.loans[r.data[k].id]
    ensures forall a, b | 0 <= a < b < |r.data| :: r.data[a].id != r.data[b].id
  {
    var s := Enumerate(db.loans);
    var data := seq(|s|, k requires 0 <= k < |s| => Populate(db, s[k].0, s[k].1));
    r := ListReply(200, |data|, data);
  }
}

=== FILE: loan_form.dfy ===
/**
 * The document part of the loan application form
 * (frontend/app/loan/LoanApplicationForm.jsx): per-file validation, the
 * upload and removal handlers over the three per-document records (stored
 * file info, form documents, upload errors), and the submit check for the
 * four required documents.
 */
module LoanForm {
  import opened Common

  datatype DocType = AadhaarCard | PanCard | LandRecord | BankStatement

  /** A chosen file: its name, size in bytes and MIME type. */
  datatype File = File(name: string, size: nat, mime: string)

  /** The stored file info; `preview` is set for image types. */
  datatype Uploaded = Uploaded(file: File, preview: bool)

  /** The three records the form keeps per document type. */
  datatype Docs = Docs(
    uploaded: map<DocType, Option<Uploaded>>,
    documents: map<DocType, Option<File>>,
    errors: map<DocType, Option<string>>)

  const MaxSize: nat := 5 * 1024 * 1024

  /** Every document type accepts the same four types. */
  const AllowedTypes: seq<string> := ["application/pdf", "image/jpeg", "image/jpg", "image/png"]

  const RequiredDocs: seq<DocType> := [AadhaarCard, PanCard, LandRecord, BankStatement]

  /** The form as first rendered: nothing uploaded, no errors. */
  const Initial := Docs(
    map[AadhaarCard := None, PanCard := None, LandRecord := None, BankStatement := None],
    map[AadhaarCard := None, PanCard := None, LandRecord := None, BankStatement := None],
    map[])

  /** `validateFile`: missing file, then size, then type; `None` accepts. */
  function ValidateFile(file: Option<File>, doc: DocType): (e: Option<string>)
    ensures file.None? ==> e == Some("Please select a file")
    ensures file.Some? && file.value.size > MaxSize ==> e == Some("File size must be less than 5MB")
    ensures file.Some? && file.value.size <= MaxSize && file.value.mime !in AllowedTypes ==>
              e == Some("Only PDF, JPG, and PNG files are allowed")
    ensures e.None? <==> file.Some? && file.value.size <= MaxSize && file.value.mime in AllowedTypes
  {
    if file.None? then Some("Please select a file")
    else if file.value.size > MaxSize then Some("File size must be less than 5MB")
    else if file.value.mime !in AllowedTypes then Some("Only PDF, JPG, and PNG files are allowed")
    else None
  }

  /** A file of exactly 5 MiB passes the size check. */
  lemma {:induction false} FiveMebibytesAccepted(name: string)
    ensures ValidateFile(Some(File(name, 5242880, "application/pdf")), LandRecord).None?
  {
  }

  /** `handleFileUpload`: no file does nothing; a refused file records the
      error for that document only; an accepted one clears its error and
      is stored in both records. */
  function HandleUpload(d: Docs, doc: DocType, file: Option<File>): (r: Docs)
    ensures file.None? ==> r == d
    ensures file.Some? && ValidateFile(file, doc).Some? ==>
              r == d.(errors := d.errors[doc := ValidateFile(file, doc)])
    ensures file.Some? && ValidateFile(file, doc).None? ==>
              && r.documents == d.documents[doc := file]
              && r.uploaded == d.uploaded[doc := Some(Uploaded(file.value, StartsWith(file.value.mime, "image/")))]
              && r.errors == d.errors[doc := None]
  {
    if file.None? then d
    else
      var error := ValidateFile(file, doc);
      if error.Some? then d.(errors := d.errors[doc := error])
      else Docs(d.uploaded[doc := Some(Uploaded(file.value, StartsWith(file.value.mime, "image/")))],
                d.documents[doc := file],
                d.errors[doc := None])
  }

  /** `removeFile`: that document is cleared in all three records. */
  function RemoveFile(d: Docs, doc: DocType): (r: Docs)
    ensures doc in r.uploaded && doc in r.documents && doc in r.errors
    ensures r.uploaded[doc] == None && r.documents[doc] == None && r.errors[doc] == None
    ensures forall o | o != doc && o in d.uploaded :: o in r.uploaded && r.uploaded[o] == d.uploaded[o]
    ensures forall o | o != doc && o in d.documents :: o in r.documents && r.documents[o] == d.documents[o]
    ensures forall o | o != doc && o in d.errors :: o in r.errors && r.errors[o] == d.errors[o]
  {
    Docs(d.uploaded[doc := None], d.documents[doc := None], d.errors[doc := None])
  }

  /** Removing what was just uploaded into an empty slot restores both
      file records. */
  lemma {:induction false} UploadThenRemove(d: Docs, doc: DocType, f: File)
    requires doc in d.uploaded && d.uploaded[doc].None? && doc in d.documents && d.documents[doc].None?
    requires ValidateFile(Some(f), doc).None?
    ensures var r := RemoveFile(HandleUpload(d, doc, Some(f)), doc);
            r.uploaded == d.uploaded && r.documents == d.documents
  {
    var r := RemoveFile(HandleUpload(d, doc, Some(f)), doc);
    assert r.uploaded == d.uploaded[doc := None];
    assert r.documents == d.documents[doc := None];
  }

  /** The required documents that are not there yet. */
  function MissingDocs(d: Docs): (m: seq<DocType>)
    ensures forall x :: x in m <==> x in RequiredDocs && (x !in d.documents || d.documents[x].None?)
  {
    Filter(RequiredDocs, (x: DocType) => x !in d.documents || d.documents[x].None?)
  }

  /** All four document types are required. */
  lemma {:induction false} EveryDocRequired()
    ensures forall x: DocType :: x in RequiredDocs
  {
    forall x: DocType ensures x in RequiredDocs {
      match x
      case AadhaarCard => assert RequiredDocs[0] == x;
      case PanCard => assert RequiredDocs[1] == x;
      case LandRecord => assert RequiredDocs[2] == x;
      case BankStatement => assert RequiredDocs[3] == x;
    }
  }

  /** `handleSubmit`: an alert while a document is missing, otherwise the
      success page. */
  datatype Submission = Alert(message: string) | Navigate(path: string)

  function Submit(d: Docs): (s: Submission)
    ensures s.Navigate? <==> forall x :: x in d.documents && d.documents[x].Some?
    ensures s.Navigate? ==> s.path == "/loan/success"
    ensures s.Alert? ==> s.message == "Please upload all required documents"
  {
    var missing := MissingDocs(d);
    EveryDocRequired();
    if |missing| > 0 then
      assert missing[0] in missing;
      Alert("Please upload all required documents")
    else
      assert forall x :: x !in missing;
      Navigate("/loan/success")
  }

  /** Four accepted uploads, one per document type, make the submit
      handler go to the success page. The browser runs the handler only
      once the form's own constraints (the required fields, their patterns
      and the terms checkbox) are met; those are not modelled. */
  lemma {:induction false} FourUploadsSubmit(a: File, p: File, l: File, b: File)
    requires ValidateFile(Some(a), AadhaarCard).None? && ValidateFile(Some(p), PanCard).None?
    requires ValidateFile(Some(l), LandRecord).None? && ValidateFile(Some(b), BankStatement).None?
    ensures var d := HandleUpload(HandleUpload(HandleUpload(HandleUpload(Initial, AadhaarCard, Some(a)),
                                   PanCard, Some(p)), LandRecord, Some(l)), BankStatement, Some(b));
            Submit(d) == Navigate("/loan/success")
  {
    var d1 := HandleUpload(Initial, AadhaarCard, Some(a));
    var d2 := HandleUpload(d1, PanCard, Some(p));
    var d3 := HandleUpload(d2, LandRecord, Some(l));
    var d := HandleUpload(d3, BankStatement, Some(b));
    assert d.documents == Initial.documents[AadhaarCard := Some(a)][PanCard := Some(p)]
                                           [LandRecord := Some(l)][BankStatement := Some(b)];
    AllDocumentsGiven(d);
  }

  /** A record holding a file for every type is complete. */
  lemma {:induction false} AllDocumentsGiven(d: Docs)
    requires AadhaarCard in d.documents && d.documents[AadhaarCard].Some?
    requires PanCard in d.documents && d.documents[PanCard].Some?
    requires LandRecord in d.documents && d.documents[LandRecord].Some?
    requires BankStatement in d.documents && d.documents[BankStatement].Some?
    ensures forall x :: x in d.documents && d.documents[x].Some?
  {
    forall x ensures x in d.documents && d.documents[x].Some? {
      match x
      case AadhaarCard =>
      case PanCard =>
      case LandRecord =>
      case BankStatement =>
    }
  }
}

=== FILE: loan_model.dfy ===
/**
 * The Loan document and its schema rules (backend/src/models/Loan.js).
 */
module LoanModel {
  import opened Common
  import FarmerModel

  type Id = FarmerModel.Id

  datatype Loan = Loan(
    farmerId: Id,
    loanAmount: real,
    interestRate: real,
    tenure: real,
    purpose: string,
    status: string,
    appliedDate: int,
    approvalDate: Option<int>,
    disbursementDate: Option<int>,
    aiScore: Option<int>)

  const Purposes: seq<string> := ["Seeds", "Fertilizers", "Equipment", "Irrigation", "Livestock", "Other"]
  const Statuses: seq<string> := ["Pending", "Approved", "Disbursed", "Rejected", "Closed"]
  const DefaultStatus: string := "Pending"

  predicate AmountOk(amount: real) { amount >= 1000.0 }
  predicate RateOk(rate: real) { 0.0 <= rate <= 100.0 }
  predicate TenureOk(tenure: real) { tenure >= 1.0 }
  predicate PurposeOk(purpose: string) { purpose in Purposes }
  predicate StatusOk(status: string) { status in Statuses }
  predicate ScoreOk(score: Option<int>) { score.Some? ==> 0 <= score.value <= 100 }

  /** The document passes every validator of the schema. */
  predicate Valid(l: Loan)
  {
    AmountOk(l.loanAmount) && RateOk(l.interestRate) && TenureOk(l.tenure)
    && PurposeOk(l.purpose) && StatusOk(l.status) && ScoreOk(l.aiScore)
  }

  /** A loan application body; absent fields are `None`. A client-supplied
      `aiScore` is not listed: the workflow always overwrites it. The three
      dates are stored as sent when the body carries them. */
  datatype LoanRequest = LoanRequest(
    farmerId: Option<Id>,
    loanAmount: Option<real>,
    interestRate: Option<real>,
    tenure: Option<real>,
    purpose: Option<string>,
    status: Option<string>,
    appliedDate: Option<int>,
    approvalDate: Option<int>,
    disbursementDate: Option<int>)

  /** The document `Loan.create` builds: `None` when a required path
      (farmerId, loanAmount, interestRate, tenure, purpose) is missing,
      status defaulting to Pending and appliedDate to the current time;
      the two other dates stay unset unless the body gives them. */
  function Materialize(req: LoanRequest, aiScore: int, now: int): (r: Option<Loan>)
    ensures r.Some? <==> req.farmerId.Some? && req.loanAmount.Some? && req.interestRate.Some?
                         && req.tenure.Some? && req.purpose.Some?
    ensures r.Some? ==> r.value.aiScore == Some(aiScore)
    ensures r.Some? ==> r.value.appliedDate == (if req.appliedDate.Some? then req.appliedDate.value else now)
    ensures r.Some? ==> r.value.approvalDate == req.approvalDate && r.value.disbursementDate == req.disbursementDate
    ensures r.Some? ==> r.value.status == (if req.status.Some? then req.status.value else DefaultStatus)
    ensures r.Some? ==> r.value.farmerId == req.farmerId.value && r.value.loanAmount == req.loanAmount.value
    ensures r.Some? ==> r.value.interestRate == req.interestRate.value && r.value.tenure == req.tenure.value
    ensures r.Some? ==> r.value.purpose == req.purpose.value
  {
    if req.farmerId.None? || req.loanAmount.None? || req.interestRate.None?
       || req.tenure.None? || req.purpose.None? then None
    else Some(Loan(
      req.farmerId.value, req.loanAmount.value, req.interestRate.value, req.tenure.value,
      req.purpose.value,
      if req.status.Some? then req.status.value else DefaultStatus,
      if req.appliedDate.Some? then req.appliedDate.value else now,
      req.approvalDate, req.disbursementDate, Some(aiScore)))
  }

  /** Whether a `Loan.create` of this body passes validation. */
  predicate Creatable(req: LoanRequest, aiScore: int, now: int)
  {
    var l := Materialize(req, aiScore, now);
    l.Some? && Valid(l.value)
  }
}

=== FILE: login.dfy ===
/**
 * The login/registration page (frontend/app/login/page.jsx). It works
 * against a mock registry of accounts kept in local storage: registration
 * appends an account after the form checks, and login looks an account up
 * by email and password, then stores a token and the session user.
 * Local storage and the clock are inputs.
 */
module Login {
  import opened Common

  /** A registered account as the registry stores it. */
  datatype Account = Account(id: string, name: string, email: string, password: string, createdAt: nat)

  /** The session user stored at login. */
  datatype SessionUser = SessionUser(id: string, name: string, email: string, role: string)

  /** The local-storage keys the page reads and writes. */
  datatype Storage = Storage(users: seq<Account>, token: Option<string>, user: Option<SessionUser>)

  datatype Form = Form(name: string, email: string, password: string, confirmPassword: string)

  const EmptyForm := Form("", "", "", "")

  /** The page state: which mode, the form, and the two banners. */
  datatype Page = Page(isLogin: bool, form: Form, error: string, success: string)

  /** The first check of the form that fails, in the page's order, or
      `None` when the form may be submitted. Registration adds three
      checks after the common one; the password's length is JavaScript's,
      in UTF-16 code units. */
  function FormError(isLogin: bool, f: Form): (e: Option<string>)
    ensures f.email == "" || f.password == "" ==> e == Some("Email and password are required")
    ensures isLogin ==> (e.None? <==> f.email != "" && f.password != "")
    ensures !isLogin ==>
              (e.None? <==> (f.email != "" && f.password != "" && f.name != ""
                             && f.password == f.confirmPassword && JsLength(f.password) >= 6))
    ensures !isLogin && f.email != "" && f.password != "" && f.name == "" ==> e == Some("Name is required")
    ensures !isLogin && f.email != "" && f.password != "" && f.name != "" ==>
              (f.password != f.confirmPassword ==> e == Some("Passwords do not match"))
    ensures !isLogin && f.email != "" && f.password != "" && f.name != "" && f.password == f.confirmPassword ==>
              (JsLength(f.password) < 6 ==> e == Some("Password must be at least 6 characters"))
  {
    if f.email == "" || f.password == "" then Some("Email and password are required")
    else if isLogin then None
    else if f.name == "" then Some("Name is required")
    else if f.password != f.confirmPassword then Some("Passwords do not match")
    else if JsLength(f.password) < 6 then Some("Password must be at least 6 characters")
    else None
  }

  /** The length check counts UTF-16 code units, as JavaScript's `length`
      does: three characters outside the Basic Multilingual Plane (three
      emoji, say) make a long enough password. */
  lemma {:induction false} AstralPasswordAccepted(f: Form)
    requires |f.password| == 3 && forall k | 0 <= k < 3 :: f.password[k] as int >= 0x1_0000
    requires f.email != "" && f.name != "" && f.confirmPassword == f.password
    ensures FormError(false, f).None?
  {
    var p := f.password;
    assert JsLength(p[2..]) == 2 by {
      assert p[2..][0] == p[2] && |p[2..][1..]| == 0;
    }
    assert JsLength(p[1..]) == 4 by {
      assert p[1..][0] == p[1] && p[1..][1..] == p[2..];
    }
    assert JsLength(p) == 6;
  }

  /** `users.find(...)`: the first account with this email and password. */
  function FindAccount(users: seq<Account>, email: string, password: string): (a: Option<Account>)
    ensures a.Some? ==> a.value in users && a.value.email == email && a.value.password == password
    ensures a.None? <==> forall k | 0 <= k < |users| :: users[k].email != email || users[k].password != password
  {
    if users == [] then None
    else if users[0].email == email && users[0].password == password then Some(users[0])
    else FindAccount(users[1..], email, password)
  }

  predicate EmailRegistered(users: seq<Account>, email: string)
  {
    exists k | 0 <= k < |users| :: users[k].email == email
  }

  /** No two accounts share an email. */
  predicate EmailsUnique(users: seq<Account>)
  {
    forall i, j | 0 <= i < j < |users| :: users[i].email != users[j].email
  }

  /** `handleSubmit` at time `now` (milliseconds): the page and the
      storage afterwards. */
  function Submit(p: Page, st: Storage, now: nat): (r: (Page, Storage))
    ensures FormError(p.isLogin, p.form).Some? ==>
              r == (p.(error := FormError(p.isLogin, p.form).value, success := ""), st)
    ensures r.1.token.Some? && r.1.token != st.token ==> p.isLogin
    // login
    ensures p.isLogin && FormError(true, p.form).None? ==>
              var a := FindAccount(st.users, p.form.email, p.form.password);
              && r.1.users == st.users
              && (a.Some? ==> && r.1.token == Some("mock_token_" + NatToString(now))
                              && r.1.user == Some(SessionUser(a.value.id, a.value.name, a.value.email, "farmer"))
                              && r.0.success == "Login successful! Redirecting...")
              && (a.None? ==> r == (p.(error := "Invalid email or password", success := ""), st))
    // registration
    ensures !p.isLogin && FormError(false, p.form).None? ==>
              && (EmailRegistered(st.users, p.form.email) ==>
                    r == (p.(error := "Email already registered", success := ""), st))
              && (!EmailRegistered(st.users, p.form.email) ==>
                    && r.1 == st.(users := st.users + [Account("user_" + NatToString(now), p.form.name,
                                                                p.form.email, p.form.password, now)])
                    && r.0 == Page(true, EmptyForm, "", "Registration successful! Please login."))
  {
    var err := FormError(p.isLogin, p.form);
    if err.Some? then (p.(error := err.value, success := ""), st)
    else if p.isLogin then
      var a := FindAccount(st.users, p.form.email, p.form.password);
      if a.None? then (p.(error := "Invalid email or password", success := ""), st)
      else
        var u := SessionUser(a.value.id, a.value.name, a.value.email, "farmer");
        (p.(error := "", success := "Login successful! Redirecting..."),
         st.(token := Some("mock_token_" + NatToString(now)), user := Some(u)))
    else if EmailRegistered(st.users, p.form.email) then
      (p.(error := "Email already registered", success := ""), st)
    else
      var acct := Account("user_" + NatToString(now), p.form.name, p.form.email, p.form.password, now);
      (Page(true, EmptyForm, "", "Registration successful! Please login."),
       st.(users := st.users + [acct]))
  }

  /** Registration keeps the registry free of duplicate emails. */
  lemma {:induction false} RegistrationKeepsEmailsUnique(p: Page, st: Storage, now: nat)
    requires EmailsUnique(st.users)
    ensures EmailsUnique(Submit(p, st, now).1.users)
  {
  }

  /** With only the first account under an email able to match, and
      emails unique, the first match is the account with that email. */
  lemma {:induction false} FindUnique(users: seq<Account>, a: Account)
    requires EmailsUnique(users) && a in users
    ensures FindAccount(users, a.email, a.password) == Some(a)
    decreases |users|
  {
    if users[0] != a {
      assert a in users[1..];
      var j :| 0 <= j < |users| && users[j] == a;
      assert j > 0;
      FindUnique(users[1..], a);
    }
  }

  /** Register, then log in with the same email and password: the session
      user is the new account, as a farmer. */
  lemma {:induction false} RegisterThenLogin(p: Page, st: Storage, t1: nat, t2: nat)
    requires !p.isLogin && FormError(false, p.form).None? && !EmailRegistered(st.users, p.form.email)
    requires EmailsUnique(st.users)
    ensures var (p1, st1) := Submit(p, st, t1);
            var (_, st2) := Submit(p1.(form := p.form.(name := "", confirmPassword := "")), st1, t2);
            st2.user == Some(SessionUser("user_" + NatToString(t1), p.form.name, p.form.email, "farmer"))
  {
    var (p1, st1) := Submit(p, st, t1);
    var acct := Account("user_" + NatToString(t1), p.form.name, p.form.email, p.form.password, t1);
    assert st1.users == st.users + [acct];
    assert acct == st1.users[|st.users|];
    FindUnique(st1.users, acct);
  }

  /** `toggleMode`: the other mode, with a clean form and no banners. */
  function ToggleMode(p: Page): (q: Page)
    ensures q.isLogin == !p.isLogin
    ensures q.form == EmptyForm && q.error == "" && q.success == ""
  {
    Page(!p.isLogin, EmptyForm, "", "")
  }

  /** Toggling twice returns to the mode, with a cleared page. */
  lemma {:induction false} ToggleTwice(p: Page)
    ensures ToggleMode(ToggleMode(p)) == p.(form := EmptyForm, error := "", success := "")
  {
  }
}

=== FILE: marketplace.dfy ===
/**
 * The buyer marketplace (frontend/app/marketplace/page.jsx): the session
 * gate in front of the listing fetch, the approved-only request, and the
 * client-side category and search filter.
 */
module Marketplace {
  import opened Common
  import P = ProductModel
  import PC = ProductController
  import opened Store

  /** What local storage holds under the token and user keys. */
  datatype Session = Session(token: Option<string>, user: Option<string>)

  /** `checkAuthentication`: both keys must hold a non-empty value. */
  predicate Authenticated(s: Session)
  {
    Truthy(s.token) && Truthy(s.user)
  }

  /** The marketplace asks the listing endpoint for approved products only. */
  const ApprovedOnly := PC.ProductQuery(None, None, None, Some("approved"), None, None)

  /** The products the page starts from: nothing is fetched without a
      session; with one, the approved listings of the store, newest first. */
  method LoadProducts(session: Session, db: Db) returns (products: seq<P.Product>, fetched: bool)
    ensures fetched <==> Authenticated(session)
    ensures !fetched ==> products == []
    ensures forall k | 0 <= k < |products| :: products[k].status == "approved"
    ensures fetched ==> forall id | id in db.products && db.products[id].status == "approved" ::
                          db.products[id] in products
  {
    if !Authenticated(session) {
      return [], false;
    }
    var reply := PC.GetAllProducts(db, ApprovedOnly);
    products := seq(|reply.data|, k requires 0 <= k < |reply.data| => reply.data[k].1);
    fetched := true;
    forall id | id in db.products && db.products[id].status == "approved"
      ensures db.products[id] in products
    {
      assert PC.Matches(ApprovedOnly, db.products[id]);
      var k :| 0 <= k < |reply.data| && reply.data[k].0 == id;
      assert products[k] == db.products[id];
    }
  }

  /** The category select: "all" keeps every product. */
  predicate InCategory(p: P.Product, category: string)
  {
    category == "all" || p.category == category
  }

  /** The search box: an empty term keeps every product; otherwise the
      name, district or state must contain it, ignoring case. */
  predicate Searched(p: P.Product, term: string)
  {
    term == ""
    || ContainsIgnoreCase(p.productName, term)
    || ContainsIgnoreCase(p.district, term)
    || ContainsIgnoreCase(p.state, term)
  }

  predicate OfCategory(p: P.Product, category: string) { p.category == category }

  predicate HasTerm(p: P.Product, term: string)
  {
    ContainsIgnoreCase(p.productName, term) || ContainsIgnoreCase(p.district, term) || ContainsIgnoreCase(p.state, term)
  }

  predicate Shown(p: P.Product, category: string, term: string)
  {
    InCategory(p, category) && Searched(p, term)
  }

  function ShownBy(category: string, term: string): P.Product -> bool
  {
    p => Shown(p, category, term)
  }

  /** `filterProducts`: the category filter, then the search filter, each
      applied only when set. The result is the single filter by both
      conditions, so it keeps the fetched order. */
  function FilterProducts(products: seq<P.Product>, category: string, term: string): (r: seq<P.Product>)
    ensures r == Filter(products, ShownBy(category, term))
    ensures IsSubsequence(r, products)
    ensures forall p :: p in r <==> p in products && Shown(p, category, term)
  {
    var byCategory := (p: P.Product) => OfCategory(p, category);
    var bySearch := (p: P.Product) => HasTerm(p, term);
    var filtered := if category != "all" then Filter(products, byCategory) else products;
    FilterWhen(products, byCategory, bySearch, category != "all", term != "");
    FilterExt(products, And(When(category != "all", byCategory), When(term != "", bySearch)), ShownBy(category, term));
    FilterIsSubsequence(products, ShownBy(category, term));
    if term != "" then Filter(filtered, bySearch) else filtered
  }

  /** Narrowing further never brings back a product: adding a search term
      to a category choice shows a subsequence of the category's list. */
  lemma {:induction false} SearchNarrows(products: seq<P.Product>, category: string, term: string)
    ensures IsSubsequence(FilterProducts(products, category, term), FilterProducts(products, category, ""))
  {
    var bySearch := (p: P.Product) => Searched(p, term);
    var cat := FilterProducts(products, category, "");
    FilterFilter(products, ShownBy(category, ""), bySearch);
    FilterExt(products, And(ShownBy(category, ""), bySearch), ShownBy(category, term));
    FilterIsSubsequence(cat, bySearch);
  }
}

=== FILE: news_page.dfy ===
/**
 * The news page (frontend/app/news/page.jsx): the age of a story in whole
 * hours, the badge precedence, the headline and featured slices, the date
 * label, and how a refresh keeps, empties or replaces what is shown. The
 * clock is a parameter.
 */
module NewsPage {
  import opened Common

  /** A story's date: absent (or empty), a string `Date` cannot parse, or
      a time in milliseconds. */
  datatype Stamp = NoDate | Unparsable | At(ms: int)

  const HourMs: int := 1000 * 60 * 60

  /** `getHoursDifference`: 999 without a date, NaN (`None`) for an
      unparsable one, otherwise the elapsed time floored to whole hours
      (negative for a date in the future). */
  function HoursSince(d: Stamp, now: int): (h: Option<int>)
    ensures d.NoDate? ==> h == Some(999)
    ensures d.Unparsable? ==> h.None?
    ensures d.At? ==> h.Some? && h.value * HourMs <= now - d.ms < (h.value + 1) * HourMs
  {
    match d
    case NoDate => Some(999)
    case Unparsable => None
    case At(ms) => Some((now - ms) / HourMs)
  }

  datatype Badge = JustNow | New | Trending | Hot | NoBadge

  /** `getTrendingBadge`: under one hour, under two hours, one of the
      first three stories, under six hours, in that order. A NaN age fails
      every comparison. */
  function BadgeFor(d: Stamp, index: int, now: int): (b: Badge)
    ensures var h := HoursSince(d, now);
            && (b == JustNow <==> h.Some? && h.value < 1)
            && (b == New <==> h.Some? && 1 <= h.value < 2)
            && (b == Trending <==> (h.None? || h.value >= 2) && index < 3)
            && (b == Hot <==> h.Some? && 2 <= h.value < 6 && index >= 3)
  {
    var h := HoursSince(d, now);
    if h.Some? && h.value < 1 then JustNow
    else if h.Some? && h.value < 2 then New
    else if index < 3 then Trending
    else if h.Some? && h.value < 6 then Hot
    else NoBadge
  }

  /** The first three stories always carry a badge, and never "HOT"; a
      story without a date is "TRENDING" there and unbadged further down. */
  lemma {:induction false} TopStoriesBadged(d: Stamp, index: int, now: int)
    ensures index < 3 ==> BadgeFor(d, index, now) != NoBadge && BadgeFor(d, index, now) != Hot
    ensures d.NoDate? ==> BadgeFor(d, index, now) == (if index < 3 then Trending else NoBadge)
  {
  }

  /** A story published less than an hour ago (by the clock) is "JUST NOW". */
  lemma {:induction false} FreshStoryIsJustNow(ms: int, index: int, now: int)
    requires ms <= now < ms + HourMs
    ensures BadgeFor(At(ms), index, now) == JustNow
  {
  }

  /** Headlines are the first 8 stories and the featured ones the first 3. */
  function Headlines<T>(news: seq<T>): (r: seq<T>)
    ensures |r| == (if |news| < 8 then |news| else 8) && r == news[..|r|]
  {
    Take(news, 8)
  }

  function Featured<T>(news: seq<T>): (r: seq<T>)
    ensures |r| == (if |news| < 3 then |news| else 3) && r == news[..|r|]
  {
    Take(news, 3)
  }

  /** The featured stories lead the headlines. */
  lemma {:induction false} FeaturedLeadHeadlines<T>(news: seq<T>)
    ensures Featured(news) <= Headlines(news)
  {
  }

  /** `formattedDate`: "Just now" without a date; otherwise the locale
      rendering of the date, which is not part of this model. */
  datatype DateLabel = Text(text: string) | Locale(date: Stamp)

  function FormattedDate(d: Stamp): (l: DateLabel)
    ensures d.NoDate? <==> l == Text("Just now")
    ensures !d.NoDate? ==> l == Locale(d)
  {
    if d.NoDate? then Text("Just now") else Locale(d)
  }

  /** What the page shows, and the banner above it. */
  datatype View<T> = View(news: seq<T>, errorMessage: string)

  /** How a fetch of the news route ended: a success with a news array, or
      anything else (non-OK status, wrong shape, thrown error). */
  datatype Fetched<T> = Fresh(news: seq<T>) | Broken

  const Unavailable := "Live news is temporarily unavailable. Showing the latest cached stories when available."

  /** `fetchNews` as one render defines it: `seen` is the `newsData` of
      that render, which the closure keeps. The effect calls it at once
      and hands the same closure to its five-minute timer, so every timer
      tick sees the stories of the render that ran the effect: [] for the
      effect run on mount. A success replaces the stories and clears the
      banner; a failure raises the banner and, when `seen` is empty,
      empties the stories on show. */
  function Refresh<T>(v: View<T>, seen: seq<T>, f: Fetched<T>): (r: View<T>)
    ensures f.Fresh? ==> r == View(f.news, "")
    ensures f.Broken? ==> r.errorMessage == Unavailable
    ensures f.Broken? && |seen| == 0 ==> r.news == []
    ensures f.Broken? && |seen| > 0 ==> r.news == v.news
  {
    match f
    case Fresh(news) => View(news, "")
    case Broken => View(if |seen| == 0 then [] else v.news, Unavailable)
  }

  /** As written, the mount effect loads the stories, and a later timer
      tick of that effect whose fetch fails wipes them from the page. */
  lemma {:induction false} TimerFailureEmptiesPage<T>(news: seq<T>)
    requires |news| > 0
    ensures var loaded := Refresh(View([], ""), [], Fresh(news));
            && loaded.news == news
            && Refresh(loaded, [], Broken) == View([], Unavailable)
  {
  }

  /** The failure branch as evidently intended, with a functional update
      (`setNewsData(prev => prev.length ? prev : [])`): it reads the
      stories on show rather than the closure's copy. */
  function RefreshFixed<T>(v: View<T>, f: Fetched<T>): (r: View<T>)
    ensures f.Fresh? ==> r == View(f.news, "")
    ensures f.Broken? ==> r.news == v.news && r.errorMessage == Unavailable
  {
    match f
    case Fresh(news) => View(news, "")
    case Broken => View(v.news, Unavailable)
  }

  /** The two differ exactly on a failed call from a closure that saw no
      stories while stories are on show. */
  lemma {:induction false} FixedAgreesUnlessStale<T>(v: View<T>, seen: seq<T>, f: Fetched<T>)
    ensures Refresh(v, seen, f) == RefreshFixed(v, f) <==> f.Fresh? || |seen| > 0 || |v.news| == 0
  {
  }

  /** With the fix, a failed refresh never loses stories already on
      screen, and the next successful one shows exactly what it fetched. */
  lemma {:induction false} FailureThenRecovery<T>(v: View<T>, news: seq<T>)
    ensures RefreshFixed(v, Broken).news == v.news
    ensures RefreshFixed(RefreshFixed(v, Broken), Fresh(news)) == View(news, "")
  {
  }
}

=== FILE: news_route.dfy ===
/**
 * The farmer news endpoint (frontend/app/api/farmer-news/route.js): the
 * search query chosen per category, the relevance filter over upstream
 * articles, field defaults, the category classifier and the sample-news
 * fallback. The upstream call itself is a parameter.
 */
module FarmerNews {
  import opened Common

  /** An upstream article; absent fields are `None`. */
  datatype Article = Article(
    title: Option<string>,
    description: Option<string>,
    content: Option<string>,
    link: Option<string>,
    sourceId: Option<string>,
    pubDate: Option<int>,
    imageUrl: Option<string>)

  /** An item of the response; dates are millisecond timestamps. */
  datatype NewsItem = NewsItem(
    title: Option<string>,
    description: string,
    link: Option<string>,
    source: string,
    date: Option<int>,
    image: Option<string>,
    category: Option<Category>)

  /** What the upstream call produced: a thrown error, or a parsed body. */
  datatype Upstream = Threw | Body(status: Option<string>, results: Option<seq<Article>>)

  datatype NewsReply = NewsReply(news: seq<NewsItem>, count: nat, note: Option<string>)

  /** The five news categories. */
  datatype Category = Agriculture | Farming | Crops | Livestock | Technology

  function Name(c: Category): string
  {
    match c
    case Agriculture => "agriculture"
    case Farming => "farming"
    case Crops => "crops"
    case Livestock => "livestock"
    case Technology => "technology"
  }

  /** The category a request parameter names, if any. */
  function Named(s: string): (c: Option<Category>)
    ensures c.Some? ==> Name(c.value) == s
  {
    if s == "agriculture" then Some(Agriculture)
    else if s == "farming" then Some(Farming)
    else if s == "crops" then Some(Crops)
    else if s == "livestock" then Some(Livestock)
    else if s == "technology" then Some(Technology)
    else None
  }

  /** Names and parameters correspond one to one. */
  lemma {:induction false} NamedName(c: Category)
    ensures Named(Name(c)) == Some(c)
  {
  }

  const DefaultQuery: string := "farmers OR agriculture OR farming"

  function CategoryQuery(c: Category): string
  {
    match c
    case Agriculture => "farmers AND agriculture"
    case Farming => "farmers AND farming"
    case Crops => "farmers AND (crops OR wheat OR rice)"
    case Livestock => "farmers AND (livestock OR cattle OR poultry)"
    case Technology => "farmers AND (technology OR innovation OR tech)"
  }

  /** The query for a category parameter; a missing or empty one is
      "all", and "all" or an unknown name searches broadly. */
  function QueryFor(category: Option<string>): (q: string)
    ensures !Truthy(category) || category.value == "all" ==> q == DefaultQuery
    ensures Truthy(category) && Named(category.value).None? ==> q == DefaultQuery
    ensures Truthy(category) && Named(category.value).Some? ==> q == CategoryQuery(Named(category.value).value)
  {
    var c := OrElse(category, "all");
    if c != "all" && Named(c).Some? then CategoryQuery(Named(c).value) else DefaultQuery
  }

  /** Every known category gets its own query, different from the broad one. */
  lemma {:induction false} QueriesDistinct(a: Category, b: Category)
    ensures CategoryQuery(a) != DefaultQuery
    ensures a != b ==> CategoryQuery(a) != CategoryQuery(b)
  {
    assert CategoryQuery(a)[8] != DefaultQuery[8];
  }

  /** The lower-cased `title description` text both the filter and the
      classifier look at; an absent title prints as "undefined". */
  function Text(a: Article): string
  {
    ToLower((if a.title.Some? then a.title.value else "undefined") + " " + OrElse(a.description, ""))
  }

  /** The relevance filter of the route. */
  predicate Relevant(a: Article)
  {
    var t := Text(a);
    Contains(t, "farmer") || Contains(t, "farm") || Contains(t, "agriculture")
  }

  /** "farmer" adds nothing: it contains "farm". */
  lemma {:induction false} RelevantIffFarmOrAgriculture(a: Article)
    ensures Relevant(a) <==> Contains(Text(a), "farm") || Contains(Text(a), "agriculture")
  {
    var t := Text(a);
    if Contains(t, "farmer") {
      assert "farmer"[0..4] == "farm";
      ContainsInfix(t, "farmer", "farm", 0);
    }
  }

  /** The keyword groups of `determineCategory`, over the lower-cased text. */
  predicate FarmWord(t: string) { Contains(t, "farmer") || Contains(t, "farm") }

  predicate CropWord(t: string)
  {
    Contains(t, "crop") || Contains(t, "wheat") || Contains(t, "rice") || Contains(t, "harvest")
  }

  predicate LivestockWord(t: string)
  {
    Contains(t, "livestock") || Contains(t, "cattle") || Contains(t, "poultry") || Contains(t, "dairy")
  }

  predicate TechWord(t: string)
  {
    Contains(t, "tech") || Contains(t, "innovation") || Contains(t, "digital") || Contains(t, "ai")
  }

  predicate AgricultureWord(t: string) { Contains(t, "agriculture") || Contains(t, "agricultural") }

  /** `determineCategory`: `None` without "farmer"/"farm"; otherwise the
      first group that matches among crops, livestock, technology,
      agriculture, and farming when none does. */
  function DetermineCategory(a: Article): (c: Option<Category>)
    ensures c.None? <==> !Contains(Text(a), "farm") && !Contains(Text(a), "farmer")
    ensures var t := Text(a);
            && (c == Some(Crops) <==> FarmWord(t) && CropWord(t))
            && (c == Some(Livestock) <==> FarmWord(t) && !CropWord(t) && LivestockWord(t))
            && (c == Some(Technology) <==> FarmWord(t) && !CropWord(t) && !LivestockWord(t) && TechWord(t))
            && (c == Some(Agriculture) <==>
                  FarmWord(t) && !CropWord(t) && !LivestockWord(t) && !TechWord(t) && AgricultureWord(t))
            && (c == Some(Farming) <==>
                  FarmWord(t) && !CropWord(t) && !LivestockWord(t) && !TechWord(t) && !AgricultureWord(t))
  {
    var t := Text(a);
    if !FarmWord(t) then None
    else if CropWord(t) then Some(Crops)
    else if LivestockWord(t) then Some(Livestock)
    else if TechWord(t) then Some(Technology)
    else if AgricultureWord(t) then Some(Agriculture)
    else Some(Farming)
  }

  /** An article kept by the filter is left unclassified exactly when it
      mentions agriculture but not farms. */
  lemma {:induction false} KeptButUnclassified(a: Article)
    requires Relevant(a)
    ensures DetermineCategory(a).None? <==> !Contains(Text(a), "farm") && Contains(Text(a), "agriculture")
  {
    RelevantIffFarmOrAgriculture(a);
    var t := Text(a);
    if Contains(t, "farmer") {
      assert "farmer"[0..4] == "farm";
      ContainsInfix(t, "farmer", "farm", 0);
    }
  }

  /** The bare substring "ai" is a technology keyword, so a farm story
      about rain is filed under technology. */
  lemma {:induction false} RainIsTechnology()
    ensures DetermineCategory(Article(Some("Farm"), Some("rain"), None, None, None, None, None)) == Some(Technology)
  {
    var a := Article(Some("Farm"), Some("rain"), None, None, None, None, None);
    RainText(a);
    RainKeywords(Text(a));
  }

  lemma {:induction false} RainText(a: Article)
    requires a == Article(Some("Farm"), Some("rain"), None, None, None, None, None)
    ensures Text(a) == "farm rain"
  {
    assert ToLower("Farm rain") == "farm rain";
  }

  /** Which keywords "farm rain" contains. */
  lemma {:induction false} RainKeywords(t: string)
    requires t == "farm rain"
    ensures Contains(t, "farm") && Contains(t, "ai")
    ensures !Contains(t, "crop") && !Contains(t, "wheat") && !Contains(t, "rice") && !Contains(t, "harvest")
    ensures !Contains(t, "livestock") && !Contains(t, "cattle") && !Contains(t, "poultry") && !Contains(t, "dairy")
  {
    assert OccursAt(t, "farm", 0);
    assert OccursAt(t, "ai", 6);
    MissingCharNotContained(t, "crop", 'c');
    MissingCharNotContained(t, "wheat", 'w');
    MissingCharNotContained(t, "rice", 'c');
    MissingCharNotContained(t, "harvest", 'h');
    MissingCharNotContained(t, "livestock", 'l');
    MissingCharNotContained(t, "cattle", 'c');
    MissingCharNotContained(t, "poultry", 'p');
    MissingCharNotContained(t, "dairy", 'd');
  }

  /** The response item for an article: description falls back to the
      content and then to a fixed text, source to "Unknown". */
  function Format(a: Article): (n: NewsItem)
    ensures n.description != "" && n.source != ""
    ensures n.title == a.title && n.link == a.link && n.date == a.pubDate && n.image == a.imageUrl
    ensures Truthy(a.description) ==> n.description == a.description.value
    ensures !Truthy(a.description) && Truthy(a.content) ==> n.description == a.content.value
    ensures !Truthy(a.description) && !Truthy(a.content) ==> n.description == "No description available"
    ensures Truthy(a.sourceId) ==> n.source == a.sourceId.value
    ensures !Truthy(a.sourceId) ==> n.source == "Unknown"
    ensures n.category == DetermineCategory(a)
  {
    NewsItem(a.title, OrElse(a.description, OrElse(a.content, "No description available")), a.link,
             OrElse(a.sourceId, "Unknown"), a.pubDate, a.imageUrl, DetermineCategory(a))
  }

  /** The relevant articles, formatted, in upstream order. */
  function FarmerNewsOf(results: seq<Article>): (items: seq<NewsItem>)
    ensures |items| <= |results|
    ensures |items| == |Filter(results, Relevant)|
  {
    MapSeq(Filter(results, Relevant), Format)
  }

  /** Every relevant article is reported, and every report comes from a
      relevant article. */
  lemma {:induction false} FarmerNewsExact(results: seq<Article>)
    ensures forall a | a in results && Relevant(a) :: Format(a) in FarmerNewsOf(results)
    ensures forall n | n in FarmerNewsOf(results) :: exists a | a in results :: Relevant(a) && n == Format(a)
  {
    var kept := Filter(results, Relevant);
    var items := FarmerNewsOf(results);
    forall a | a in results && Relevant(a) ensures Format(a) in items {
      var k :| 0 <= k < |kept| && kept[k] == a;
      assert items[k] == Format(a);
    }
    forall n | n in items ensures exists a | a in results :: Relevant(a) && n == Format(a) {
      var k :| 0 <= k < |items| && items[k] == n;
      assert kept[k] in kept;
    }
  }

  /** A single article gives its formatted item exactly when it is
      relevant. */
  lemma {:induction false} NewsOfOne(a: Article)
    ensures FarmerNewsOf([a]) == if Relevant(a) then [Format(a)] else []
  {
    assert [a][1..] == [];
  }

  /** The items of two runs of articles are the items of each run, in
      order: together with `NewsOfOne` this fixes the order and the
      multiplicity of the items, one per relevant article. */
  lemma {:induction false} NewsOfAppend(a: seq<Article>, b: seq<Article>)
    ensures FarmerNewsOf(a + b) == FarmerNewsOf(a) + FarmerNewsOf(b)
  {
    FilterAppend(a, b, Relevant);
    MapAppend(Filter(a, Relevant), Filter(b, Relevant), Format);
  }

  /** The hours before `now` at which the ten fallback stories are dated. */
  const SampleHours: seq<int> := [0, 2, 5, 8, 12, 18, 24, 30, 36, 48]

  /** The ten fallback stories: title, description, source, category. */
  function SampleStory(k: nat): (string, string, string, Category)
    requires k < 10
  {
    if k == 0 then
      ("Government Announces New Subsidy Scheme for Small Farmers",
       "The agricultural ministry has unveiled a comprehensive subsidy program aimed at supporting small-scale farmers with financial assistance for seeds, fertilizers, and modern farming equipment.",
       "Agriculture Today", Farming)
    else if k == 1 then
      ("Record Wheat Production Expected This Season",
       "Favorable weather conditions and improved farming techniques are projected to lead to record wheat yields across major agricultural states this harvest season.",
       "Farm News Network", Crops)
    else if k == 2 then
      ("Dairy Farmers Adopt AI-Powered Milking Technology",
       "Innovative artificial intelligence systems are revolutionizing dairy farming, helping farmers monitor cattle health and optimize milk production efficiently.",
       "Tech Agriculture", Technology)
    else if k == 3 then
      ("Organic Farming Practices Gain Momentum Among Indian Farmers",
       "More farmers are transitioning to organic farming methods, driven by consumer demand for chemical-free produce and sustainable agricultural practices.",
       "Sustainable Farming Journal", Agriculture)
    else if k == 4 then
      ("New Irrigation System Helps Farmers Save Water and Increase Yields",
       "Advanced drip irrigation technology is enabling farmers to conserve water while improving crop productivity in water-scarce regions.",
       "Agricultural Innovation", Technology)
    else if k == 5 then
      ("Livestock Vaccination Drive Launched in Rural Areas",
       "A nationwide campaign to vaccinate cattle and poultry against common diseases has been initiated to protect farmers' livelihoods.",
       "Livestock Health News", Livestock)
    else if k == 6 then
      ("Farmers Protest Against Rising Fertilizer Prices",
       "Agricultural workers across the country are demanding government intervention to control escalating costs of essential farming inputs.",
       "Rural Voice", Farming)
    else if k == 7 then
      ("Rice Exports Hit All-Time High Despite Global Challenges",
       "Indian rice farmers are benefiting from strong international demand, with export volumes reaching unprecedented levels this quarter.",
       "Export Agriculture Weekly", Crops)
    else if k == 8 then
      ("Solar-Powered Agriculture: Farmers Embrace Renewable Energy",
       "Solar panels are being installed on farms to power irrigation pumps and processing equipment, reducing electricity costs significantly.",
       "Green Farming Magazine", Technology)
    else
      ("Crop Insurance Scheme Reaches 50 Million Farmers",
       "The government's flagship crop insurance program has successfully enrolled over 50 million farmers, providing financial security against crop failures.",
       "Insurance & Agriculture", Agriculture)
  }

  const HourMs: int := 60 * 60 * 1000

  /** The fallback list, dated relative to `now`: each story is a
      categorised, linked placeholder. */
  function SampleNews(now: int): (s: seq<NewsItem>)
    ensures |s| == |SampleHours| == 10
    ensures forall k | 0 <= k < |s| :: && s[k].category.Some? && s[k].link == Some("#")
                                       && s[k].date == Some(now - SampleHours[k] * HourMs)
  {
    seq(10, k requires 0 <= k < 10 =>
      var story := SampleStory(k);
      NewsItem(Some(story.0), story.1, Some("#"), story.2, Some(now - SampleHours[k] * HourMs), None, Some(story.3)))
  }

  /** The stories are listed newest first. */
  lemma {:induction false} SampleNewsNewestFirst(now: int)
    ensures var s := SampleNews(now);
            forall i, j | 0 <= i < j < |s| :: s[i].date.value > s[j].date.value
  {
    var s := SampleNews(now);
    HoursIncrease();
    forall i, j | 0 <= i < j < |s| ensures s[i].date.value > s[j].date.value {
      EarlierHourLater(now, SampleHours[i], SampleHours[j]);
    }
  }

  /** Fewer hours back is a later time. */
  lemma {:induction false} EarlierHourLater(now: int, a: int, b: int)
    requires a < b
    ensures now - a * HourMs > now - b * HourMs
  {
    assert b * HourMs - a * HourMs == (b - a) * HourMs;
  }

  lemma {:induction false} HoursIncrease()
    ensures forall i, j | 0 <= i < j < |SampleHours| :: SampleHours[i] < SampleHours[j]
  {
  }

  /** `GET /api/farmer-news`: a successful upstream body with a results
      array gives the formatted relevant articles and their count; anything
      else, including a thrown call, gives the ten sample stories. */
  function Respond(upstream: Upstream, now: int): (r: NewsReply)
    ensures r.count == |r.news|
    ensures upstream.Body? && upstream.status == Some("success") && upstream.results.Some?
            ==> r.news == FarmerNewsOf(upstream.results.value) && r.note.None?
    ensures !(upstream.Body? && upstream.status == Some("success") && upstream.results.Some?)
            ==> r.news == SampleNews(now) && r.count == 10 && r.note.Some?
    ensures upstream.Threw? ==> r.note == Some("Using sample news due to API error")
    ensures upstream.Body? && !(upstream.status == Some("success") && upstream.results.Some?)
            ==> r.note == Some("Using sample news data")
  {
    if upstream.Body? && upstream.status == Some("success") && upstream.results.Some? then
      var items := FarmerNewsOf(upstream.results.value);
      NewsReply(items, |items|, None)
    else if upstream.Threw? then
      NewsReply(SampleNews(now), 10, Some("Using sample news due to API error"))
    else
      NewsReply(SampleNews(now), 10, Some("Using sample news data"))
  }
}

=== FILE: product_controller.dfy ===
/**
 * The marketplace REST handlers (backend/src/controllers/productController.js):
 * filtered listing newest first, reads that count views, creation,
 * updates, deletion, the admin status switch and the inquiry counter.
 */
module ProductController {
  import opened Common
  import P = ProductModel
  import opened Store

  type Entry = (Id, P.Product)

  // -------------------------------------------------------------- listing

  /** The query string of `GET /api/products`. An empty string is falsy in
      the handler, so it filters nothing, like an absent parameter. Price
      bounds arrive already converted by `Number`. */
  datatype ProductQuery = ProductQuery(
    category: Option<string>,
    state: Option<string>,
    district: Option<string>,
    status: Option<string>,
    minPrice: Option<real>,
    maxPrice: Option<real>)

  predicate Given(o: Option<string>) { o.Some? && o.value != "" }

  /** The Mongo query the handler builds: exact category and status,
      case-insensitive substring on state and district, inclusive price
      bounds. */
  predicate Matches(q: ProductQuery, p: P.Product)
  {
    && (Given(q.category) ==> p.category == q.category.value)
    && (Given(q.state) ==> ContainsIgnoreCase(p.state, q.state.value))
    && (Given(q.district) ==> ContainsIgnoreCase(p.district, q.district.value))
    && (Given(q.status) ==> p.status == q.status.value)
    && (q.minPrice.Some? ==> p.price >= q.minPrice.value)
    && (q.maxPrice.Some? ==> p.price <= q.maxPrice.value)
  }

  /** `.sort({ createdAt: -1 })`. */
  predicate NewestFirst(s: seq<Entry>)
  {
    forall i, j | 0 <= i < j < |s| :: s[i].1.createdAt >= s[j].1.createdAt
  }

  /** Place one entry into a newest-first listing. */
  function Insert(x: Entry, s: seq<Entry>): (r: seq<Entry>)
    requires NewestFirst(s)
    ensures NewestFirst(r)
    ensures multiset(r) == multiset(s) + multiset{x}
    ensures |r| == |s| + 1 && (r[0] == x || (|s| > 0 && r[0] == s[0]))
  {
    if s == [] || x.1.createdAt >= s[0].1.createdAt then
      ConsNewestFirst(x, s);
      [x] + s
    else
      assert s == [s[0]] + s[1..];
      var t := Insert(x, s[1..]);
      assert s[0].1.createdAt >= t[0].1.createdAt;
      ConsNewestFirst(s[0], t);
      assert multiset([s[0]] + t) == multiset{s[0]} + multiset(t);
      assert multiset(s) == multiset{s[0]} + multiset(s[1..]);
      [s[0]] + t
  }

  /** An entry at least as new as a listing's head can go in front of it. */
  lemma {:induction false} ConsNewestFirst(e: Entry, t: seq<Entry>)
    requires NewestFirst(t)
    requires |t| > 0 ==> e.1.createdAt >= t[0].1.createdAt
    ensures NewestFirst([e] + t)
  {
    var r := [e] + t;
    forall i, j | 0 <= i < j < |r| ensures r[i].1.createdAt >= r[j].1.createdAt {
      if i == 0 && j > 1 {
        assert t[0].1.createdAt >= t[j - 1].1.createdAt;
      }
    }
  }

  /** Insertion sort by creation time, newest first. */
  function SortNewestFirst(s: seq<Entry>): (r: seq<Entry>)
    ensures NewestFirst(r)
    ensures multiset(r) == multiset(s)
  {
    if s == [] then []
    else
      assert s == [s[0]] + s[1..];
      Insert(s[0], SortNewestFirst(s[1..]))
  }

  /** An entry whose id is new to a listing keeps its ids distinct. */
  lemma {:induction false} InsertKeepsDistinct(x: Entry, s: seq<Entry>)
    requires NewestFirst(s) && DistinctIds(s)
    requires forall k | 0 <= k < |s| :: s[k].0 != x.0
    ensures DistinctIds(Insert(x, s))
  {
    if s != [] && x.1.createdAt < s[0].1.createdAt {
      InsertKeepsDistinct(x, s[1..]);
      var t := Insert(x, s[1..]);
      forall k | 0 <= k < |t| ensures t[k].0 != s[0].0 {
        assert t[k] in multiset(t);
        if t[k] != x {
          assert t[k] in multiset(s[1..]);
          var j :| 0 <= j < |s[1..]| && s[1..][j] == t[k];
          assert s[j + 1] == t[k];
        }
      }
      ConsDistinct(s[0], t);
    }
  }

  /** An entry whose id is not in a distinct listing can go in front of it. */
  lemma {:induction false} ConsDistinct(e: Entry, t: seq<Entry>)
    requires DistinctIds(t)
    requires forall k | 0 <= k < |t| :: t[k].0 != e.0
    ensures DistinctIds([e] + t)
  {
    var r := [e] + t;
    forall a, b | 0 <= a < b < |r| ensures r[a].0 != r[b].0 {
      if a > 0 {
        assert r[a] == t[a - 1] && r[b] == t[b - 1];
      }
    }
  }

  /** Sorting keeps the ids of a listing distinct. */
  lemma {:induction false} SortKeepsDistinct(s: seq<Entry>)
    requires DistinctIds(s)
    ensures DistinctIds(SortNewestFirst(s))
  {
    if s != [] {
      SortKeepsDistinct(s[1..]);
      var t := SortNewestFirst(s[1..]);
      forall k | 0 <= k < |t| ensures t[k].0 != s[0].0 {
        assert t[k] in multiset(s[1..]);
        var j :| 0 <= j < |s[1..]| && s[1..][j] == t[k];
        assert s[j + 1] == t[k];
      }
      InsertKeepsDistinct(s[0], t);
    }
  }

  /** The entries of a listing that the query matches, in listing order. */
  function Narrow(all: seq<Entry>, q: ProductQuery): (r: seq<Entry>)
    ensures forall x :: x in r <==> x in all && Matches(q, x.1)
    ensures DistinctIds(all) ==> DistinctIds(r)
  {
    var keep := (e: Entry) => Matches(q, e.1);
    FilterKeepsDistinct(all, keep);
    Filter(all, keep)
  }

  /** Every stored product the query matches is in any permutation of the
      narrowed listing. */
  lemma {:induction false} SortedMatchesComplete(all: seq<Entry>, m: map<Id, P.Product>, q: ProductQuery, sorted: seq<Entry>)
    requires Lists(all, m) && multiset(sorted) == multiset(Narrow(all, q))
    ensures forall id | id in m && Matches(q, m[id]) :: Listed(sorted, id)
  {
    forall id | id in m && Matches(q, m[id]) ensures Listed(sorted, id) {
      var k :| 0 <= k < |all| && all[k].0 == id;
      var e := all[k];
      assert e in Narrow(all, q);
      assert e in multiset(sorted);
      var j :| 0 <= j < |sorted| && sorted[j] == e;
    }
  }

  /** Every entry of a permutation of the narrowed listing is a stored,
      matching product under its own id. */
  lemma {:induction false} SortedMatchesSound(all: seq<Entry>, m: map<Id, P.Product>, q: ProductQuery, sorted: seq<Entry>)
    requires Lists(all, m) && multiset(sorted) == multiset(Narrow(all, q))
    ensures forall k | 0 <= k < |sorted| :: sorted[k].0 in m && sorted[k].1 == m[sorted[k].0] && Matches(q, sorted[k].1)
  {
    forall k | 0 <= k < |sorted| ensures sorted[k].0 in m && sorted[k].1 == m[sorted[k].0] && Matches(q, sorted[k].1) {
      assert sorted[k] in multiset(Narrow(all, q));
      assert sorted[k] in Narrow(all, q);
      var i :| 0 <= i < |all| && all[i] == sorted[k];
    }
  }

  /** `getAllProducts`: every stored product the query matches, each once,
      newest first. */
  method GetAllProducts(db: Db, q: ProductQuery) returns (r: ListReply<Entry>)
    ensures r.code == 200 && r.count == |r.data|
    ensures forall k | 0 <= k < |r.data| ::
              r.data[k].0 in db.products && r.data[k].1 == db.products[r.data[k].0] && Matches(q, r.data[k].1)
    ensures forall id | id in db.products && Matches(q, db.products[id]) :: Listed(r.data, id)
    ensures DistinctIds(r.data)
    ensures NewestFirst(r.data)
  {
    var all := Enumerate(db.products);
    var matching := Narrow(all, q);
    var sorted := SortNewestFirst(matching);
    SortKeepsDistinct(matching);
    SortedMatchesComplete(all, db.products, q, sorted);
    SortedMatchesSound(all, db.products, q, sorted);
    r := ListReply(200, |sorted|, sorted);
  }

  // ---------------------------------------------------------------- reads

  /** `getProductById`: 404 for an unknown id; otherwise the view counter
      goes up by one and the document is saved (a save the schema refuses
      is a server error). */
  function GetProductById(db: Db, id: Id): (out: Outcome<P.Product>)
    ensures id !in db.products ==> out.reply.code == 404 && out.db == db
    ensures out.reply.code == 200 ==>
              && id in db.products
              && out.db == db.(products := db.products[id := db.products[id].(views := db.products[id].views + 1)])
              && out.reply.data == Some(out.db.products[id])
    ensures out.reply.code != 200 ==> out.db == db
  {
    if id !in db.products then Outcome(Reply(404, "Product not found", None), db)
    else
      var p := db.products[id].(views := db.products[id].views + 1);
      if !P.Valid(p) then Outcome(Reply(500, "Server Error", None), db)
      else Outcome(Reply(200, "", Some(p)), db.(products := db.products[id := p]))
  }

  /** `incrementInquiry`: the inquiry counter goes up by one. */
  function IncrementInquiry(db: Db, id: Id): (out: Outcome<P.Product>)
    ensures id !in db.products ==> out.reply.code == 404 && out.db == db
    ensures out.reply.code == 200 ==>
              && id in db.products
              && out.db == db.(products := db.products[id := db.products[id].(inquiries := db.products[id].inquiries + 1)])
    ensures out.reply.code != 200 ==> out.db == db
  {
    if id !in db.products then Outcome(Reply(404, "Product not found", None), db)
    else
      var p := db.products[id].(inquiries := db.products[id].inquiries + 1);
      if !P.Valid(p) then Outcome(Reply(500, "Server Error", None), db)
      else Outcome(Reply(200, "Inquiry recorded", Some(p)), db.(products := db.products[id := p]))
  }

  /** On a consistent store a read of an existing product always succeeds
      and the counters are the only thing that changes. */
  lemma {:induction false} CountersAlwaysSave(db: Db, id: Id)
    requires Consistent(db) && id in db.products
    ensures GetProductById(db, id).reply.code == 200 && Consistent(GetProductById(db, id).db)
    ensures IncrementInquiry(db, id).reply.code == 200 && Consistent(IncrementInquiry(db, id).db)
    ensures GetProductById(db, id).db.products[id].views == db.products[id].views + 1
    ensures IncrementInquiry(db, id).db.products[id].inquiries == db.products[id].inquiries + 1
  {
  }

  // -------------------------------------------------------------- writes

  /** `createProduct`: the document is stored under the fresh id when it
      passes the schema, else 400 "Validation Error". */
  function CreateProduct(db: Db, body: P.ProductFields, freshId: Id, now: int): (out: Outcome<P.Product>)
    requires freshId !in db.products
    ensures out.reply.code == 201 <==> P.Materialize(body, now).Some? && P.Valid(P.Materialize(body, now).value)
    ensures out.reply.code == 201 ==> out.db == db.(products := db.products[freshId := P.Materialize(body, now).value])
    ensures out.reply.code != 201 ==> out.reply == Reply(400, "Validation Error", None) && out.db == db
  {
    var p := P.Materialize(body, now);
    if p.None? || !P.Valid(p.value) then Outcome(Reply(400, "Validation Error", None), db)
    else Outcome(Reply(201, "Product listed successfully", p), db.(products := db.products[freshId := p.value]))
  }

  /** A created product passed its schema, so the store stays consistent. */
  lemma {:induction false} CreateProductKeepsConsistency(db: Db, body: P.ProductFields, freshId: Id, now: int)
    requires Consistent(db) && freshId !in db.products
    ensures Consistent(CreateProduct(db, body, freshId, now).db)
  {
    var out := CreateProduct(db, body, freshId, now);
    if out.reply.code == 201 {
      PutProduct(db, freshId, P.Materialize(body, now).value);
    }
  }

  /** `updateProduct`: 404 for an unknown id; an update whose set paths
      fail their validators is 400 "Update Error"; otherwise the patch is
      applied and the creation time kept. */
  function UpdateProduct(db: Db, id: Id, body: P.ProductFields): (out: Outcome<P.Product>)
    ensures id !in db.products ==> out.reply.code == 404 && out.db == db
    ensures id in db.products && !P.PatchValid(body) ==> out.reply == Reply(400, "Update Error", None) && out.db == db
    ensures out.reply.code == 200 <==> id in db.products && P.PatchValid(body)
    ensures out.reply.code == 200 ==> out.db == db.(products := db.products[id := P.ApplyPatch(db.products[id], body)])
                                      && out.db.products[id].createdAt == db.products[id].createdAt
  {
    if id !in db.products then Outcome(Reply(404, "Product not found", None), db)
    else if !P.PatchValid(body) then Outcome(Reply(400, "Update Error", None), db)
    else
      var p := P.ApplyPatch(db.products[id], body);
      Outcome(Reply(200, "Product updated successfully", Some(p)), db.(products := db.products[id := p]))
  }

  /** Validating only the set paths is enough to keep a consistent store
      consistent. */
  lemma {:induction false} UpdateProductKeepsConsistency(db: Db, id: Id, body: P.ProductFields)
    requires Consistent(db)
    ensures Consistent(UpdateProduct(db, id, body).db)
  {
    if id in db.products {
      P.PatchPreservesValid(db.products[id], body);
    }
  }

  /** `deleteProduct`: 404, or exactly that product removed. */
  function DeleteProduct(db: Db, id: Id): (out: Outcome<P.Product>)
    ensures out.reply.code == 200 <==> id in db.products
    ensures out.db.products.Keys == db.products.Keys - {id}
    ensures forall k | k in out.db.products :: out.db.products[k] == db.products[k]
    ensures out.db.farmers == db.farmers && out.db.loans == db.loans
    ensures Consistent(db) ==> Consistent(out.db)
  {
    if id !in db.products then Outcome(Reply(404, "Product not found", None), db)
    else Outcome(Reply(200, "Product deleted successfully", None), db.(products := db.products - {id}))
  }

  /** `updateProductStatus`: a status outside the four allowed values (or
      none at all) is 400 "Invalid status" before any lookup; then 404;
      otherwise only the status changes. */
  function UpdateProductStatus(db: Db, id: Id, status: Option<string>): (out: Outcome<P.Product>)
    ensures status.None? || !P.StatusOk(status.value) ==> out.reply == Reply(400, "Invalid status", None) && out.db == db
    ensures out.reply.code == 200 <==> status.Some? && P.StatusOk(status.value) && id in db.products
    ensures out.reply.code == 200 ==>
              && out.db == db.(products := db.products[id := db.products[id].(status := status.value)])
              && out.reply.message == "Product " + status.value + " successfully"
    ensures out.reply.code != 200 ==> out.db == db
    ensures Consistent(db) ==> Consistent(out.db)
  {
    if status.None? || status.value !in ["pending", "approved", "rejected", "sold"] then
      Outcome(Reply(400, "Invalid status", None), db)
    else if id !in db.products then Outcome(Reply(404, "Product not found", None), db)
    else
      var p := db.products[id].(status := status.value);
      Outcome(Reply(200, "Product " + status.value + " successfully", Some(p)), db.(products := db.products[id := p]))
  }

  /** The status switch is the same as an update that sets only the status. */
  lemma {:induction false} StatusSwitchIsStatusPatch(db: Db, id: Id, s: string)
    requires P.StatusOk(s)
    ensures var patch := P.ProductFields(None, None, None, None, None, None, None, None, None, None,
                                          None, None, None, None, None, None, Some(s), None, None, None);
            UpdateProductStatus(db, id, Some(s)).db == UpdateProduct(db, id, patch).db
  {
  }
}

=== FILE: product_model.dfy ===
/**
 * The Product listing document and its schema rules
 * (backend/src/models/Product.js).
 */
module ProductModel {
  import opened Common
  import FarmerModel

  type Id = FarmerModel.Id

  datatype Product = Product(
    productName: string,
    category: string,
    quantity: real,
    unit: string,
    price: real,
    description: Option<string>,
    location: string,
    district: string,
    state: string,
    pincode: string,
    contactName: string,
    contactPhone: string,
    contactEmail: Option<string>,
    deliveryOptions: seq<string>,
    organicCertified: bool,
    images: seq<string>,
    status: string,
    sellerId: Option<Id>,
    views: int,
    inquiries: int,
    createdAt: int)

  const Categories: seq<string> := ["Vegetables", "Fruits", "Grains", "Dairy", "Pulses", "Spices", "Oils & Seeds", "Other"]
  const Units: seq<string> := ["kg", "quintal", "ton", "liter", "dozen", "piece"]
  const DeliveryOptions: seq<string> := ["farm-pickup", "local-delivery", "regional-delivery", "nationwide"]
  const Statuses: seq<string> := ["pending", "approved", "rejected", "sold"]
  const DefaultUnit: string := "kg"
  const DefaultStatus: string := "pending"

  /** A required, trimmed string path: empty after trimming fails `required`. */
  predicate TextOk(s: string) { s != "" }
  predicate CategoryOk(c: string) { c in Categories }
  predicate AmountOk(x: real) { x >= 0.0 }
  predicate UnitOk(u: string) { u in Units }
  predicate PincodeOk(p: string) { DigitsOfLength(p, 6) }
  predicate DeliveryOk(opts: seq<string>) { forall k :: 0 <= k < |opts| ==> opts[k] in DeliveryOptions }
  predicate StatusOk(s: string) { s in Statuses }

  /** The document passes every validator of the schema. */
  predicate Valid(p: Product)
  {
    TextPathsOk(p) && OtherPathsOk(p)
  }

  /** The validators of the required, trimmed text paths. */
  predicate TextPathsOk(p: Product)
  {
    && TextOk(p.productName) && TextOk(p.location) && TextOk(p.district) && TextOk(p.state)
    && TextOk(p.contactName) && TextOk(p.contactPhone)
  }

  /** The validators of the other paths. */
  predicate OtherPathsOk(p: Product)
  {
    && CategoryOk(p.category) && AmountOk(p.quantity) && UnitOk(p.unit) && AmountOk(p.price)
    && PincodeOk(p.pincode) && DeliveryOk(p.deliveryOptions) && StatusOk(p.status)
  }

  /** A listing body, for creation (absent paths `None`) and for updates
      (absent paths kept). */
  datatype ProductFields = ProductFields(
    productName: Option<string>,
    category: Option<string>,
    quantity: Option<real>,
    unit: Option<string>,
    price: Option<real>,
    description: Option<string>,
    location: Option<string>,
    district: Option<string>,
    state: Option<string>,
    pincode: Option<string>,
    contactName: Option<string>,
    contactPhone: Option<string>,
    contactEmail: Option<string>,
    deliveryOptions: Option<seq<string>>,
    organicCertified: Option<bool>,
    images: Option<seq<string>>,
    status: Option<string>,
    sellerId: Option<Id>,
    views: Option<int>,
    inquiries: Option<int>)

  function TrimOpt(o: Option<string>): Option<string>
  {
    if o.Some? then Some(Trim(o.value)) else None
  }

  function LowerOpt(o: Option<string>): Option<string>
  {
    if o.Some? then Some(ToLower(o.value)) else None
  }

  function Or<T>(o: Option<T>, d: T): T
  {
    if o.Some? then o.value else d
  }

  /** An optional path: the body's value when it sets one, else the stored one. */
  function OrOpt<T>(o: Option<T>, d: Option<T>): Option<T>
  {
    if o.Some? then o else d
  }

  /** A trimmed string path: the body's value trimmed, or the stored one. */
  function TrimOr(o: Option<string>, d: string): string
  {
    if o.Some? then Trim(o.value) else d
  }

  /** The document `Product.create` builds: setters applied, defaults
      filled in (unit kg, status pending, counters 0), `None` when a
      required path is missing. */
  function Materialize(b: ProductFields, now: int): (r: Option<Product>)
    ensures r.Some? <==> b.productName.Some? && b.category.Some? && b.quantity.Some? && b.price.Some?
                         && b.location.Some? && b.district.Some? && b.state.Some? && b.pincode.Some?
                         && b.contactName.Some? && b.contactPhone.Some?
    ensures r.Some? ==> && r.value.productName == Trim(b.productName.value)
                        && r.value.category == b.category.value
                        && r.value.quantity == b.quantity.value && r.value.price == b.price.value
                        && r.value.location == Trim(b.location.value)
                        && r.value.district == Trim(b.district.value)
                        && r.value.state == Trim(b.state.value)
                        && r.value.pincode == b.pincode.value
                        && r.value.contactName == Trim(b.contactName.value)
                        && r.value.contactPhone == Trim(b.contactPhone.value)
    ensures r.Some? && b.description.Some? ==> r.value.description == Some(Trim(b.description.value))
    ensures r.Some? && b.description.None? ==> r.value.description.None?
    ensures r.Some? && b.contactEmail.Some? ==> r.value.contactEmail == Some(ToLower(Trim(b.contactEmail.value)))
    ensures r.Some? && b.contactEmail.None? ==> r.value.contactEmail.None?
    ensures r.Some? ==> r.value.deliveryOptions == Or(b.deliveryOptions, []) && r.value.images == Or(b.images, [])
    ensures r.Some? ==> r.value.organicCertified == Or(b.organicCertified, false) && r.value.sellerId == b.sellerId
    ensures r.Some? ==> r.value.unit == Or(b.unit, DefaultUnit) && r.value.status == Or(b.status, DefaultStatus)
    ensures r.Some? ==> r.value.views == Or(b.views, 0) && r.value.inquiries == Or(b.inquiries, 0)
    ensures r.Some? ==> r.value.createdAt == now
  {
    if b.productName.None? || b.category.None? || b.quantity.None? || b.price.None?
       || b.location.None? || b.district.None? || b.state.None? || b.pincode.None?
       || b.contactName.None? || b.contactPhone.None? then None
    else Some(Product(
      Trim(b.productName.value), b.category.value, b.quantity.value, Or(b.unit, DefaultUnit),
      b.price.value, TrimOpt(b.description), Trim(b.location.value), Trim(b.district.value),
      Trim(b.state.value), b.pincode.value, Trim(b.contactName.value), Trim(b.contactPhone.value),
      LowerOpt(TrimOpt(b.contactEmail)), Or(b.deliveryOptions, []), Or(b.organicCertified, false),
      Or(b.images, []), Or(b.status, DefaultStatus), b.sellerId, Or(b.views, 0), Or(b.inquiries, 0),
      now))
  }

  /** The document after `findByIdAndUpdate(id, body)`. */
  function ApplyPatch(p: Product, b: ProductFields): (q: Product)
    ensures b.productName.Some? ==> q.productName == Trim(b.productName.value)
    ensures b.productName.None? ==> q.productName == p.productName
    ensures b.category.Some? ==> q.category == b.category.value
    ensures b.category.None? ==> q.category == p.category
    ensures b.quantity.Some? ==> q.quantity == b.quantity.value
    ensures b.quantity.None? ==> q.quantity == p.quantity
    ensures b.unit.Some? ==> q.unit == b.unit.value
    ensures b.unit.None? ==> q.unit == p.unit
    ensures b.price.Some? ==> q.price == b.price.value
    ensures b.price.None? ==> q.price == p.price
    ensures b.description.Some? ==> q.description == Some(Trim(b.description.value))
    ensures b.description.None? ==> q.description == p.description
    ensures b.location.Some? ==> q.location == Trim(b.location.value)
    ensures b.location.None? ==> q.location == p.location
    ensures b.district.Some? ==> q.district == Trim(b.district.value)
    ensures b.district.None? ==> q.district == p.district
    ensures b.state.Some? ==> q.state == Trim(b.state.value)
    ensures b.state.None? ==> q.state == p.state
    ensures b.pincode.Some? ==> q.pincode == b.pincode.value
    ensures b.pincode.None? ==> q.pincode == p.pincode
    ensures b.contactName.Some? ==> q.contactName == Trim(b.contactName.value)
    ensures b.contactName.None? ==> q.contactName == p.contactName
    ensures b.contactPhone.Some? ==> q.contactPhone == Trim(b.contactPhone.value)
    ensures b.contactPhone.None? ==> q.contactPhone == p.contactPhone
    ensures b.contactEmail.Some? ==> q.contactEmail == Some(ToLower(Trim(b.contactEmail.value)))
    ensures b.contactEmail.None? ==> q.contactEmail == p.contactEmail
    ensures b.deliveryOptions.Some? ==> q.deliveryOptions == b.deliveryOptions.value
    ensures b.deliveryOptions.None? ==> q.deliveryOptions == p.deliveryOptions
    ensures b.organicCertified.Some? ==> q.organicCertified == b.organicCertified.value
    ensures b.organicCertified.None? ==> q.organicCertified == p.organicCertified
    ensures b.images.Some? ==> q.images == b.images.value
    ensures b.images.None? ==> q.images == p.images
    ensures b.status.Some? ==> q.status == b.status.value
    ensures b.status.None? ==> q.status == p.status
    ensures b.sellerId.Some? ==> q.sellerId == b.sellerId
    ensures b.sellerId.None? ==> q.sellerId == p.sellerId
    ensures b.views.Some? ==> q.views == b.views.value
    ensures b.views.None? ==> q.views == p.views
    ensures b.inquiries.Some? ==> q.inquiries == b.inquiries.value
    ensures b.inquiries.None? ==> q.inquiries == p.inquiries
    ensures q.createdAt == p.createdAt
  {
    Product(
      TrimOr(b.productName, p.productName), Or(b.category, p.category), Or(b.quantity, p.quantity),
      Or(b.unit, p.unit), Or(b.price, p.price),
      OrOpt(TrimOpt(b.description), p.description),
      TrimOr(b.location, p.location), TrimOr(b.district, p.district), TrimOr(b.state, p.state),
      Or(b.pincode, p.pincode), TrimOr(b.contactName, p.contactName), TrimOr(b.contactPhone, p.contactPhone),
      OrOpt(LowerOpt(TrimOpt(b.contactEmail)), p.contactEmail),
      Or(b.deliveryOptions, p.deliveryOptions), Or(b.organicCertified, p.organicCertified),
      Or(b.images, p.images), Or(b.status, p.status),
      OrOpt(b.sellerId, p.sellerId),
      Or(b.views, p.views), Or(b.inquiries, p.inquiries), p.createdAt)
  }

  /** The validators of the text paths an update sets. */
  predicate PatchTextValid(b: ProductFields)
  {
    && (b.productName.Some? ==> TextOk(Trim(b.productName.value)))
    && (b.location.Some? ==> TextOk(Trim(b.location.value)))
    && (b.district.Some? ==> TextOk(Trim(b.district.value)))
    && (b.state.Some? ==> TextOk(Trim(b.state.value)))
    && (b.contactName.Some? ==> TextOk(Trim(b.contactName.value)))
    && (b.contactPhone.Some? ==> TextOk(Trim(b.contactPhone.value)))
  }

  /** The validators of the other paths an update sets. */
  predicate PatchOtherValid(b: ProductFields)
  {
    && (b.category.Some? ==> CategoryOk(b.category.value))
    && (b.quantity.Some? ==> AmountOk(b.quantity.value))
    && (b.unit.Some? ==> UnitOk(b.unit.value))
    && (b.price.Some? ==> AmountOk(b.price.value))
    && (b.pincode.Some? ==> PincodeOk(b.pincode.value))
    && (b.deliveryOptions.Some? ==> DeliveryOk(b.deliveryOptions.value))
    && (b.status.Some? ==> StatusOk(b.status.value))
  }

  /** `runValidators`: the validators of the paths the update sets. */
  predicate PatchValid(b: ProductFields)
  {
    PatchTextValid(b) && PatchOtherValid(b)
  }

  /** Update validators on the touched paths decide validity of the whole
      updated document, given a valid starting document. */
  lemma {:induction false} PatchPreservesValid(p: Product, b: ProductFields)
    requires Valid(p)
    ensures PatchValid(b) <==> Valid(ApplyPatch(p, b))
  {
    var q := ApplyPatch(p, b);
    assert TextPathsOk(q) <==> PatchTextValid(b) by { PatchTextPaths(p, b); }
    assert OtherPathsOk(q) <==> PatchOtherValid(b) by { PatchOtherPaths(p, b); }
  }

  /** The text half of `PatchPreservesValid`. */
  lemma {:induction false} PatchTextPaths(p: Product, b: ProductFields)
    requires TextPathsOk(p)
    ensures TextPathsOk(ApplyPatch(p, b)) <==> PatchTextValid(b)
  {
  }

  /** The other half of `PatchPreservesValid`. */
  lemma {:induction false} PatchOtherPaths(p: Product, b: ProductFields)
    requires OtherPathsOk(p)
    ensures OtherPathsOk(ApplyPatch(p, b)) <==> PatchOtherValid(b)
  {
  }
}

=== FILE: routes.dfy ===
/**
 * How the API server resolves a request to a handler: backend/src/app.js
 * mounts the router of backend/src/routes/index.js under "/api", which
 * mounts the auth, farmer, loan and product routers, and then answers
 * the welcome, health and test routes itself. Only the auth and product
 * tables are spelled out; requests for the farmer and loan routers
 * resolve to `Elsewhere`, and anything no route takes reaches the 404
 * handler ("Route not found"). As in Express, the fixed parts of a path
 * match without regard to the case of their letters, and a HEAD request
 * is routed as a GET. A path is split on '/'; query strings and trailing
 * slashes are not part of this model.
 */
module Routes {
  import opened Common

  /** The handlers of authRoutes.js and productRoutes.js, with the `:id`
      segment they were reached with. */
  datatype Endpoint =
    | Register | Login | GetProfile | UpdateProfile | ChangePassword
    | GetAllUsers | DeleteUser(user: string) | ToggleUserStatus(user: string)
    | GetAllProducts | GetProductById(product: string) | CreateProduct
    | UpdateProduct(product: string) | DeleteProduct(product: string)
    | UpdateProductStatus(product: string) | IncrementInquiry(product: string)
    | Welcome | Health | ApiTest
    | Elsewhere
    | NotFound

  const RouteNotFound: string := "Route not found"

  /** A path segment matches a route's literal `w` (written in lower
      case) when it equals it up to the case of ASCII letters. */
  predicate Seg(x: string, w: string)
  {
    ToLower(x) == w
  }

  /** The verb the routers see: Express answers a HEAD request with the
      GET route of the path. */
  function RoutedVerb(verb: string): string
  {
    if verb == "HEAD" then "GET" else verb
  }

  /** The routes of authRoutes.js:7-18, below "/api/auth". */
  function AuthRoute(verb: string, r: seq<string>): Endpoint
  {
    if |r| == 1 && verb == "POST" && Seg(r[0], "register") then Register
    else if |r| == 1 && verb == "POST" && Seg(r[0], "login") then Login
    else if |r| == 1 && verb == "GET" && Seg(r[0], "profile") then GetProfile
    else if |r| == 1 && verb == "PUT" && Seg(r[0], "profile") then UpdateProfile
    else if |r| == 1 && verb == "PUT" && Seg(r[0], "change-password") then ChangePassword
    else if |r| == 1 && verb == "GET" && Seg(r[0], "users") then GetAllUsers
    else if |r| == 2 && verb == "DELETE" && Seg(r[0], "users") && r[1] != "" then DeleteUser(r[1])
    else if |r| == 3 && verb == "PATCH" && Seg(r[0], "users") && r[1] != "" && Seg(r[2], "status") then ToggleUserStatus(r[1])
    else NotFound
  }

  /** The routes of productRoutes.js:14-24, below "/api/products". */
  function ProductRoute(verb: string, r: seq<string>): Endpoint
  {
    if |r| == 0 && verb == "GET" then GetAllProducts
    else if |r| == 0 && verb == "POST" then CreateProduct
    else if |r| == 1 && r[0] != "" && verb == "GET" then GetProductById(r[0])
    else if |r| == 1 && r[0] != "" && verb == "PUT" then UpdateProduct(r[0])
    else if |r| == 1 && r[0] != "" && verb == "DELETE" then DeleteProduct(r[0])
    else if |r| == 2 && r[0] != "" && verb == "PATCH" && Seg(r[1], "status") then UpdateProductStatus(r[0])
    else if |r| == 2 && r[0] != "" && verb == "POST" && Seg(r[1], "inquiry") then IncrementInquiry(r[0])
    else NotFound
  }

  /** The routers mounted under "/api" (routes/index.js:10-13), given the
      segment after "/api" and the rest. */
  function ApiRoute(verb: string, top: string, r: seq<string>): Endpoint
  {
    if Seg(top, "auth") then AuthRoute(verb, r)
    else if Seg(top, "products") then ProductRoute(verb, r)
    else if Seg(top, "farmers") || Seg(top, "loans") then Elsewhere
    else NotFound
  }

  /** The handler a request reaches: the "/api" routers first, then the
      welcome, health and test routes, then the 404 handler. */
  function Route(verb: string, path: string): (e: Endpoint)
    ensures e.ToggleUserStatus? ==> verb == "PATCH" && e.user != "" && '/' !in e.user
    ensures e.UpdateProduct? ==> verb == "PUT" && e.product != "" && '/' !in e.product
    ensures e.UpdateProductStatus? ==> verb == "PATCH" && e.product != "" && '/' !in e.product
    ensures e.Welcome? <==> (verb == "GET" || verb == "HEAD") && path == "/"
    ensures e.Welcome? || e.Health? || e.ApiTest? ==> verb == "GET" || verb == "HEAD"
    ensures !StartsWith(ToLower(path), "/api/") ==> e.NotFound? || e.Welcome? || e.Health?
  {
    var v := RoutedVerb(verb);
    var s := Split(path, '/');
    NotApi(path);
    RootPath(path);
    var api := if |s| >= 3 && s[0] == "" && Seg(s[1], "api") then ApiRoute(v, s[2], s[3..]) else NotFound;
    if !api.NotFound? then api
    else if v == "GET" && |s| == 2 && s[0] == "" && s[1] == "" then Welcome
    else if v == "GET" && |s| == 2 && s[0] == "" && Seg(s[1], "health") then Health
    else if v == "GET" && |s| == 3 && s[0] == "" && Seg(s[1], "api") && Seg(s[2], "test") then ApiTest
    else NotFound
  }

  /** A path whose segments start with "" and, up to case, "api" starts
      with "/api/" once lower-cased. */
  lemma {:induction false} NotApi(path: string)
    ensures var s := Split(path, '/');
            |s| >= 3 && s[0] == "" && Seg(s[1], "api") ==> StartsWith(ToLower(path), "/api/")
  {
    var s := Split(path, '/');
    if |s| >= 3 && s[0] == "" && Seg(s[1], "api") {
      JoinSplit(path, '/');
      assert Join(s, "/") == "" + "/" + Join(s[1..], "/");
      assert Join(s[1..], "/") == s[1] + "/" + Join(s[2..], "/");
      assert path == "/" + s[1] + "/" + Join(s[2..], "/");
      assert |s[1]| == 3;
      var l := ToLower(path);
      assert l[0] == '/' && l[4] == '/';
      assert l[1] == ToLower(s[1])[0] && l[2] == ToLower(s[1])[1] && l[3] == ToLower(s[1])[2];
      assert l[..5] == "/api/";
    }
  }

  /** Exactly "/" splits into two empty segments. */
  lemma {:induction false} RootPath(path: string)
    ensures var s := Split(path, '/');
            |s| == 2 && s[0] == "" && s[1] == "" <==> path == "/"
  {
    var s := Split(path, '/');
    JoinSplit(path, '/');
    if |s| == 2 && s[0] == "" && s[1] == "" {
      assert Join(s, "/") == "" + "/" + Join(s[1..], "/");
      assert s[1..] == [""];
    }
    if path == "/" {
      assert path[1..] == "";
    }
  }

  /** Splitting after a '/'-free first segment. */
  lemma {:induction false} SplitOnSlash(w: string, t: string)
    requires '/' !in w
    ensures Split(w + "/" + t, '/') == [w] + Split(t, '/')
  {
    assert w + "/" + t == w + ['/'] + t;
    SplitAfterWord(w, '/', t);
  }

  /** A decimal id has no '/' in it. */
  lemma {:induction false} IdSegment(id: nat)
    ensures NatToString(id) != "" && '/' !in NatToString(id)
  {
    var n := NatToString(id);
    assert forall k | 0 <= k < |n| :: n[k] != '/';
  }

  /** `PATCH /api/auth/users/:id/status` reaches `toggleUserStatus`, and
      `PUT /api/auth/users/:id` reaches nothing. */
  lemma {:induction false} UserRoutes(id: string)
    requires id != "" && '/' !in id
    ensures Route("PATCH", "/api/auth/users/" + id + "/status") == ToggleUserStatus(id)
    ensures Route("PUT", "/api/auth/users/" + id) == NotFound
  {
    UserStatusPath(id);
    var r := ["users", id, "status"];
    assert (["", "api", "auth"] + r)[3..] == r;
    assert AuthRoute("PATCH", r) == ToggleUserStatus(id);
    UserPath(id);
    var q := ["users", id];
    assert (["", "api", "auth"] + q)[3..] == q;
    assert AuthRoute("PUT", q) == NotFound;
  }

  lemma {:induction false} UserStatusPath(id: string)
    requires id != "" && '/' !in id
    ensures Split("/api/auth/users/" + id + "/status", '/') == ["", "api", "auth"] + ["users", id, "status"]
  {
    UserStatusLiteral(id);
    SplitPair(id, "status");
    SplitUnder3("api", "auth", "users", id + "/" + "status");
  }

  lemma {:induction false} UserStatusLiteral(id: string)
    ensures "/api/auth/users/" + id + "/status"
            == "" + "/" + ("api" + "/" + ("auth" + "/" + ("users" + "/" + (id + "/" + "status"))))
  {
    assert "/api/auth/users/" == "/" + "api" + "/" + "auth" + "/" + "users" + "/";
  }

  lemma {:induction false} UserPath(id: string)
    requires id != "" && '/' !in id
    ensures Split("/api/auth/users/" + id, '/') == ["", "api", "auth"] + ["users", id]
  {
    assert "/api/auth/users/" == "/" + "api" + "/" + "auth" + "/" + "users" + "/";
    assert "/api/auth/users/" + id == "" + "/" + ("api" + "/" + ("auth" + "/" + ("users" + "/" + id)));
    SplitPair("users", id);
    SplitUnder2("api", "auth", "users" + "/" + id);
  }

  /** `w1/…/wn/t` splits into "", the words, and the pieces of `t`. */
  lemma {:induction false} SplitUnder2(w1: string, w2: string, t: string)
    requires '/' !in w1 && '/' !in w2
    ensures Split("" + "/" + (w1 + "/" + (w2 + "/" + t)), '/') == ["", w1, w2] + Split(t, '/')
  {
    SplitOnSlash(w2, t);
    SplitOnSlash(w1, w2 + "/" + t);
    SplitOnSlash("", w1 + "/" + (w2 + "/" + t));
  }

  lemma {:induction false} SplitUnder3(w1: string, w2: string, w3: string, t: string)
    requires '/' !in w1 && '/' !in w2 && '/' !in w3
    ensures Split("" + "/" + (w1 + "/" + (w2 + "/" + (w3 + "/" + t))), '/') == ["", w1, w2, w3] + Split(t, '/')
  {
    SplitOnSlash(w3, t);
    SplitUnder2(w1, w2, w3 + "/" + t);
  }

  /** Two '/'-free segments joined by one '/'. */
  lemma {:induction false} SplitPair(a: string, b: string)
    requires '/' !in a && '/' !in b
    ensures Split(a + "/" + b, '/') == [a, b]
  {
    SplitNoSeparator(b, '/');
    SplitOnSlash(a, b);
  }

  /** `PUT /api/products/:id` reaches `updateProduct` and
      `PATCH /api/products/:id/status` reaches `updateProductStatus`, while
      the same request without the '/' after "/api" reaches nothing. */
  lemma {:induction false} ProductRoutes(id: string)
    requires id != "" && '/' !in id
    ensures Route("PUT", "/api/products/" + id) == UpdateProduct(id)
    ensures Route("PATCH", "/api/products/" + id + "/status") == UpdateProductStatus(id)
    ensures Route("PATCH", "/apiproducts/" + id + "/status") == NotFound
  {
    PutProductRoute(id);
    PatchStatusRoute(id);
    UnslashedStatusPath(id);
    assert !Seg("apiproducts", "api");
  }

  lemma {:induction false} PutProductRoute(id: string)
    requires id != "" && '/' !in id
    ensures Route("PUT", "/api/products/" + id) == UpdateProduct(id)
  {
    ProductPath(id);
    var p := [id];
    assert (["", "api", "products"] + p)[3..] == p;
    assert ProductRoute("PUT", p) == UpdateProduct(id);
  }

  lemma {:induction false} PatchStatusRoute(id: string)
    requires id != "" && '/' !in id
    ensures Route("PATCH", "/api/products/" + id + "/status") == UpdateProductStatus(id)
  {
    ProductStatusPath(id);
    var q := [id, "status"];
    assert (["", "api", "products"] + q)[3..] == q;
    assert ProductRoute("PATCH", q) == UpdateProductStatus(id);
  }

  /** The fixed parts of a path ignore case, as in Express, and a HEAD
      request takes the GET route: `GET /API/products`, `HEAD
      /api/products` and every other spelling of "api" reach the listing. */
  lemma {:induction false} ListingAnyCase(verb: string, top: string)
    requires Seg(top, "api") && (verb == "GET" || verb == "HEAD")
    ensures Route(verb, "/" + top + "/products") == GetAllProducts
  {
    assert '/' !in top by {
      forall k | 0 <= k < |top| ensures top[k] != '/' {
        assert LowerChar(top[k]) == "api"[k];
      }
    }
    var p := "/" + top + "/products";
    assert p == "" + "/" + (top + "/" + "products");
    SplitPair(top, "products");
    SplitOnSlash("", top + "/" + "products");
    var s := Split(p, '/');
    assert s == ["", top, "products"];
    assert Seg(s[2], "products");
    assert s[3..] == [];
  }

  /** `GET /API/products` reaches the listing. */
  lemma {:induction false} UpperCaseApi()
    ensures Route("GET", "/" + "API" + "/products") == GetAllProducts
  {
    assert Seg("API", "api") by {
      assert LowerChar('A') == 'a' && LowerChar('P') == 'p' && LowerChar('I') == 'i';
    }
    ListingAnyCase("GET", "API");
  }

  /** `GET /health` answers outside "/api". */
  lemma {:induction false} HealthRoute()
    ensures Route("GET", "/health") == Health
  {
    assert "/health" == "" + "/" + "health";
    SplitNoSeparator("health", '/');
    SplitOnSlash("", "health");
    HealthSegments("/health");
  }

  lemma {:induction false} HealthSegments(p: string)
    requires Split(p, '/') == ["", "health"]
    ensures Route("GET", p) == Health
  {
    var s := Split(p, '/');
    assert s[1] == "health";
    assert !Seg(s[1], "api");
  }

  lemma {:induction false} ProductPath(id: string)
    requires id != "" && '/' !in id
    ensures Split("/api/products/" + id, '/') == ["", "api", "products"] + [id]
  {
    assert "/api/products/" == "/" + "api" + "/" + "products" + "/";
    assert "/api/products/" + id == "" + "/" + ("api" + "/" + ("products" + "/" + id));
    SplitNoSeparator(id, '/');
    SplitUnder2("api", "products", id);
  }

  lemma {:induction false} ProductStatusPath(id: string)
    requires id != "" && '/' !in id
    ensures Split("/api/products/" + id + "/status", '/') == ["", "api", "products"] + [id, "status"]
  {
    ProductStatusLiteral(id);
    SplitPair(id, "status");
    SplitUnder2("api", "products", id + "/" + "status");
  }

  lemma {:induction false} ProductStatusLiteral(id: string)
    ensures "/api/products/" + id + "/status" == "" + "/" + ("api" + "/" + ("products" + "/" + (id + "/" + "status")))
  {
    assert "/api/products/" == "/" + "api" + "/" + "products" + "/";
  }

  lemma {:induction false} UnslashedStatusPath(id: string)
    requires id != "" && '/' !in id
    ensures Split("/apiproducts/" + id + "/status", '/') == ["", "apiproducts", id, "status"]
  {
    assert "/apiproducts/" == "/" + "apiproducts" + "/";
    assert "/apiproducts/" + id + "/status" == "" + "/" + ("apiproducts" + "/" + (id + "/" + "status"));
    SplitPair(id, "status");
    SplitOnSlash("apiproducts", id + "/" + "status");
    SplitOnSlash("", "apiproducts" + "/" + (id + "/" + "status"));
  }
}

=== FILE: sell_form.dfy ===
/**
 * The three-step listing form of the sell page (frontend/app/sell/page.jsx):
 * the per-step validators, the whole-form check run on submit, step
 * navigation, the delivery-option toggle and the image list.
 */
module SellForm {
  import opened Common

  /** A numeric text input: what was typed, and what `Number` reads from it
      (`None` for NaN). */
  datatype NumberInput = NumberInput(text: string, value: Option<real>)

  datatype Listing = Listing(
    productName: string, category: string, quantity: NumberInput, unit: string,
    price: NumberInput, description: string, location: string, district: string,
    state: string, pincode: string, contactName: string, contactPhone: string,
    contactEmail: string, deliveryOptions: seq<string>, organicCertified: bool,
    images: seq<string>)

  /** The checked fields, one per `errors.push` of the validators. */
  datatype Field =
    | ProductName | Category | Quantity | Price
    | Location | District | State | Pincode
    | ContactName | ContactPhone | Delivery

  /** The name a failing field is reported under. */
  function Label(x: Field): string
  {
    match x
    case ProductName => "Product Name"
    case Category => "Category"
    case Quantity => "Quantity (must be greater than 0)"
    case Price => "Price (must be greater than 0)"
    case Location => "Farm/Village Name"
    case District => "District"
    case State => "State"
    case Pincode => "Pincode (must be 6 digits)"
    case ContactName => "Contact Name"
    case ContactPhone => "Phone Number"
    case Delivery => "at least one Delivery Option"
  }

  lemma {:induction false} LabelsDistinct(x: Field, y: Field)
    ensures Label(x) == Label(y) <==> x == y
  {
    if x != y {
      match x
      case ProductName => assert Label(x)[1] == 'r';
      case Category => assert Label(x)[0] == 'C';
      case District => assert Label(x)[0] == 'D';
      case ContactName => assert Label(x)[0] == 'C';
      case ContactPhone => assert Label(x)[1] == 'h';
      case _ =>
    }
  }

  /** `!text || Number(text) <= 0`. A text that reads as NaN is not
      reported: NaN <= 0 is false. */
  predicate NotPositive(n: NumberInput)
  {
    n.text == "" || (n.value.Some? && n.value.value <= 0.0)
  }

  predicate Blank(s: string) { Trim(s) == "" }

  predicate Fails(f: Listing, x: Field)
  {
    match x
    case ProductName => Blank(f.productName)
    case Category => f.category == ""
    case Quantity => NotPositive(f.quantity)
    case Price => NotPositive(f.price)
    case Location => Blank(f.location)
    case District => Blank(f.district)
    case State => Blank(f.state)
    case Pincode => Blank(f.pincode) || !DigitsOfLength(Trim(f.pincode), 6)
    case ContactName => Blank(f.contactName)
    case ContactPhone => Blank(f.contactPhone)
    case Delivery => |f.deliveryOptions| == 0
  }

  /** The fields each step checks, in the order it checks them. Any other
      step checks nothing. */
  function StepFields(step: int): seq<Field>
  {
    if step == 1 then [ProductName, Category, Quantity, Price]
    else if step == 2 then [Location, District, State, Pincode]
    else if step == 3 then [ContactName, ContactPhone, Delivery]
    else []
  }

  /** The labels of the failing fields among `fields`, in order. */
  function Errors(f: Listing, fields: seq<Field>): (errs: seq<string>)
    ensures |errs| <= |fields|
    ensures errs == [] <==> forall k | 0 <= k < |fields| :: !Fails(f, fields[k])
  {
    if fields == [] then []
    else (if Fails(f, fields[0]) then [Label(fields[0])] else []) + Errors(f, fields[1..])
  }

  /** A field's label is reported exactly when that field fails. */
  lemma {:induction false} ErrorsNameFailures(f: Listing, fields: seq<Field>, x: Field)
    requires x in fields
    ensures Label(x) in Errors(f, fields) <==> Fails(f, x)
    decreases |fields|
  {
    if x == fields[0] {
      if x in fields[1..] {
        ErrorsNameFailures(f, fields[1..], x);
      } else {
        forall y | y in fields[1..] && Fails(f, y) ensures Label(y) != Label(x) {
          LabelsDistinct(x, y);
        }
        LabelsNotListed(f, fields[1..], x);
      }
    } else {
      LabelsDistinct(x, fields[0]);
      ErrorsNameFailures(f, fields[1..], x);
    }
  }

  /** A field that is not checked is never reported. */
  lemma {:induction false} LabelsNotListed(f: Listing, fields: seq<Field>, x: Field)
    requires x !in fields
    ensures Label(x) !in Errors(f, fields)
    decreases |fields|
  {
    if fields != [] {
      LabelsDistinct(x, fields[0]);
      LabelsNotListed(f, fields[1..], x);
    }
  }

  lemma {:induction false} ErrorsAppend(f: Listing, a: seq<Field>, b: seq<Field>)
    ensures Errors(f, a + b) == Errors(f, a) + Errors(f, b)
    decreases |a|
  {
    if a != [] {
      assert (a + b)[0] == a[0] && (a + b)[1..] == a[1..] + b;
      ErrorsAppend(f, a[1..], b);
    } else {
      assert a + b == b;
    }
  }

  /** `validateStep`: "" when every field of the step passes, otherwise
      the failing labels after "Please fill: ". */
  function ValidateStep(f: Listing, step: int): (msg: string)
    ensures msg == "" <==> forall x | x in StepFields(step) :: !Fails(f, x)
    ensures msg != "" ==> msg == "Please fill: " + Join(Errors(f, StepFields(step)), ", ")
    ensures step < 1 || step > 3 ==> msg == ""
  {
    var errs := Errors(f, StepFields(step));
    if errs == [] then "" else "Please fill: " + Join(errs, ", ")
  }

  /** `validateAll`: the three step checks, concatenated in step order. */
  function ValidateAll(f: Listing): (errs: seq<string>)
    ensures errs == Errors(f, StepFields(1)) + Errors(f, StepFields(2)) + Errors(f, StepFields(3))
    ensures errs == [] <==> ValidateStep(f, 1) == "" && ValidateStep(f, 2) == "" && ValidateStep(f, 3) == ""
    ensures forall x :: Label(x) in errs <==> Fails(f, x)
  {
    var all := StepFields(1) + StepFields(2) + StepFields(3);
    ErrorsAppend(f, StepFields(1), StepFields(2));
    ErrorsAppend(f, StepFields(1) + StepFields(2), StepFields(3));
    AllFieldsNamed(f, all);
    Errors(f, all)
  }

  lemma {:induction false} AllFieldsNamed(f: Listing, all: seq<Field>)
    requires all == StepFields(1) + StepFields(2) + StepFields(3)
    ensures forall x :: Label(x) in Errors(f, all) <==> Fails(f, x)
  {
    forall x ensures Label(x) in Errors(f, all) <==> Fails(f, x) {
      assert x in all by {
        match x
        case ProductName => assert all[0] == x;
        case Category => assert all[1] == x;
        case Quantity => assert all[2] == x;
        case Price => assert all[3] == x;
        case Location => assert all[4] == x;
        case District => assert all[5] == x;
        case State => assert all[6] == x;
        case Pincode => assert all[7] == x;
        case ContactName => assert all[8] == x;
        case ContactPhone => assert all[9] == x;
        case Delivery => assert all[10] == x;
      }
      ErrorsNameFailures(f, all, x);
    }
  }

  /** `nextStep`: advance exactly when the step validates; otherwise stay
      and alert the message. */
  datatype Move = Move(step: int, alert: Option<string>)

  function NextStep(f: Listing, step: int): (m: Move)
    ensures m.step == step + 1 <==> ValidateStep(f, step) == ""
    ensures m.step == step <==> m.alert.Some?
    ensures m.alert.Some? ==> m.alert.value == ValidateStep(f, step) != ""
  {
    var error := ValidateStep(f, step);
    if error != "" then Move(step, Some(error)) else Move(step + 1, None)
  }

  /** `handleSubmit`'s gate: the alert that blocks the submission, or
      `None` when the form is sent. */
  function SubmitGate(f: Listing): (alert: Option<string>)
    ensures alert.None? <==> forall x :: !Fails(f, x)
    ensures alert.Some? ==> alert.value == "Please fill all required fields: " + Join(ValidateAll(f), ", ")
  {
    var errs := ValidateAll(f);
    if |errs| > 0 then Some("Please fill all required fields: " + Join(errs, ", ")) else None
  }

  /** A non-numeric quantity text is not reported by the step-1 check. */
  lemma {:induction false} NonNumericQuantityPasses(f: Listing)
    requires f.quantity.text != "" && f.quantity.value.None?
    ensures Label(Quantity) !in ValidateAll(f)
  {
  }

  /** `handleDeliveryToggle`: remove the id if present, otherwise append it. */
  function ToggleDelivery(opts: seq<string>, id: string): (r: seq<string>)
    ensures id in r <==> id !in opts
    ensures forall y | y != id :: y in r <==> y in opts
    ensures id !in opts ==> r == opts + [id]
  {
    if id in opts then Filter(opts, y => y != id) else opts + [id]
  }

  /** Toggling an absent option on and off again restores the list. */
  lemma {:induction false} ToggleTwice(opts: seq<string>, id: string)
    requires id !in opts
    ensures ToggleDelivery(ToggleDelivery(opts, id), id) == opts
  {
    var p := (y: string) => y != id;
    FilterAppend(opts, [id], p);
    FilterKeepsAll(opts, p);
  }

  /** `removeImage`: keep every image whose position differs from `index`. */
  method RemoveImage(images: seq<string>, index: int) returns (r: seq<string>)
    ensures 0 <= index < |images| ==> r == images[..index] + images[index + 1..]
    ensures !(0 <= index < |images|) ==> r == images
  {
    r := [];
    var i := 0;
    while i < |images|
      invariant 0 <= i <= |images|
      invariant 0 <= index < i ==> r == images[..index] + images[index + 1..i]
      invariant !(0 <= index < i) ==> r == images[..i]
    {
      if i != index {
        r := r + [images[i]];
      }
      i := i + 1;
    }
  }

  /** `handleImageUpload`: at most 5 − (current count) of the chosen files
      are read and appended. */
  function AddImages(images: seq<string>, files: seq<string>): (r: seq<string>)
    ensures |images| <= |r| <= |images| + |files|
    ensures |images| <= 5 ==> |r| <= 5
    ensures |images| <= 5 ==> r == images + files[..|r| - |images|]
    ensures |images| <= 5 && |images| + |files| <= 5 ==> r == images + files
  {
    images + Take(files, 5 - |images|)
  }
}

=== FILE: soil_analysis.dfy ===
/**
 * The soil-analysis route (frontend/app/api/soil-analysis/route.js): the
 * required-field check, the early exit on an image the model says shows a
 * different crop, and the normalisation of the model's JSON reply into
 * the soil report the client renders. The two model calls are inputs: the
 * parsed image verdict, and how the analysis call ended.
 */
module SoilAnalysis {
  import opened Common

  datatype SoilRequest = SoilRequest(
    cropName: Option<string>, soilType: Option<string>, soilPH: Option<string>,
    symptoms: Option<string>, location: Option<string>, imageData: Option<string>)

  /** The request body: parsed JSON, or a body whose parse threw. */
  datatype Body = Json(req: SoilRequest) | NotJson(error: string)

  /** A JSON value as `JSON.parse` yields it, with `Absent` for a missing
      field (`undefined`); arrays and objects are `Composite`. */
  datatype JsonValue = Absent | Null | Bool(b: bool) | Number(x: real) | Text(s: string) | Composite

  /** JavaScript truthiness of a parsed value. */
  predicate JsTruthy(v: JsonValue)
  {
    match v
    case Absent => false
    case Null => false
    case Bool(b) => b
    case Number(x) => x != 0.0
    case Text(s) => s != ""
    case Composite => true
  }

  /** The parsed image verdict. `matchesClaimed` is whatever the model put
      in `matches_claimed`, a boolean or not ("uncertain", "no", ...): only
      a literal `false` stops the route. */
  datatype ImageValidation = ImageValidation(
    detectedCrop: Option<string>, matchesClaimed: JsonValue,
    confidence: Option<int>, warning: Option<string>)

  /** The fields of the model's analysis JSON, as the route reads them:
      integers as `parseInt` yields them and `None` for NaN, `pH` as
      `parseFloat` yields it, `recommendations` as `None` when it is not an
      array. */
  datatype Analysis = Analysis(
    soilHealth: Option<int>, pH: Option<real>, nitrogen: Option<int>,
    phosphorus: Option<int>, potassium: Option<int>,
    recommendations: Option<seq<string>>, analysis: Option<string>)

  /** How the analysis call ended: a reply with a parsable JSON object, a
      reply without one, or a thrown error with its message. */
  datatype ModelReply = Parsed(data: Analysis) | NoJson | Threw(message: string)

  datatype SoilReport = SoilReport(
    soilHealth: int, pH: real, nitrogen: int, phosphorus: int, potassium: int,
    recommendations: seq<string>, crops: string, location: string,
    analysis: string, imageValidation: Option<ImageValidation>)

  /** The route's answer: a report (200), the mismatch notice (400), or a
      plain error message with its status. */
  datatype SoilReply =
    | Report(report: SoilReport)
    | Mismatched(detectedCrop: Option<string>, claimedCrop: string, confidence: Option<int>)
    | Refused(code: nat, message: string)

  const MissingFields := "Missing required fields: cropName, symptoms, location"
  const ServerError := "Internal server error: "

  /** The list used when the model's `recommendations` is not an array. */
  const DefaultRecommendations: seq<string> :=
    ["Monitor soil regularly", "Maintain proper irrigation", "Apply balanced fertilizer", "Check pH levels"]

  /** The list of the fixed report sent when the reply holds no JSON. */
  const FallbackRecommendations: seq<string> :=
    ["Apply balanced NPK fertilizer", "Maintain proper soil moisture", "Ensure adequate drainage",
     "Monitor soil pH levels regularly"]

  const FallbackAnalysis := "Analysis completed with default values due to processing"

  predicate HasRequired(req: SoilRequest)
  {
    Truthy(req.cropName) && Truthy(req.symptoms) && Truthy(req.location)
  }

  /** An image was sent and the model's verdict says it shows another crop. */
  predicate Mismatch(req: SoilRequest, verdict: Option<ImageValidation>)
  {
    Truthy(req.imageData) && verdict.Some? && verdict.value.matchesClaimed == Bool(false)
  }

  /** `parseInt(x) || d`: NaN and 0 are falsy. */
  function IntOr(v: Option<int>, d: int): (r: int)
    ensures v.Some? && v.value != 0 ==> r == v.value
    ensures v.None? || v.value == 0 ==> r == d
  {
    if v.Some? && v.value != 0 then v.value else d
  }

  /** `Math.min(100, Math.max(0, parseInt(x) || 75))`. */
  function SoilHealth(v: Option<int>): (h: int)
    ensures 0 <= h <= 100
    ensures v.None? || v == Some(0) ==> h == 75
    ensures v.Some? && 0 < v.value <= 100 ==> h == v.value
    ensures v.Some? && v.value > 100 ==> h == 100
    ensures h == 0 <==> v.Some? && v.value < 0
  {
    var n := IntOr(v, 75);
    if n < 0 then 0 else if n > 100 then 100 else n
  }

  /** `Array.isArray(r) ? r.slice(0, 5) : [four defaults]`. */
  function Recommendations(recs: Option<seq<string>>): (r: seq<string>)
    ensures |r| <= 5
    ensures recs.Some? ==> |r| == (if |recs.value| < 5 then |recs.value| else 5)
    ensures recs.Some? ==> r <= recs.value
    ensures recs.None? ==> r == DefaultRecommendations && |r| == 4
  {
    if recs.Some? then Take(recs.value, 5) else DefaultRecommendations
  }

  /** The `validatedData` object built from a parsed reply. */
  function Normalise(a: Analysis, crops: string, location: string, iv: Option<ImageValidation>): (r: SoilReport)
    ensures 0 <= r.soilHealth <= 100 && |r.recommendations| <= 5
    ensures r.crops == crops && r.location == location && r.imageValidation == iv
    ensures r.nitrogen != 0 && r.phosphorus != 0 && r.potassium != 0 && r.pH != 0.0 && r.analysis != ""
    ensures r.soilHealth == SoilHealth(a.soilHealth)
    ensures r.nitrogen == IntOr(a.nitrogen, 150) && r.phosphorus == IntOr(a.phosphorus, 60)
    ensures r.potassium == IntOr(a.potassium, 200)
    ensures a.pH.Some? && a.pH.value != 0.0 ==> r.pH == a.pH.value
    ensures a.pH.None? || a.pH == Some(0.0) ==> r.pH == 6.8
    ensures r.recommendations == Recommendations(a.recommendations)
    ensures r.analysis == OrElse(a.analysis, "Soil analysis completed")
  {
    SoilReport(
      SoilHealth(a.soilHealth),
      if a.pH.Some? && a.pH.value != 0.0 then a.pH.value else 6.8,
      IntOr(a.nitrogen, 150), IntOr(a.phosphorus, 60), IntOr(a.potassium, 200),
      Recommendations(a.recommendations), crops, location,
      OrElse(a.analysis, "Soil analysis completed"), iv)
  }

  /** A report read back as an analysis reply. */
  function AsAnalysis(r: SoilReport): Analysis
  {
    Analysis(Some(r.soilHealth), Some(r.pH), Some(r.nitrogen), Some(r.phosphorus), Some(r.potassium),
             Some(r.recommendations), Some(r.analysis))
  }

  /** Normalising is idempotent, except that a soil health clamped to 0
      (from a negative value) reads as missing the second time and
      becomes 75. */
  lemma {:induction false} NormaliseIdempotent(a: Analysis, crops: string, location: string, iv: Option<ImageValidation>)
    ensures var r := Normalise(a, crops, location, iv);
            var r2 := Normalise(AsAnalysis(r), crops, location, iv);
            r2 == (if r.soilHealth == 0 then r.(soilHealth := 75) else r)
  {
    var r := Normalise(a, crops, location, iv);
    assert Take(r.recommendations, 5) == r.recommendations;
  }

  /** The fixed report sent when the model's reply holds no JSON object. */
  function DefaultReport(crops: string, location: string): (r: SoilReport)
    ensures r.soilHealth == 70 && r.recommendations == FallbackRecommendations
    ensures r.pH == 6.8 && r.nitrogen == 150 && r.phosphorus == 60 && r.potassium == 200
    ensures r.analysis == FallbackAnalysis
    ensures r.crops == crops && r.location == location && r.imageValidation.None?
  {
    SoilReport(70, 6.8, 150, 60, 200, FallbackRecommendations, crops, location, FallbackAnalysis, None)
  }

  /** The `POST` handler. */
  function AnalyzeSoil(body: Body, verdict: Option<ImageValidation>, reply: ModelReply): (r: SoilReply)
    ensures body.NotJson? ==> r == Refused(500, ServerError + body.error)
    ensures body.Json? && !HasRequired(body.req) ==> r == Refused(400, MissingFields)
    ensures r.Mismatched? <==> body.Json? && HasRequired(body.req) && Mismatch(body.req, verdict)
    ensures r.Mismatched? ==>
              && r.claimedCrop == body.req.cropName.value
              && r.detectedCrop == verdict.value.detectedCrop
              && r.confidence == verdict.value.confidence
    ensures r.Report? ==> && body.Json? && HasRequired(body.req)
                          && 0 <= r.report.soilHealth <= 100
                          && |r.report.recommendations| <= 5
                          && r.report.crops == body.req.cropName.value
                          && r.report.location == body.req.location.value
    ensures r.Report? <==> body.Json? && HasRequired(body.req) && !Mismatch(body.req, verdict) && !reply.Threw?
    ensures r.Report? && reply.NoJson? ==>
              r.report == DefaultReport(body.req.cropName.value, body.req.location.value)
    ensures r.Report? && reply.Parsed? ==>
              r.report == Normalise(reply.data, body.req.cropName.value, body.req.location.value,
                                    if Truthy(body.req.imageData) then verdict else None)
    ensures reply.Threw? && body.Json? && HasRequired(body.req) && !Mismatch(body.req, verdict) ==>
              r == Refused(500, ServerError + reply.message)
    ensures r.Report? && reply.Parsed? ==>
              r.report.imageValidation == (if Truthy(body.req.imageData) then verdict else None)
  {
    match body
    case NotJson(e) => Refused(500, ServerError + e)
    case Json(req) =>
      if !HasRequired(req) then Refused(400, MissingFields)
      else if Mismatch(req, verdict) then
        Mismatched(verdict.value.detectedCrop, req.cropName.value, verdict.value.confidence)
      else
        var iv := if Truthy(req.imageData) then verdict else None;
        match reply
        case Threw(m) => Refused(500, ServerError + m)
        case NoJson => Report(DefaultReport(req.cropName.value, req.location.value))
        case Parsed(a) => Report(Normalise(a, req.cropName.value, req.location.value, iv))
  }

  /** The mismatch exit comes before the analysis call: whatever that call
      would have answered, the reply is the same. */
  lemma {:induction false} MismatchStopsBeforeAnalysis(req: SoilRequest, verdict: Option<ImageValidation>, r1: ModelReply, r2: ModelReply)
    requires HasRequired(req) && Mismatch(req, verdict)
    ensures AnalyzeSoil(Json(req), verdict, r1) == AnalyzeSoil(Json(req), verdict, r2)
    ensures AnalyzeSoil(Json(req), verdict, r1).Mismatched?
  {
  }

  /** Without an image the verdict plays no part. */
  lemma {:induction false} NoImageIgnoresVerdict(req: SoilRequest, v1: Option<ImageValidation>, v2: Option<ImageValidation>, reply: ModelReply)
    requires !Truthy(req.imageData)
    ensures AnalyzeSoil(Json(req), v1, reply) == AnalyzeSoil(Json(req), v2, reply)
  {
  }
}

=== FILE: soil_report.dfy ===
/**
 * The soil report card (frontend/components/SoilHealthReport.jsx): the
 * image-verdict banner, the Hindi translation of the recommendations with
 * its cache, and reading the recommendations aloud with the spoken word
 * highlighted. The language model and the speech engine are inputs: the
 * translated text, and the character offsets the engine reports.
 */
module SoilReport {
  import opened Common
  import SA = SoilAnalysis

  // -------------------------------------------------- image verdict banner

  datatype Banner = MismatchBanner | VerifiedBanner | NoBanner

  /** The card tests `imageValidation.matches` by truthiness: a verdict
      shows the verified banner when its flag is truthy, whatever its type,
      and the mismatch banner otherwise. */
  function BannerFor(iv: Option<SA.ImageValidation>): (b: Banner)
    ensures b == NoBanner <==> iv.None?
    ensures b == VerifiedBanner <==> iv.Some? && SA.JsTruthy(iv.value.matchesClaimed)
    ensures b == MismatchBanner <==> iv.Some? && !SA.JsTruthy(iv.value.matchesClaimed)
  {
    if iv.None? then NoBanner
    else if SA.JsTruthy(iv.value.matchesClaimed) then VerifiedBanner
    else MismatchBanner
  }

  /** For a request with an image that the route answers with a report,
      the banner is decided by the verdict's flag alone: verified exactly
      when it is truthy, mismatch exactly when it is falsy but not the
      literal `false` (absent, `null`, `0` or `""`), since `false` never
      reaches the card. */
  lemma {:induction false} BannerOfReport(req: SA.SoilRequest, v: SA.ImageValidation, a: SA.Analysis)
    requires SA.HasRequired(req) && Truthy(req.imageData)
    ensures var r := SA.AnalyzeSoil(SA.Json(req), Some(v), SA.Parsed(a));
            && (r.Report? <==> v.matchesClaimed != SA.Bool(false))
            && (r.Report? ==> (BannerFor(r.report.imageValidation) == VerifiedBanner <==> SA.JsTruthy(v.matchesClaimed)))
            && (r.Report? ==> (BannerFor(r.report.imageValidation) == MismatchBanner <==>
                                 v.matchesClaimed in {SA.Absent, SA.Null, SA.Number(0.0), SA.Text("")}))
  {
    var r := SA.AnalyzeSoil(SA.Json(req), Some(v), SA.Parsed(a));
    if r.Report? {
      assert r.report.imageValidation == Some(v);
    }
  }

  /** A verdict of "uncertain" or "no" passes the route, which stops only
      on `false`, and the card then shows "Image verified". */
  lemma {:induction false} HedgedVerdictVerified(req: SA.SoilRequest, v: SA.ImageValidation, a: SA.Analysis)
    requires SA.HasRequired(req) && Truthy(req.imageData)
    requires v.matchesClaimed == SA.Text("uncertain") || v.matchesClaimed == SA.Text("no")
    ensures var r := SA.AnalyzeSoil(SA.Json(req), Some(v), SA.Parsed(a));
            r.Report? && BannerFor(r.report.imageValidation) == VerifiedBanner
  {
    BannerOfReport(req, v, a);
  }

  /** A report the route let through shows the mismatch banner only when
      the verdict's flag is falsy without being `false`: absent, `null`,
      `0` or `""`. */
  lemma {:induction false} MismatchBannerMeansNoVerdict(body: SA.Body, verdict: Option<SA.ImageValidation>, a: SA.Analysis)
    requires SA.AnalyzeSoil(body, verdict, SA.Parsed(a)).Report?
    requires BannerFor(SA.AnalyzeSoil(body, verdict, SA.Parsed(a)).report.imageValidation) == MismatchBanner
    ensures verdict.Some? && verdict.value.matchesClaimed in {SA.Absent, SA.Null, SA.Number(0.0), SA.Text("")}
  {
    var r := SA.AnalyzeSoil(body, verdict, SA.Parsed(a));
    var req := body.req;
    assert !SA.Mismatch(req, verdict);
    assert r.report.imageValidation == (if Truthy(req.imageData) then verdict else None);
    assert r.report.imageValidation.Some?;
    assert Truthy(req.imageData);
  }

  // -------------------------------------------- translated recommendations

  predicate IsBullet(c: char)
  {
    c == '-' || c == '*' || c == '•'
  }

  /** `line.replace(/^[-*•]\s*\/, '').trim()`: one bullet at the very start
      goes with the white space after it, then the line is trimmed. */
  function CleanLine(line: string): (r: string)
    ensures |r| <= |line|
    ensures |r| > 0 ==> !IsSpace(r[0]) && !IsSpace(r[|r| - 1])
  {
    if |line| > 0 && IsBullet(line[0]) then Trim(TrimStart(line[1..])) else Trim(line)
  }

  /** Non-empty, with no white space at either end. */
  predicate Clean(r: string)
  {
    r != "" && !IsSpace(r[0]) && !IsSpace(r[|r| - 1])
  }

  /** The recommendations read back from the translation, one per line:
      blank lines dropped, each line cleaned, and lines left empty by the
      cleaning dropped. */
  function HindiRecs(lines: seq<string>): (recs: seq<string>)
    ensures |recs| <= |lines|
    ensures forall k | 0 <= k < |recs| :: Clean(recs[k])
  {
    if |lines| == 0 then []
    else KeptLine(lines[0]) + HindiRecs(lines[1..])
  }

  /** What one line of the translation contributes: nothing when it is
      blank or the cleaning empties it, otherwise its cleaned form. */
  function KeptLine(line: string): (r: seq<string>)
    ensures |r| <= 1
    ensures forall k | 0 <= k < |r| :: Clean(r[k])
  {
    var c := CleanLine(line);
    if Trim(line) != "" && c != "" then [c] else []
  }

  /** Trimming leaves a string alone when neither end is white space. */
  lemma {:induction false} TrimUntouched(s: string)
    requires |s| > 0 && !IsSpace(s[0]) && !IsSpace(s[|s| - 1])
    ensures Trim(s) == s
  {
    assert TrimStart(s) == s;
  }

  /** Every recommendation is the cleaned form of a line, in order: lines
      already clean come through unchanged. */
  lemma {:induction false} CleanLinesKept(lines: seq<string>)
    requires forall k | 0 <= k < |lines| ::
               lines[k] != "" && !IsBullet(lines[k][0]) && !IsSpace(lines[k][0]) && !IsSpace(lines[k][|lines[k]| - 1])
    ensures HindiRecs(lines) == lines
    decreases |lines|
  {
    if |lines| > 0 {
      CleanLineKept(lines[0]);
      CleanLinesKept(lines[1..]);
      assert lines == [lines[0]] + lines[1..];
    }
  }

  lemma {:induction false} CleanLineKept(line: string)
    requires line != "" && !IsBullet(line[0]) && !IsSpace(line[0]) && !IsSpace(line[|line| - 1])
    ensures KeptLine(line) == [line]
  {
    TrimUntouched(line);
  }

  /** A bullet and the spaces after it are removed, but only one bullet:
      a doubled bullet keeps the second. */
  lemma {:induction false} BulletDropped(b: char, x: string)
    requires IsBullet(b) && |x| > 0 && !IsSpace(x[0]) && !IsSpace(x[|x| - 1])
    ensures CleanLine([b] + " " + x) == x
    ensures IsBullet(x[0]) ==> CleanLine([b] + " " + x)[0] == x[0]
  {
    var line := [b] + " " + x;
    assert line[1..] == " " + x;
    assert TrimStart(" " + x) == TrimStart(x) by {
      assert (" " + x)[1..] == x;
    }
    TrimUntouched(x);
  }

  /** The card's language and the cached translation. */
  datatype Lang = Lang(isHindi: bool, translated: seq<string>)

  /** What the translation request returned: a candidate's text (possibly
      missing), or an error. */
  datatype TranslationReply = Translated(text: Option<string>) | TranslationFailed

  const TranslationAlert := "Translation failed. Please try again."

  /** The card after a translation attempt, whether a request went out,
      and the alert raised. */
  datatype Attempt = Attempt(lang: Lang, requested: bool, alert: Option<string>)

  /** `translateToHindi`: a cached translation is reused; otherwise the
      reply's lines become the Hindi recommendations, and a failure only
      raises an alert. */
  function TranslateToHindi(l: Lang, reply: TranslationReply): (r: Attempt)
    ensures r.requested <==> |l.translated| == 0
    ensures |l.translated| > 0 ==> r == Attempt(l.(isHindi := true), false, None)
    ensures r.alert.Some? <==> |l.translated| == 0 && reply.TranslationFailed?
    ensures r.alert.Some? ==> r.lang == l && r.alert == Some(TranslationAlert)
    ensures r.requested && reply.Translated? ==>
              r.lang == Lang(true, HindiRecs(Split(OrElse(reply.text, ""), '\n')))
  {
    if |l.translated| > 0 then Attempt(l.(isHindi := true), false, None)
    else
      match reply
      case Translated(t) => Attempt(Lang(true, HindiRecs(Split(OrElse(t, ""), '\n'))), true, None)
      case TranslationFailed => Attempt(l, true, Some(TranslationAlert))
  }

  /** `toggleLanguage` (speech is stopped first, see `Stopped`): back to
      English, or to Hindi by way of `TranslateToHindi`. */
  function ToggleLanguage(l: Lang, reply: TranslationReply): (r: Attempt)
    ensures l.isHindi ==> r == Attempt(l.(isHindi := false), false, None)
    ensures !l.isHindi ==> r == TranslateToHindi(l, reply)
    ensures r.requested <==> !l.isHindi && |l.translated| == 0
  {
    if l.isHindi then Attempt(l.(isHindi := false), false, None)
    else TranslateToHindi(l, reply)
  }

  /** The recommendations shown: the translation in Hindi, the report's
      own list otherwise. */
  function Display(l: Lang, recs: Option<seq<string>>): (r: Option<seq<string>>)
    ensures l.isHindi ==> r == Some(l.translated)
    ensures !l.isHindi ==> r == recs
  {
    if l.isHindi then Some(l.translated) else recs
  }

  /** A translation with at least one line is asked for once: switching
      back and forth afterwards shows the cached lines. */
  lemma {:induction false} TranslationCached(recs: Option<seq<string>>, text: string, r2: TranslationReply, r3: TranslationReply)
    requires |HindiRecs(Split(text, '\n'))| > 0
    ensures var a1 := ToggleLanguage(Lang(false, []), Translated(Some(text)));
            var a2 := ToggleLanguage(a1.lang, r2);
            var a3 := ToggleLanguage(a2.lang, r3);
            && a1.requested && !a2.requested && !a3.requested
            && a3.lang == a1.lang
            && Display(a3.lang, recs) == Some(HindiRecs(Split(text, '\n')))
  {
  }

  /** An empty translation is not cached: the card shows an empty Hindi
      list, and the next switch to Hindi asks again. */
  lemma {:induction false} EmptyTranslationRetried(r2: TranslationReply, r3: TranslationReply)
    ensures var a1 := ToggleLanguage(Lang(false, []), Translated(None));
            var a2 := ToggleLanguage(a1.lang, r2);
            && Display(a1.lang, None) == Some([])
            && !a2.requested && ToggleLanguage(a2.lang, r3).requested
  {
    assert Split("", '\n') == [""];
    assert HindiRecs([""]) == [] by {
      assert Trim("") == "";
    }
  }

  // --------------------------------------------------------- reading aloud

  /** The speech part of the card: whether it is speaking, the highlighted
      word (-1 for none), and the words on show. */
  datatype Speech = Speech(speaking: bool, wordIndex: int, spoken: seq<string>)

  /** `stopSpeaking`. */
  const Stopped := Speech(false, -1, [])

  /** `speakRecommendations`: the shown recommendations joined with
      spaces; nothing is spoken when that text is empty, otherwise its
      space-separated words are put on show with none highlighted. */
  function Speak(shown: Option<seq<string>>): (r: (Speech, Option<string>))
    ensures var text := Join(if shown.Some? then shown.value else [], " ");
            && (text == "" ==> r == (Stopped, None))
            && (text != "" ==> r == (Speech(true, -1, Split(text, ' ')), Some(text)))
  {
    var text := Join(if shown.Some? then shown.value else [], " ");
    if text == "" then (Stopped, None) else (Speech(true, -1, Split(text, ' ')), Some(text))
  }

  /** With nothing to show, or only empty recommendations, the card stays
      silent. */
  lemma {:induction false} NothingToSay(n: nat)
    ensures Speak(None) == (Stopped, None)
    ensures Speak(Some([])) == (Stopped, None)
    ensures Speak(Some([""])) == (Stopped, None)
  {
  }

  /** Where word `i` starts, in characters, when the words are joined
      with single spaces: each earlier word and its space. */
  function CharOffset(words: seq<string>, i: nat): (n: nat)
    requires i <= |words|
    ensures n >= i
  {
    if i == 0 then 0 else CharOffset(words, i - 1) + |words[i - 1]| + 1
  }

  /** The character offsets of the words after the first, counted from
      the second. */
  lemma {:induction false} CharOffsetShift(words: seq<string>, i: nat)
    requires 0 < i <= |words|
    ensures CharOffset(words, i) == |words[0]| + 1 + CharOffset(words[1..], i - 1)
    decreases i
  {
    if i > 1 {
      CharOffsetShift(words, i - 1);
      assert words[i - 1] == words[1..][i - 2];
    }
  }

  /** `w` sits at `o` in `t`, followed by a space unless it is the last
      word. */
  predicate WordAt(t: string, o: nat, w: string, last: bool)
  {
    && o + |w| <= |t| && t[o..o + |w|] == w
    && (!last ==> o + |w| < |t| && t[o + |w|] == ' ')
  }

  /** Prefixing the text moves every word by the prefix's length. */
  lemma {:induction false} WordAtShift(a: string, t: string, o: nat, w: string, last: bool)
    requires WordAt(t, o, w, last)
    ensures WordAt(a + t, |a| + o, w, last)
  {
    assert (a + t)[|a| + o..|a| + o + |w|] == t[o..o + |w|];
    if !last {
      assert (a + t)[|a| + o + |w|] == t[o + |w|];
    }
  }

  /** Word `i` of a space-joined text sits at its character offset,
      followed by a space unless it is the last one. */
  lemma {:induction false} OffsetLocatesWord(words: seq<string>, i: nat)
    requires i < |words|
    ensures WordAt(Join(words, " "), CharOffset(words, i), words[i], i + 1 == |words|)
    decreases |words|
  {
    var t := Join(words, " ");
    if |words| > 1 {
      var tail := Join(words[1..], " ");
      assert t == (words[0] + " ") + tail;
      if i > 0 {
        OffsetLocatesWord(words[1..], i - 1);
        CharOffsetShift(words, i);
        assert words[1..][i - 1] == words[i];
        WordAtShift(words[0] + " ", tail, CharOffset(words[1..], i - 1), words[i], i + 1 == |words|);
      } else {
        assert t[..|words[0]|] == words[0];
        assert t[|words[0]|] == ' ';
      }
    }
  }

  /** The whole text ends one character short of the offset past the last
      word. */
  lemma {:induction false} CharOffsetTotal(words: seq<string>)
    requires |words| > 0
    ensures CharOffset(words, |words|) == |Join(words, " ")| + 1
    decreases |words|
  {
    if |words| > 1 {
      CharOffsetTotal(words[1..]);
      CharOffsetShift(words, |words|);
    }
  }

  /** The `charCount` of the `onboundary` handler before word `i`: each
      earlier word's JavaScript length, in UTF-16 code units, and its
      space. */
  function Offset(words: seq<string>, i: nat): (n: nat)
    requires i <= |words|
    ensures n >= i
  {
    if i == 0 then 0 else Offset(words, i - 1) + JsLength(words[i - 1]) + 1
  }

  lemma {:induction false} OffsetMonotone(words: seq<string>, i: nat, j: nat)
    requires i <= j <= |words|
    ensures Offset(words, i) <= Offset(words, j)
    decreases j - i
  {
    if i < j {
      OffsetMonotone(words, i, j - 1);
    }
  }

  /** The offsets of the words after the first, counted from the second. */
  lemma {:induction false} OffsetShift(words: seq<string>, i: nat)
    requires 0 < i <= |words|
    ensures Offset(words, i) == JsLength(words[0]) + 1 + Offset(words[1..], i - 1)
    decreases i
  {
    if i > 1 {
      OffsetShift(words, i - 1);
      assert words[i - 1] == words[1..][i - 2];
    }
  }

  lemma {:induction false} SpaceUnit()
    ensures JsLength(" ") == 1
  {
    assert " "[1..] == "";
  }

  /** The whole text's JavaScript length is one short of the count past
      the last word. */
  lemma {:induction false} OffsetTotal(words: seq<string>)
    requires |words| > 0
    ensures Offset(words, |words|) == JsLength(Join(words, " ")) + 1
    decreases |words|
  {
    if |words| > 1 {
      OffsetTotal(words[1..]);
      OffsetShift(words, |words|);
      var tail := Join(words[1..], " ");
      assert Join(words, " ") == (words[0] + " ") + tail;
      JsLengthAppend(words[0] + " ", tail);
      JsLengthAppend(words[0], " ");
      SpaceUnit();
    }
  }

  /** A word followed by a space at `c` extends the prefix before it. */
  lemma {:induction false} PrefixStep(t: string, c: nat, w: string)
    requires c + |w| < |t| && t[c..c + |w|] == w && t[c + |w|] == ' '
    ensures t[..c + |w| + 1] == t[..c] + w + " "
  {
    assert t[..c + |w|] == t[..c] + t[c..c + |w|];
  }

  /** The count before word `i` is the JavaScript length of the text up to
      that word's first character: it is a UTF-16 position in the text. */
  lemma {:induction false} OffsetIsJsPosition(words: seq<string>, i: nat)
    requires i < |words|
    ensures var t := Join(words, " ");
            CharOffset(words, i) <= |t| && JsLength(t[..CharOffset(words, i)]) == Offset(words, i)
    decreases i
  {
    var t := Join(words, " ");
    if i > 0 {
      OffsetIsJsPosition(words, i - 1);
      var c := CharOffset(words, i - 1);
      var w := words[i - 1];
      OffsetLocatesWord(words, i - 1);
      PrefixStep(t, c, w);
      JsLengthAppend(t[..c] + w, " ");
      JsLengthAppend(t[..c], w);
      SpaceUnit();
    }
  }

  /** The two counts part at the first character outside the Basic
      Multilingual Plane: after a one-emoji word, the next word starts at
      character 2 but at UTF-16 position 3. */
  lemma {:induction false} AstralWordShiftsOffset(e: char, w: string)
    requires e as int >= 0x1_0000
    ensures CharOffset([[e], w], 1) == 2 && Offset([[e], w], 1) == 3
  {
    assert [e][1..] == [];
  }

  /** The `onboundary` handler: the first word whose end (counting its
      space) lies past the reported UTF-16 position, or 0 when none
      does. */
  method WordIndex(words: seq<string>, charIndex: int) returns (index: nat)
    ensures index == 0 || index < |words|
    ensures |words| > 0 && charIndex < Offset(words, |words|) ==>
              && index < |words| && charIndex < Offset(words, index + 1)
              && (index > 0 ==> Offset(words, index) <= charIndex)
    ensures charIndex >= Offset(words, |words|) ==> index == 0
  {
    index := 0;
    var charCount := 0;
    var i := 0;
    while i < |words|
      invariant 0 <= i <= |words|
      invariant charCount == Offset(words, i)
      invariant i > 0 ==> Offset(words, i) <= charIndex
    {
      charCount := charCount + JsLength(words[i]) + 1;
      if charCount > charIndex {
        index := i;
        OffsetMonotone(words, i + 1, |words|);
        return;
      }
      i := i + 1;
    }
  }

  /** The highlighted word is the one being spoken: for a UTF-16 position
      of the text, the index the handler settles on names the word whose
      code units hold it, or the word just before the space it stands on. */
  lemma {:induction false} SpokenWordHighlighted(text: string, charIndex: int, index: nat)
    requires 0 <= charIndex < JsLength(text)
    requires var words := Split(text, ' ');
             && index < |words| && charIndex < Offset(words, index + 1)
             && (index > 0 ==> Offset(words, index) <= charIndex)
    ensures var words := Split(text, ' ');
            var p := CharOffset(words, index);
            var q := p + |words[index]|;
            && q <= |text| && text[p..q] == words[index]
            && JsLength(text[..p]) <= charIndex <= JsLength(text[..q])
            && (charIndex == JsLength(text[..q]) ==> q < |text| && text[q] == ' ')
  {
    var words := Split(text, ' ');
    JoinSplit(text, ' ');
    WordSpan(words, index, text);
    if index + 1 == |words| {
      assert text[..|text|] == text;
    }
  }

  /** Word `i` of a space-joined text, in characters and in UTF-16 code
      units: it spans the counts before it and before the next word, less
      the space. */
  lemma {:induction false} WordSpan(words: seq<string>, i: nat, t: string)
    requires i < |words| && t == Join(words, " ")
    ensures var p := CharOffset(words, i);
            var q := p + |words[i]|;
            && q <= |t| && t[p..q] == words[i]
            && JsLength(t[..p]) == Offset(words, i)
            && JsLength(t[..q]) + 1 == Offset(words, i + 1)
            && (i + 1 < |words| ==> q < |t| && t[q] == ' ')
            && (i + 1 == |words| ==> q == |t|)
  {
    OffsetLocatesWord(words, i);
    OffsetIsJsPosition(words, i);
    if i + 1 < |words| {
      InnerWordEnd(words, i, t);
    } else {
      LastWordEnd(words, t);
    }
  }

  lemma {:induction false} InnerWordEnd(words: seq<string>, i: nat, t: string)
    requires i + 1 < |words| && t == Join(words, " ")
    ensures var q := CharOffset(words, i) + |words[i]|;
            q < |t| && JsLength(t[..q]) + 1 == Offset(words, i + 1)
  {
    var q := CharOffset(words, i) + |words[i]|;
    OffsetLocatesWord(words, i);
    OffsetIsJsPosition(words, i + 1);
    assert t[..q + 1] == t[..q] + " ";
    JsLengthAppend(t[..q], " ");
    SpaceUnit();
  }

  lemma {:induction false} LastWordEnd(words: seq<string>, t: string)
    requires |words| > 0 && t == Join(words, " ")
    ensures var q := CharOffset(words, |words| - 1) + |words[|words| - 1]|;
            q == |t| && JsLength(t[..q]) + 1 == Offset(words, |words|)
  {
    CharOffsetTotal(words);
    OffsetTotal(words);
    assert t[..|t|] == t;
  }

  /** `utterance.onend`: the card returns to its stopped state, whatever
      was spoken. */
  function SpeechEnd(s: Speech): (r: Speech)
    ensures !r.speaking && r.wordIndex == -1 && r.spoken == []
  {
    Stopped
  }

  /** Speaking and then reaching the end leaves the card as stopping
      would. */
  lemma {:induction false} SpeakThenEnd(shown: Option<seq<string>>)
    ensures SpeechEnd(Speak(shown).0) == Stopped
  {
  }

  /** `utterance.onerror`: speaking stops but the highlighted word and the
      words on show stay; a failure while in Hindi also asks for the Hindi
      language pack. */
  function SpeechError(s: Speech, isHindi: bool): (r: (Speech, Option<string>))
    ensures !r.0.speaking && r.0.wordIndex == s.wordIndex && r.0.spoken == s.spoken
    ensures r.1.Some? <==> isHindi
  {
    (s.(speaking := false),
     if isHindi then Some("Hindi speech not available. Please install Hindi language pack.") else None)
  }
}

=== FILE: store.dfy ===
/**
 * The document store behind the REST layer: three collections keyed by
 * document id, the invariant the schemas keep on them, and the uniform
 * response envelope of the controllers.
 */
module Store {
  import opened Common
  import F = FarmerModel
  import L = LoanModel
  import P = ProductModel

  type Id = F.Id

  datatype Db = Db(
    farmers: map<Id, F.Farmer>,
    loans: map<Id, L.Loan>,
    products: map<Id, P.Product>)

  /** Every stored document passed its schema, and no two farmers share an
      email. Loans may point at deleted farmers: nothing cascades. */
  predicate Consistent(db: Db)
  {
    && (forall id | id in db.farmers :: F.Valid(db.farmers[id]))
    && F.EmailsUnique(db.farmers)
    && (forall id | id in db.loans :: L.Valid(db.loans[id]))
    && (forall id | id in db.products :: P.Valid(db.products[id]))
  }

  /** Storing a valid product or loan keeps a consistent store consistent. */
  lemma {:induction false} PutProduct(db: Db, id: Id, p: P.Product)
    requires Consistent(db) && P.Valid(p)
    ensures Consistent(db.(products := db.products[id := p]))
  {
    var m := db.products[id := p];
    forall k | k in m ensures P.Valid(m[k]) {
      if k != id { assert m[k] == db.products[k]; }
    }
  }

  lemma {:induction false} PutLoan(db: Db, id: Id, l: L.Loan)
    requires Consistent(db) && L.Valid(l)
    ensures Consistent(db.(loans := db.loans[id := l]))
  {
    var m := db.loans[id := l];
    forall k | k in m ensures L.Valid(m[k]) {
      if k != id { assert m[k] == db.loans[k]; }
    }
  }

  /** `{ success, message, data }`; success is carried by the status code. */
  datatype Reply<T> = Reply(code: nat, message: string, data: Option<T>)
  {
    predicate Success() { code == 200 || code == 201 }
  }

  /** What a controller answers, and the store after the request. */
  datatype Outcome<T> = Outcome(reply: Reply<T>, db: Db)

  /** A listing reply: `count` is always the length of `data`. */
  datatype ListReply<T> = ListReply(code: nat, count: nat, data: seq<T>)

  /** Would saving `f` under `id` collide with another farmer's email? */
  predicate EmailTaken(farmers: map<Id, F.Farmer>, email: string, id: Id)
  {
    exists other | other in farmers :: other != id && farmers[other].email == email
  }

  /** `document.save()` on a farmer: the schema validators, then the
      unique email index; `None` when either refuses. */
  function SaveFarmer(farmers: map<Id, F.Farmer>, id: Id, f: F.Farmer): (r: Option<map<Id, F.Farmer>>)
    ensures r.Some? <==> F.Valid(f) && !EmailTaken(farmers, f.email, id)
    ensures r.Some? ==> r.value == farmers[id := f]
    ensures r.Some? && F.EmailsUnique(farmers) ==> F.EmailsUnique(r.value)
  {
    if F.Valid(f) && !EmailTaken(farmers, f.email, id) then Some(farmers[id := f]) else None
  }

  /** `id` appears in a listing. */
  predicate Listed<V>(s: seq<(Id, V)>, id: Id)
  {
    exists k | 0 <= k < |s| :: s[k].0 == id
  }

  /** No id appears twice in a listing. */
  predicate DistinctIds<V>(s: seq<(Id, V)>)
  {
    forall a, b | 0 <= a < b < |s| :: s[a].0 != s[b].0
  }

  /** A listing of `m`: each document once, under its own id. */
  predicate Lists<V(==)>(s: seq<(Id, V)>, m: map<Id, V>)
  {
    && (forall k | 0 <= k < |s| :: s[k].0 in m && s[k].1 == m[s[k].0])
    && DistinctIds(s)
    && (forall id | id in m :: Listed(s, id))
  }

  /** Narrowing a listing keeps its ids distinct. */
  lemma {:induction false} FilterKeepsDistinct<V>(s: seq<(Id, V)>, p: ((Id, V)) -> bool)
    ensures DistinctIds(s) ==> DistinctIds(Filter(s, p))
  {
    if s != [] && DistinctIds(s) {
      FilterKeepsDistinct(s[1..], p);
      var t := Filter(s[1..], p);
      forall k | 0 <= k < |t| ensures t[k].0 != s[0].0 {
        assert t[k] in s[1..];
      }
    }
  }

  /** `Model.find()`: the collection as a sequence, in some store order. */
  method Enumerate<V(==)>(m: map<Id, V>) returns (s: seq<(Id, V)>)
    ensures Lists(s, m)
    ensures |s| == |m|
  {
    s := [];
    var rest := m.Keys;
    while rest != {}
      invariant rest <= m.Keys
      invariant |s| + |rest| == |m.Keys|
      invariant forall k | 0 <= k < |s| :: s[k].0 in m && s[k].1 == m[s[k].0] && s[k].0 !in rest
      invariant forall a, b | 0 <= a < b < |s| :: s[a].0 != s[b].0
      invariant forall id | id in m && id !in rest :: Listed(s, id)
      decreases |rest|
    {
      var id :| id in rest;
      var s' := s + [(id, m[id])];
      assert s'[|s|].0 == id;
      forall x | x in m && x !in rest - {id} ensures Listed(s', x) {
        if x != id {
          var k :| 0 <= k < |s| && s[k].0 == x;
          assert s'[k].0 == x;
        }
      }
      s := s';
      rest := rest - {id};
    }
  }
}

=== FILE: weather.dfy ===
/**
 * The weather and farming-advisory page (frontend/app/weather/page.jsx):
 * the small markdown renderer for the advisory text, the location guards
 * in front of a search, the grouping of three-hourly forecast entries into
 * at most seven days, and the Hindi translation with its cache. The
 * weather, geocoding and language-model services are inputs.
 */
module Weather {
  import opened Common

  // ------------------------------ bold segments: `split(/(\*\*.*?\*\*)/g)`

  /** Two asterisks start at `i`. */
  predicate PairAt(s: string, i: int)
  {
    0 <= i && i + 1 < |s| && s[i] == '*' && s[i + 1] == '*'
  }

  /** The characters a regex `.` does not match. */
  predicate IsLineTerminator(c: char)
  {
    c == '\n' || c == '\r' || c == '\U{2028}' || c == '\U{2029}'
  }

  /** The lazy `.*?\*\*` from `j`: the first pair at or after `j` that is
      reached without crossing a line terminator. */
  function Close(s: string, j: nat): (k: Option<nat>)
    ensures k.Some? ==> j <= k.value && PairAt(s, k.value)
    decreases |s| - j
  {
    if PairAt(s, j) then Some(j)
    else if j >= |s| || IsLineTerminator(s[j]) then None
    else Close(s, j + 1)
  }

  /** The leftmost match of the bold pattern at or after `from`: where its
      opening pair starts and where its closing pair starts. */
  function Match(s: string, from: nat): (m: Option<(nat, nat)>)
    ensures m.Some? ==> && from <= m.value.0 && m.value.0 + 2 <= m.value.1
                        && PairAt(s, m.value.0) && PairAt(s, m.value.1)
    decreases |s| - from
  {
    if from >= |s| then None
    else if PairAt(s, from) && Close(s, from + 2).Some? then Some((from, Close(s, from + 2).value))
    else Match(s, from + 1)
  }

  /** Splitting on a pattern with a capture group: the text between
      matches at even positions, the matches themselves at odd ones. */
  function BoldSplit(s: string): (parts: seq<string>)
    ensures |parts| % 2 == 1
    ensures forall k | 0 <= k < |parts| && k % 2 == 1 ::
              |parts[k]| >= 4 && StartsWith(parts[k], "**") && EndsWith(parts[k], "**")
    decreases |s|
  {
    var m := Match(s, 0);
    if m.None? then [s]
    else
      var (i, c) := m.value;
      var rest := BoldSplit(s[c + 2..]);
      BoldPiece(s, i, c);
      BoldPartsCons(s[..i], s[i..c + 2], rest);
      [s[..i], s[i..c + 2]] + rest
  }

  /** A match, from its opening to its closing pair, is a bold piece. */
  lemma {:induction false} BoldPiece(s: string, i: nat, c: nat)
    requires i + 2 <= c && PairAt(s, i) && PairAt(s, c)
    ensures |s[i..c + 2]| >= 4 && StartsWith(s[i..c + 2], "**") && EndsWith(s[i..c + 2], "**")
  {
    var m := s[i..c + 2];
    assert m[..2] == "**";
    assert m[|m| - 2..] == "**";
  }

  /** Putting plain text and a bold piece in front of a split keeps the
      bold pieces at the odd positions. */
  lemma {:induction false} BoldPartsCons(a: string, m: string, rest: seq<string>)
    requires |m| >= 4 && StartsWith(m, "**") && EndsWith(m, "**")
    requires forall k | 0 <= k < |rest| && k % 2 == 1 ::
               |rest[k]| >= 4 && StartsWith(rest[k], "**") && EndsWith(rest[k], "**")
    ensures forall k | 0 <= k < |[a, m] + rest| && k % 2 == 1 ::
              |([a, m] + rest)[k]| >= 4 && StartsWith(([a, m] + rest)[k], "**") && EndsWith(([a, m] + rest)[k], "**")
  {
    var parts := [a, m] + rest;
    forall k | 0 <= k < |parts| && k % 2 == 1
      ensures |parts[k]| >= 4 && StartsWith(parts[k], "**") && EndsWith(parts[k], "**")
    {
      if k >= 2 {
        assert parts[k] == rest[k - 2] && (k - 2) % 2 == 1;
      }
    }
  }

  /** The split loses nothing: its parts put back together are the text. */
  lemma {:induction false} BoldSplitJoin(s: string)
    ensures Join(BoldSplit(s), "") == s
    decreases |s|
  {
    match Match(s, 0)
    case None =>
    case Some((i, c)) =>
      var rest := BoldSplit(s[c + 2..]);
      BoldSplitJoin(s[c + 2..]);
      var parts := [s[..i], s[i..c + 2]] + rest;
      assert parts[1..] == [s[i..c + 2]] + rest;
      assert ([s[i..c + 2]] + rest)[1..] == rest;
      assert s == s[..i] + s[i..c + 2] + s[c + 2..];
  }

  datatype Span = Plain(text: string) | Strong(text: string)

  /** A part that starts and ends with two asterisks is rendered bold,
      without them (`slice(2, -2)`); any other part is plain text. */
  function Render(part: string): (r: Span)
    ensures StartsWith(part, "**") && EndsWith(part, "**") ==> r == Strong(StripTwo(part))
    ensures !(StartsWith(part, "**") && EndsWith(part, "**")) ==> r == Plain(part)
  {
    if StartsWith(part, "**") && EndsWith(part, "**") then Strong(StripTwo(part)) else Plain(part)
  }

  function Spans(s: string): (r: seq<Span>)
    ensures |r| == |BoldSplit(s)|
    ensures forall k | 0 <= k < |r| && k % 2 == 1 :: r[k].Strong?
  {
    var parts := BoldSplit(s);
    seq(|parts|, k requires 0 <= k < |parts| => Render(parts[k]))
  }

  /** A first pair found by scanning forward over non-asterisks. */
  lemma {:induction false} CloseScan(s: string, j: nat, c: nat)
    requires j <= c && PairAt(s, c)
    requires forall k | j <= k < c :: s[k] != '*' && !IsLineTerminator(s[k])
    ensures Close(s, j) == Some(c)
    decreases c - j
  {
    if j < c {
      assert !PairAt(s, j);
      CloseScan(s, j + 1, c);
    }
  }

  lemma {:induction false} MatchScan(s: string, from: nat, i: nat, c: nat)
    requires from <= i && PairAt(s, i) && Close(s, i + 2) == Some(c)
    requires forall k | from <= k < i :: s[k] != '*'
    ensures Match(s, from) == Some((i, c))
    decreases i - from
  {
    if from < i {
      assert !PairAt(s, from);
      MatchScan(s, from + 1, i, c);
    }
  }

  /** Text without an asterisk is one plain part. */
  lemma {:induction false} NoStarIsPlain(s: string)
    requires '*' !in s
    ensures BoldSplit(s) == [s] && Spans(s) == [Plain(s)]
  {
    assert Match(s, 0).None?;
  }

  /** The bold pattern first matches the pair after `pre`, closing at the
      pair after `w`. */
  lemma {:induction false} EmphasisMatch(pre: string, w: string, post: string)
    requires '*' !in pre && '*' !in w
    requires forall k | 0 <= k < |w| :: !IsLineTerminator(w[k])
    ensures Match(pre + "**" + w + "**" + post, 0) == Some((|pre|, |pre| + 2 + |w|))
  {
    var s := pre + "**" + w + "**" + post;
    var i := |pre|;
    var c := i + 2 + |w|;
    assert s[i] == '*' && s[i + 1] == '*' && s[c] == '*' && s[c + 1] == '*';
    forall k | i + 2 <= k < c ensures s[k] != '*' && !IsLineTerminator(s[k]) {
      assert s[k] == w[k - i - 2];
    }
    CloseScan(s, i + 2, c);
    forall k | 0 <= k < i ensures s[k] != '*' {
      assert s[k] == pre[k];
    }
    MatchScan(s, 0, i, c);
  }

  /** A first match at `i`, closing at `c`, cuts the split there. */
  lemma {:induction false} BoldSplitAt(s: string, i: nat, c: nat)
    requires Match(s, 0) == Some((i, c))
    ensures c + 2 <= |s|
    ensures BoldSplit(s) == [s[..i], s[i..c + 2]] + BoldSplit(s[c + 2..])
  {
  }

  /** One bold phrase between two plain runs splits into exactly those
      three parts. */
  lemma {:induction false} EmphasisSplit(pre: string, w: string, post: string)
    requires '*' !in pre && '*' !in w && '*' !in post
    requires forall k | 0 <= k < |w| :: !IsLineTerminator(w[k])
    ensures BoldSplit(pre + "**" + w + "**" + post) == [pre, "**" + w + "**", post]
  {
    var s := pre + "**" + w + "**" + post;
    var c := |pre| + 2 + |w|;
    EmphasisMatch(pre, w, post);
    BoldSplitAt(s, |pre|, c);
    assert s[..|pre|] == pre;
    assert s[|pre|..c + 2] == "**" + w + "**";
    assert s[c + 2..] == post;
    NoStarIsPlain(post);
  }

  /** The markup the advisory prompt asks for: one bold phrase between two
      plain runs renders as plain, bold, plain, with the asterisks gone. */
  lemma {:induction false} Emphasis(pre: string, w: string, post: string)
    requires '*' !in pre && '*' !in w && '*' !in post
    requires forall k | 0 <= k < |w| :: !IsLineTerminator(w[k])
    ensures Spans(pre + "**" + w + "**" + post) == [Plain(pre), Strong(w), Plain(post)]
  {
    EmphasisSplit(pre, w, post);
    var b := "**" + w + "**";
    assert b[..2] == "**" && b[|b| - 2..] == "**" && b[2..|b| - 2] == w;
    assert Render(b) == Strong(w);
    assert !StartsWith(pre, "**") by {
      if |pre| >= 2 { assert pre[0] in pre; }
    }
    assert !StartsWith(post, "**") by {
      if |post| >= 2 { assert post[0] in post; }
    }
  }

  // ----------------------------------------- lines: `SimpleMarkdownParser`

  datatype Element = ListItem(spans: seq<Span>) | Heading(text: string) | Paragraph(spans: seq<Span>)

  /** One line of the advisory: a bullet ("* " or "- " after trimming)
      first, then a line wrapped in two asterisks as a heading, then any
      other non-blank line as a paragraph of the untrimmed line. Blank
      lines render nothing. */
  function ClassifyLine(line: string): (e: Option<Element>)
    ensures e.None? <==> Trim(line) == ""
    ensures StartsWith(Trim(line), "* ") || StartsWith(Trim(line), "- ") ==>
              e == Some(ListItem(Spans(Trim(line)[2..])))
    ensures !(StartsWith(Trim(line), "* ") || StartsWith(Trim(line), "- ")) &&
            StartsWith(Trim(line), "**") && EndsWith(Trim(line), "**") ==>
              e == Some(Heading(StripTwo(Trim(line))))
    ensures e.Some? && e.value.Heading? ==> StartsWith(Trim(line), "**") && EndsWith(Trim(line), "**")
    ensures e.Some? && e.value.Paragraph? ==> e.value.spans == Spans(line)
  {
    var t := Trim(line);
    if StartsWith(t, "* ") || StartsWith(t, "- ") then Some(ListItem(Spans(t[2..])))
    else if StartsWith(t, "**") && EndsWith(t, "**") then Some(Heading(StripTwo(t)))
    else if t != "" then Some(Paragraph(Spans(line)))
    else None
  }

  /** Trimming leaves a string alone when neither end is white space. */
  lemma {:induction false} TrimUntouched(s: string)
    requires |s| > 0 && !IsSpace(s[0]) && !IsSpace(s[|s| - 1])
    ensures Trim(s) == s
  {
    assert TrimStart(s) == s;
  }

  /** A line wrapped in two asterisks is a heading of what lies between. */
  lemma {:induction false} BoldLineIsHeading(w: string)
    ensures ClassifyLine("**" + w + "**") == Some(Heading(w))
  {
    var s := "**" + w + "**";
    TrimUntouched(s);
    assert s[..2] == "**" && s[|s| - 2..] == "**";
    assert s[1] == '*';
  }

  /** A bullet that opens with a bold phrase is a list item, not a
      heading, even when it also ends in two asterisks. */
  lemma {:induction false} BoldBulletIsListItem(w: string, post: string)
    requires '*' !in w && '*' !in post
    requires forall k | 0 <= k < |w| :: !IsLineTerminator(w[k])
    requires |post| > 0 ==> !IsSpace(post[|post| - 1])
    ensures ClassifyLine("* **" + w + "**" + post) == Some(ListItem([Plain(""), Strong(w), Plain(post)]))
  {
    var s := "* **" + w + "**" + post;
    TrimUntouched(s);
    assert s[..2] == "* ";
    assert s[2..] == "" + "**" + w + "**" + post;
    Emphasis("", w, post);
  }

  /** The outputs of `f` over `xs`, in order, skipping `None`. */
  function Collect<A, B>(xs: seq<A>, f: A -> Option<B>): (ys: seq<B>)
    ensures |ys| <= |xs|
  {
    if |xs| == 0 then []
    else (if f(xs[0]).Some? then [f(xs[0]).value] else []) + Collect(xs[1..], f)
  }

  /** The elements the advisory renders to, line by line. */
  function Parse(text: string): (es: seq<Element>)
    ensures |es| <= |Split(text, '\n')|
  {
    Collect(Split(text, '\n'), ClassifyLine)
  }

  /** Lines render independently of each other. */
  lemma {:induction false} CollectAppend<A, B>(a: seq<A>, b: seq<A>, f: A -> Option<B>)
    ensures Collect(a + b, f) == Collect(a, f) + Collect(b, f)
    decreases |a|
  {
    if |a| == 0 {
      assert a + b == b;
    } else {
      var h := if f(a[0]).Some? then [f(a[0]).value] else [];
      assert (a + b)[0] == a[0];
      assert (a + b)[1..] == a[1..] + b;
      assert Collect(a + b, f) == h + Collect(a[1..] + b, f);
      assert Collect(a, f) == h + Collect(a[1..], f);
      CollectAppend(a[1..], b, f);
      assert h + (Collect(a[1..], f) + Collect(b, f)) == (h + Collect(a[1..], f)) + Collect(b, f);
    }
  }

  /** An input `f` skips contributes nothing wherever it stands. */
  lemma {:induction false} Skipped<A, B>(a: seq<A>, x: A, b: seq<A>, f: A -> Option<B>)
    requires f(x).None?
    ensures Collect(a + [x] + b, f) == Collect(a + b, f)
  {
    CollectAppend(a + [x], b, f);
    CollectAppend(a, [x], f);
    CollectAppend(a, b, f);
    assert Collect([x], f) == [] by {
      assert [x][1..] == [];
    }
  }

  /** A blank line renders nothing wherever it stands. */
  lemma {:induction false} BlankLineDropped(a: seq<string>, line: string, b: seq<string>)
    requires Trim(line) == ""
    ensures Collect(a + [line] + b, ClassifyLine) == Collect(a + b, ClassifyLine)
  {
    assert ClassifyLine(line).None?;
    Skipped(a, line, b, ClassifyLine);
  }

  /** One output per input exactly when `f` skips none, and then the k-th
      output is the k-th input's. */
  lemma {:induction false} OneElementPerLine<A, B>(xs: seq<A>, f: A -> Option<B>)
    ensures |Collect(xs, f)| == |xs| <==> forall k | 0 <= k < |xs| :: f(xs[k]).Some?
    ensures |Collect(xs, f)| == |xs| ==>
              forall k | 0 <= k < |xs| :: Some(Collect(xs, f)[k]) == f(xs[k])
    decreases |xs|
  {
    if |xs| > 0 {
      OneElementPerLine(xs[1..], f);
      var rest := Collect(xs[1..], f);
      if f(xs[0]).None? {
        assert Collect(xs, f) == rest;
      } else {
        var es := Collect(xs, f);
        assert es == [f(xs[0]).value] + rest;
        if |es| == |xs| {
          forall k | 0 <= k < |xs| ensures Some(es[k]) == f(xs[k]) {
            if k > 0 {
              assert es[k] == rest[k - 1];
              assert xs[k] == xs[1..][k - 1];
            }
          }
        }
        if forall k | 0 <= k < |xs| :: f(xs[k]).Some? {
          forall k | 0 <= k < |xs| - 1 ensures f(xs[1..][k]).Some? {
            assert xs[1..][k] == xs[k + 1];
          }
        } else {
          var k :| 0 <= k < |xs| && f(xs[k]).None?;
          assert k > 0 && xs[1..][k - 1] == xs[k];
        }
      }
    }
  }

  // --------------------------------------------------------- forecast days

  /** Where `x` first occurs in `s`. */
  function FirstIndex(s: seq<string>, x: string): (r: nat)
    requires x in s
    ensures r < |s| && s[r] == x && x !in s[..r]
  {
    if s[0] == x then 0
    else
      var r := 1 + FirstIndex(s[1..], x);
      assert s[..r] == [s[0]] + s[1..][..r - 1];
      r
  }

  lemma {:induction false} FirstIndexUnique(s: seq<string>, x: string, a: nat)
    requires a < |s| && s[a] == x && x !in s[..a]
    ensures FirstIndex(s, x) == a
  {
  }

  /** The date keys of `dailyData` in insertion order: each date the first
      time it occurs. */
  function DayKeys(dates: seq<string>): (keys: seq<string>)
    ensures forall x :: x in keys <==> x in dates
    ensures forall i, j | 0 <= i < j < |keys| :: keys[i] != keys[j]
  {
    if |dates| == 0 then []
    else
      var keys := DayKeys(dates[..|dates| - 1]);
      assert dates == dates[..|dates| - 1] + [dates[|dates| - 1]];
      if dates[|dates| - 1] in keys then keys else keys + [dates[|dates| - 1]]
  }

  /** The keys come in the order their dates first appear. */
  lemma {:induction false} DayKeysInOrder(dates: seq<string>)
    ensures forall i, j | 0 <= i < j < |DayKeys(dates)| ::
              FirstIndex(dates, DayKeys(dates)[i]) < FirstIndex(dates, DayKeys(dates)[j])
    decreases |dates|
  {
    if |dates| > 0 {
      var n := |dates| - 1;
      var front := dates[..n];
      var keys := DayKeys(front);
      DayKeysInOrder(front);
      assert dates == front + [dates[n]];
      forall x | x in front ensures FirstIndex(dates, x) == FirstIndex(front, x) {
        var a := FirstIndex(front, x);
        assert dates[..a] == front[..a];
        FirstIndexUnique(dates, x, a);
      }
      if dates[n] !in keys {
        assert dates[..n] == front;
        FirstIndexUnique(dates, dates[n], n);
        var all := keys + [dates[n]];
        assert forall x | x in all :: x in dates;
        forall i, j | 0 <= i < j < |all| ensures FirstIndex(dates, all[i]) < FirstIndex(dates, all[j]) {
          assert all[i] == keys[i] && keys[i] in front;
          if j < |keys| {
            assert all[j] == keys[j];
          }
        }
      }
    }
  }

  /** `Object.keys(dailyData).slice(0, 7)`: the first seven days. */
  function Forecast(dates: seq<string>): (days: seq<string>)
    ensures |days| <= 7
    ensures days <= DayKeys(dates)
    ensures forall x :: x in days ==> x in dates
    ensures forall i, j | 0 <= i < j < |days| :: days[i] != days[j]
    ensures |DayKeys(dates)| >= 7 ==> |days| == 7
    ensures |DayKeys(dates)| < 7 ==> forall x :: x in dates ==> x in days
  {
    Take(DayKeys(dates), 7)
  }

  // ------------------------ the page: search, recommendations, translation

  /** What the language model returned for the advisory: a first
      candidate (whose text may be missing), or no candidate / an error. */
  datatype AdviceReply = Candidate(text: Option<string>) | NoCandidate

  const AdviceUnavailable := "Could not load AI recommendations at this time."

  /** `fetchGeminiRecommendations`: the candidate's text, or the fixed
      apology. */
  function Advice(a: AdviceReply): (r: Option<string>)
    ensures a.NoCandidate? <==> r == Some(AdviceUnavailable) && a != Candidate(Some(AdviceUnavailable))
    ensures a.Candidate? ==> r == a.text
  {
    match a
    case Candidate(t) => t
    case NoCandidate => Some(AdviceUnavailable)
  }

  /** The kept forecast days and the advisory text. */
  datatype WeatherData = WeatherData(forecast: seq<string>, recommendations: Option<string>)

  datatype Page = Page(weather: Option<WeatherData>, error: string, isHindi: bool, translatedText: string)

  /** How the service calls of a search ended: the dates of the forecast
      entries and the advice reply, or a thrown error and its message. */
  datatype CityFetch = Located(dates: seq<string>, advice: AdviceReply) | FetchFailed(message: Option<string>)

  const InvalidLocation := "Please enter a valid location"
  const KeyMissing := "Weather API key not configured. Please add NEXT_PUBLIC_OPENWEATHER_API_KEY to .env.local"
  const FetchFailedMessage := "Failed to fetch weather data"

  /** The guard of `fetchWeatherDataForCity`. */
  predicate ValidCity(city: Option<string>)
  {
    Truthy(city) && Trim(city.value) != ""
  }

  /** `fetchWeatherDataForCity` as written: the guard keeps everything
      but the error; a search clears the data, then stores what the
      services returned. The language toggle and the cached translation
      are left as they were. */
  function SearchCity(p: Page, city: Option<string>, keyConfigured: bool, f: CityFetch): (r: Page)
    ensures !ValidCity(city) ==> r == p.(error := InvalidLocation)
    ensures r.isHindi == p.isHindi && r.translatedText == p.translatedText
    ensures ValidCity(city) && !keyConfigured ==> r.weather.None? && r.error == KeyMissing
    ensures ValidCity(city) && keyConfigured && f.FetchFailed? ==>
              r.weather.None? && r.error == OrElse(f.message, FetchFailedMessage)
    ensures ValidCity(city) ==> (r.weather.Some? <==> keyConfigured && f.Located?)
    ensures ValidCity(city) && r.weather.Some? ==>
              r.error == "" && r.weather.value == WeatherData(Forecast(f.dates), Advice(f.advice))
  {
    if !ValidCity(city) then p.(error := InvalidLocation)
    else if !keyConfigured then p.(weather := None, error := KeyMissing)
    else
      match f
      case FetchFailed(m) => p.(weather := None, error := OrElse(m, FetchFailedMessage))
      case Located(dates, a) => p.(weather := Some(WeatherData(Forecast(dates), Advice(a))), error := "")
  }

  /** `fetchWeatherData`: the search box is trimmed first, with its own
      message for an empty box. */
  function SearchBox(p: Page, location: string, keyConfigured: bool, f: CityFetch): (r: Page)
    ensures Trim(location) == "" ==> r == p.(error := "Please enter a location.")
    ensures Trim(location) != "" ==> r.weather.Some? == (keyConfigured && f.Located?)
  {
    var t := Trim(location);
    if t == "" then p.(error := "Please enter a location.")
    else
      TrimTwice(location);
      SearchCity(p, Some(t), keyConfigured, f)
  }

  /** Trimming is idempotent. */
  lemma {:induction false} TrimTwice(s: string)
    requires Trim(s) != ""
    ensures Trim(Trim(s)) == Trim(s)
  {
    TrimUntouched(Trim(s));
  }

  /** The advisory text on screen: the translation when Hindi is on and
      one is cached, otherwise the English recommendations. */
  function Shown(p: Page): (r: Option<string>)
    requires p.weather.Some?
    ensures p.isHindi && p.translatedText != "" ==> r == Some(p.translatedText)
    ensures !(p.isHindi && p.translatedText != "") ==> r == p.weather.value.recommendations
  {
    if p.isHindi && p.translatedText != "" then Some(p.translatedText) else p.weather.value.recommendations
  }

  /** What the translation request returned: a candidate's text (possibly
      missing), or an error. */
  datatype TranslationReply = Translated(text: Option<string>) | TranslationFailed

  const NoTranslation := "अनुवाद उपलब्ध नहीं है।"
  const TranslationError := "अनुवाद में त्रुटि हुई।"

  /** A translation is requested only for a non-empty advisory. */
  predicate CanTranslate(p: Page)
  {
    p.weather.Some? && Truthy(p.weather.value.recommendations)
  }

  /** `translateToHindi`: without an advisory nothing happens; otherwise
      the page switches to Hindi with the translation, or a fixed Hindi
      notice when there is none or the request failed. */
  function TranslateToHindi(p: Page, reply: TranslationReply): (r: Page)
    ensures !CanTranslate(p) ==> r == p
    ensures CanTranslate(p) ==> r.isHindi && r.translatedText != "" && r.weather == p.weather && r.error == p.error
    ensures CanTranslate(p) && reply.TranslationFailed? ==> r.translatedText == TranslationError
    ensures CanTranslate(p) && reply.Translated? ==> r.translatedText == OrElse(reply.text, NoTranslation)
  {
    if !CanTranslate(p) then p
    else
      match reply
      case Translated(t) => p.(translatedText := OrElse(t, NoTranslation), isHindi := true)
      case TranslationFailed => p.(translatedText := TranslationError, isHindi := true)
  }

  /** `toggleLanguage`: back to English, or to Hindi, translating only
      when nothing is cached. The flag says whether a translation request
      went out. */
  function ToggleLanguage(p: Page, reply: TranslationReply): (r: (Page, bool))
    ensures r.1 <==> !p.isHindi && p.translatedText == "" && CanTranslate(p)
    ensures p.isHindi ==> r.0 == p.(isHindi := false)
    ensures !p.isHindi && p.translatedText != "" ==> r.0 == p.(isHindi := true)
    ensures !p.isHindi && p.translatedText == "" ==> r.0 == TranslateToHindi(p, reply)
  {
    if p.isHindi then (p.(isHindi := false), false)
    else if p.translatedText == "" then (TranslateToHindi(p, reply), CanTranslate(p))
    else (p.(isHindi := true), false)
  }

  /** Once translated, switching back and forth reuses the cached text
      and never asks again. */
  lemma {:induction false} TranslationCached(p: Page, r1: TranslationReply, r2: TranslationReply, r3: TranslationReply)
    requires !p.isHindi && p.translatedText == "" && CanTranslate(p)
    ensures var (q, asked) := ToggleLanguage(p, r1);
            var (q2, asked2) := ToggleLanguage(q, r2);
            var (q3, asked3) := ToggleLanguage(q2, r3);
            && asked && !asked2 && !asked3
            && q3 == q && Shown(q3) == Some(q.translatedText)
  {
  }

  /** As written, a search made while the Hindi view is on keeps showing
      the previous advisory's translation instead of the new advisory. */
  lemma {:induction false} StaleTranslationAfterSearch(p: Page, t: string, city: Option<string>, dates: seq<string>, a: AdviceReply)
    requires CanTranslate(p) && !p.isHindi && p.translatedText == ""
    requires t != "" && ValidCity(city) && Advice(a) != Some(t)
    ensures var p1 := ToggleLanguage(p, Translated(Some(t))).0;
            var p2 := SearchCity(p1, city, true, Located(dates, a));
            && p2.weather.Some? && p2.weather.value.recommendations == Advice(a)
            && Shown(p2) == Some(t) != p2.weather.value.recommendations
  {
  }

  /** The search with the translation invalidated: a new search returns to
      the English view and drops the cached translation. */
  function SearchCityFixed(p: Page, city: Option<string>, keyConfigured: bool, f: CityFetch): (r: Page)
    ensures !ValidCity(city) ==> r == p.(error := InvalidLocation)
    ensures ValidCity(city) ==> r == SearchCity(p, city, keyConfigured, f).(isHindi := false, translatedText := "")
  {
    if !ValidCity(city) then p.(error := InvalidLocation)
    else SearchCity(p, city, keyConfigured, f).(isHindi := false, translatedText := "")
  }

  /** After a successful search the page shows the new advisory, and the
      Hindi button translates that advisory afresh. */
  lemma {:induction false} FixedSearchShowsNewAdvice(p: Page, city: Option<string>, dates: seq<string>, a: AdviceReply, reply: TranslationReply)
    requires ValidCity(city)
    ensures var r := SearchCityFixed(p, city, true, Located(dates, a));
            && r.weather.Some? && Shown(r) == Advice(a)
            && (ToggleLanguage(r, reply).1 <==> Truthy(Advice(a)))
  {
  }
}
